=== FILE: README.md ===
# tree — a Dafny model

`tree` prints a directory hierarchy as an indented outline. Under each
directory, every entry sits on its own line behind a `├──` or `└──`
connector, and subdirectories are expanded below their line. The options
are:

- `-d`: directories only;
- `-L`: a depth limit;
- `-r`: reverse order;
- `-s`: a summary of the counts;
- `-f`: full paths.

The repository has two implementations: the C program (`tree.c`, `list.c`,
`out.c`) and a Go rewrite (`main.go`). This project models both, each as
pure functions over an explicit file system, and proves what their output
looks like.

The C program is modelled by these modules:

- `Dirent`: the name-length bound and the three kinds of entries.
- `EntryList`: the growable list of `list.c`. It covers initialisation,
  emptiness, growth, the three pushes, the directories-first
  case-insensitive comparator, insertion sort, reversal and destruction.
- `Sorting`: the insertion sort itself, as a function and as the in-place
  array loop of `list_sort`. It carries the proofs of permutation,
  sortedness, stability and uniqueness.
- `Render`: `indent_item` with its plain and coloured forms.
  `StripAnsi` removes SGR escape sequences from a string. Applied to a
  coloured line, it gives exactly the plain line.
- `Traversal`: `crawl_and_print`. It reads one directory (hidden names
  skipped, `-d` applied, counters bumped), then orders the entries, then
  prints each one and descends. The file system is a map from a path to
  what `opendir`/`readdir` yield.
- `Program`: `main` and `print_summary`. It covers the `-L` check, the
  root line, the rendered output and the summary line. The summary is
  proved to read back to the counts.
- `Text` holds the decimal and "`n` noun" formatting with parsers used for
  the round trips. `Seqs`, `Paths` and `Wrappers` are small shared
  helpers.

The Go rewrite is modelled by `GoTree`. Its behaviour differs from the C
program:

- Entries are ordered by their joined path with `cmp.Compare`.
- A directory that cannot be read is empty.
- A directory named `.git`, `zig-cache`, `node_modules`, `target` or
  `.terraform` is listed and counted but not entered, except under `-D`.
- Counts are always kept.
- A symbolic link on which `os.Readlink` fails aborts the run. `Readlink`
  does not follow the link, so a dangling link still reads and is printed
  with its target.
- Names starting with a dot are listed; the C program skips them.

The file system here is a map from a directory to its `ReadDir` result,
plus a map of what `os.Readlink` returns for each link it can read. `GoTree` also models the trailing
slash loop of `main`.

The Go rewrite indents below a last entry by three spaces (`"   "`), one
fewer than the four characters (`"│   "`) below other entries; the C
program uses four in both cases (`ITEM_BLANK`). The model keeps the Go
behaviour: `GoTree.NextPrefix` states the exact prefix, `prefix` followed
by `"│   "` under `├──` and by `"   "` under `└──`. Nothing suggests this is unintended, so it is not listed as a
finding.

Both walks are modelled as the code is written, including its two
defects:

- Under `-r`, `Traversal.Ordered` applies `list_reverse` as written. For an
  even number of entries, the two central entries stay in place.
- `GoTree.GoMain` runs the trailing-slash loop as written. It panics on
  an empty path or one made only of slashes.

The corrected versions are modelled and proved separately, and the
Findings table lists both.

C strings are modelled one character per byte: every length bound
counts characters. The bounds are the 255 of `strndup`, `readlink`,
`strncpy`, `getcwd` and `strncasecmp`.

The two differ only on names with non-ASCII characters. `## Left out`
names each member where that matters.

## Model

| member | source | states |
|---|---|---|
| Dirent.NameLengthOn | list.h:8-14 | `DIRENT_NAME_LENGTH` is 1023 with 64-bit Darwin inodes, else `NAME_MAX` when the platform defines it, else 255 |
| EntryList.ListInit | list.c:30-41 | a new list is empty, has 64 slots with one free for the next push, and remembers the full-path flag |
| EntryList.ListIsEmpty | list.c:43-46 | the list is empty exactly when it holds no entry |
| EntryList.ExtendList | list.c:14-28 | a full list gains 10 slots, a list with room keeps its capacity, and the entries never change; afterwards there is a free slot |
| EntryList.Append | list.c:98-105 | the item lands at index `cur`, earlier entries are untouched, `cur` grows by one, and a free slot remains |
| EntryList.Truncate | list.c:81 | `strndup` keeps the whole string when it has at most `n` characters and exactly its first `n` characters otherwise |
| EntryList.StoredName | list.c:77-89 | with `-f` the stored path is `parent/name`; otherwise it is a prefix of the name of at most `DIRENT_NAME_LENGTH` characters, the whole name when it fits |
| EntryList.PushFile | list.c:48-106 | the list gains exactly one file entry at its end, with the stored name and the `stat` mode |
| EntryList.PushLink | list.c:108-180 | the list gains exactly one link entry at its end; its destination is the `readlink` target cut to `DIRENT_NAME_LENGTH` |
| EntryList.PushDir | list.c:182-229 | the list gains exactly one directory entry at its end, with the stored name |
| EntryList.ItemCompare | list.c:310-326 | a directory sorts before a file or link, and a file or link after a directory; two entries of the same group compare by `strncasecmp` of their strings |
| EntryList.CaseCompareIsFoldedOrder | list.c:317 | on NUL-free strings, `strncasecmp` is 0 exactly when the lower-cased first `n` characters are equal, and negative exactly when they are lexicographically smaller |
| EntryList.CaseCompareAntisymmetric | list.c:317 | swapping the arguments of `strncasecmp` negates the result |
| EntryList.CaseCompareTransitive | list.c:325 | "compares at most" under `strncasecmp` is transitive |
| EntryList.ItemCompareIsComparator | list.c:310-326 | `item_compare` is antisymmetric and transitive, so sorting by it is well defined |
| EntryList.SortedDirectoriesFirst | list.c:315-323 | in a list sorted by `item_compare`, no directory comes after a non-directory |
| EntryList.ListSort | list.c:328-346 | the sorted list holds the same entries, in `item_compare` order, and is the stable insertion sort of the input |
| Sorting.InsertionSort | list.c:333-345 | the in-place outer loop produces the functional insertion sort of the input |
| Sorting.ShiftGreater | list.c:337-341 | the inner loop moves right by one slot exactly the run of elements that compare greater than the item, and stops at the slot where it belongs |
| Sorting.SortPermutation | list.c:328-346 | insertion sort is a permutation of its input |
| Sorting.SortSorted | list.c:328-346 | with a proper comparator, insertion sort yields a sorted sequence |
| Sorting.SortStable | list.c:338 | since only strictly greater elements are moved past, elements that compare equal keep their input order |
| Sorting.SortedPermutationUnique | list.c:328-346 | when no two distinct elements compare equal, there is only one sorted arrangement of a multiset |
| EntryList.ListReverse | list.c:348-355 | as written: the first and last `(cur - 1) / 2` positions are swapped pairwise; an odd-length list is reversed, but an even-length list keeps its two central entries in place |
| EntryList.ReverseAsWrittenIff | list.c:350 | the as-written loop reverses the list exactly when its length is odd or its two central entries are equal |
| EntryList.ReverseAsWrittenTwoEntries | list.c:350 | with two distinct entries, `-r` leaves them in ascending order instead of swapping them |
| EntryList.MirrorHalfIsReverse | list.c:350-354 | swapping `cur / 2` pairs from the ends reverses the whole list |
| EntryList.MirrorIsReverseIff | list.c:350-354 | swapping `m` pairs from the ends reverses the list exactly when the untouched middle is a palindrome |
| EntryList.SwapEnds | list.c:350-354 | the swap loop run `m` times mirrors the first and last `m` positions and leaves the middle |
| EntryList.MirrorMultiset | list.c:350-354 | swapping pairs from the ends keeps the same entries |
| EntryList.ListReverseFixed | list.c:348-355 | with the bound `cur / 2`, the list is reversed for every length |
| EntryList.ListDestroy | list.c:278-287 | the entries at indices `0` to `cur - 1` are each released once, in order, and nothing else is |
| Text.DecimalRoundTrip | tree.c:156-164 | the `%d` rendering of a count reads back as that count |
| Text.ParseFormatTally | tree.c:156-164 | "count noun" followed by any non-letter text reads back as the count, the noun and that text |
| Render.Sgr | out.h:6-17 | each colour macro is `ESC [ code m`, three characters longer than its code |
| Render.PlainLine | out.c:8-41 | the plain line starts with the indent, the connector and a space, and ends with a newline |
| Render.ColorLine | out.c:43-87 | the coloured line starts with the indent, the connector and a space, and ends with a newline |
| Render.ColorMatchesPlain | out.c:43-87 | removing the escape sequences from the coloured line gives the plain line, for files, links and directories alike |
| Render.ColorLineHasEscape | out.c:43-87 | the coloured line always contains an escape character |
| Render.ExecutableColour | out.c:53-59 | a file with an execute bit for user, group or other is shown in bold green; any other file is shown after a reset |
| Render.PlainHasNoEscape | out.c:8-41 | a plain line whose names contain no escape character contains none |
| Render.IndentItem | out.c:89-98 | a terminal gets the coloured form and anything else the plain form; either way, what remains once the escapes are removed is the plain line |
| Traversal.Bump | tree.c:58-59 | a counter moves by one only when `-s` is on: the directory counter for a directory, the file counter otherwise |
| Traversal.ReadOne | tree.c:53-90 | hidden names and unknown types are skipped, and files and links are skipped under `-d`; any other entry appends exactly its stored form (`Traversal.Stored`: a directory, a file with its mode, or a link with its target cut to `DIRENT_NAME_LENGTH`) and bumps the matching counter |
| Traversal.ReadDir | tree.c:49-91 | the list is exactly the stored forms of the listed entries, in `readdir` order; with `-s` the counters equal the number of stored directories and non-directories (0 and 0 otherwise); every stored name is visible and fits `DIRENT_NAME_LENGTH` or is `dir/name` |
| Traversal.StoredFrom | tree.c:53-90 | every stored entry is the stored form of a listed `readdir` entry |
| Traversal.Ordered | tree.c:95-101 | the same entries in `item_compare` order; under `-r`, that order with the first and last `(n - 1) / 2` entries swapped pairwise, which is the exact reverse when `n` is odd |
| Traversal.ChildPath | tree.c:113-129 | the subdirectory opened is strictly longer than its parent and starts with `parent/` |
| Traversal.Crawl | tree.c:31-151 | the walk fails only on a path that is neither readable nor permission-denied, and then names that path |
| Traversal.CrawlFails | tree.c:36-45 | a walk fails only on its own directory or on a listed subdirectory below it, opened as `dir/name`; the path does not open |
| Traversal.ChildOpenedAs | tree.c:113-129 | a subdirectory is opened below its parent, at the path of one of the parent's listed directory entries |
| Traversal.ConnectorAt | tree.c:105-109 | `└──` goes on the last entry and `├──` on every other |
| Traversal.NextIndent | tree.c:131-135 | below `├──` the indent gains the rail `ITEM_SEP`, below `└──` four blanks (`ITEM_BLANK`) |
| Traversal.CrawlShape | tree.c:31-151 | every line is at or below the start level and above the `-L` limit; its indent extends the parent's by four characters per level; under `-d` it is a directory; without `-f` its name is visible and fits `DIRENT_NAME_LENGTH` |
| Traversal.BelowShape | tree.c:113-140 | every line below entry `i` is deeper and has an indent that starts with the parent's indent plus `ITEM_SEP` below `├──` or `ITEM_BLANK` below `└──` |
| Traversal.CrawlCounts | tree.c:56-90 | with `-s` the counters equal the number of directory lines and of other lines printed; without `-s` they stay 0 |
| Traversal.CountsOfPermutation | tree.c:95-101 | sorting and reversing do not change how many directories and files there are |
| Traversal.CrawlHeads | tree.c:95-111 | the lines at the start depth are the directory's entries in sorted order (under `-r`, with `list_reverse`'s swaps applied), `└──` on the last only; every other line is deeper |
| Program.CheckDepth | tree.c:188-200 | a negative `-L` is an error carrying its value; any other value becomes the depth limit |
| Program.DepthLimitHolds | tree.c:33-34 | with an accepted positive `-L n`, no line is printed at depth `n` or deeper |
| Program.Summary | tree.c:153-166 | the summary opens with a newline (the blank line before it) and ends with a newline |
| Program.SummaryRoundTrip | tree.c:153-166 | the summary reads back as the directory count, then the file count unless `-d`, each with the singular noun exactly when the count is 1 |
| Program.RenderLine | out.c:89-98 | every entry is printed as a line that ends with a newline |
| Program.ColourShowsPlain | out.c:89-98 | with every name free of escapes, the terminal output with its escapes removed is the output written to a pipe |
| Program.PlainHasNoEscape | out.c:89-98 | the output written to a pipe contains no escape character |
| Program.RootOf | tree.c:225-236 | the root is the operand cut to `DIRENT_NAME_LENGTH`, or without one the working directory; without one there is no root exactly when the working directory has `DIRENT_NAME_LENGTH` characters or more |
| Program.Tree | tree.c:225-242 | without an operand, a working directory that does not fit the `getcwd` buffer is a failure; otherwise the output starts with the root on its own line, and a run fails only where `opendir` fails fatally, on the root or on a listed subdirectory below it |
| Program.TreeSummaryCounts | tree.c:238-242 | under `-s` the summary counts exactly the directory lines and the other lines above it |
| Program.TreeTopLevel | tree.c:238-239 | the first level of output is the root's listed entries in sorted order (under `-r`, with `list_reverse`'s swaps applied) |
| GoTree.TrimRightMeaning | main.go:81 | the trimmed path is a prefix that does not end in `/`, and only slashes were removed |
| GoTree.BaseOfJoin | main.go:81 | `filepath.Base` of `dir/name` is `name` |
| GoTree.SkippableJoin | main.go:72-90 | an entry is skippable exactly when its own name is one of the five cache and VCS names, whatever its parent |
| GoTree.StrCompare | main.go:206 | `cmp.Compare` on strings returns -1, 0 or 1 |
| GoTree.StrCompareMeaning | main.go:206 | `cmp.Compare` is 0 exactly on equal strings and negative exactly when the first sorts before the second |
| GoTree.StrCompareAntisymmetric | main.go:206 | swapping the arguments negates the result |
| GoTree.StrCompareTransitive | main.go:206 | "at most" under `cmp.Compare` is transitive |
| GoTree.JoinCompare | main.go:185 | two joined paths in one directory compare as their names do |
| GoTree.GoCompare | main.go:197-207 | a folder sorts before a non-folder, and a non-folder after a folder |
| GoTree.GoCompareIsComparator | main.go:197-207 | the comparator is antisymmetric and transitive |
| GoTree.Kept | main.go:184-194 | every kept entity is a listed entry with its joined path, and is a folder under `-d`; there is one kept entity per entry, or under `-d` one per folder entry |
| GoTree.KeptComplete | main.go:184-194 | every listed entry that `-d` lets through is kept |
| GoTree.GoOrdered | main.go:196-212 | the same entities, sorted by the comparator, or reversed under `-r` |
| GoTree.GoSortUnique | main.go:197-207 | with distinct names, every sorted rearrangement of the kept entities is the one modelled, so the sort's lack of stability does not matter |
| GoTree.SortedByName | main.go:196-207 | in sorted order, folders come first, and within each group names ascend |
| GoTree.Classify | main.go:106-137 | a folder is shown as a folder; a link on which `Readlink` fails is an error naming its path; any other link is always shown as a link with what `Readlink` returns, dangling or not; any other non-folder is shown as executable exactly when an execute bit is set, and as a plain file otherwise |
| GoTree.ExecuteBits | main.go:127 | masking with `ModePerm & 0o111` tests the owner, group and other execute bits |
| GoTree.BranchAt | main.go:216-219 | `└──` on the last entity and `├──` on every other |
| GoTree.NextPrefix | main.go:235-238 | below `├──` the prefix gains the rail `PREFIX_MIDDLE`, below `└──` three blanks (`PREFIX_LAST`) |
| GoTree.Crawl | main.go:164-258 | a walk fails only on a link whose target cannot be read, and the error names that link |
| GoTree.CrawlFails | main.go:214-250 | a walk fails only on the joined path of a listed non-folder entry that has the symlink bit, lies below the start directory, and has no readable target |
| GoTree.CrawlCounts | main.go:240-254 | the counters equal the number of folder lines (entered or skipped) and of other lines printed |
| GoTree.DirectoriesOnlyCountsNoFiles | main.go:184-194 | under `-d` the file counter is 0 |
| GoTree.CrawlShape | main.go:164-258 | every line is at or below the start level and above `-L`; its prefix extends the parent's by three or four characters per level; a line is deeper only below an entered folder that is not skipped; under `-d` it is a folder |
| GoTree.BelowShape | main.go:234-244 | every line below entity `i` is deeper and has a prefix that starts with the parent's prefix plus `PREFIX_MIDDLE` below `├──` or `PREFIX_LAST` below `└──` |
| GoTree.CrawlHeads | main.go:196-238 | the lines at the start depth are the kept entities in sorted order, each with its name or path, connector and the presentation `Classify` picks; every other line is deeper |
| GoTree.EchoItem | main.go:106-137 | each entity is printed as a line that ends with a newline |
| GoTree.EchoItemOneLine | main.go:106-137 | an entity whose names contain no newline takes exactly one line of output |
| GoTree.RenderLinesCount | main.go:214-231 | the output has exactly one line per printed entity |
| GoTree.Summary | main.go:144-162 | the summary opens with a newline (the blank line before it) and ends with a newline |
| GoTree.SummaryRoundTrip | main.go:144-162 | the summary reads back as the folder count and the file count, each with the singular noun exactly when the count is 1 |
| GoTree.StripAsWrittenMeaning | main.go:281-284 | as written, the loop fails exactly on a path of slashes only (or an empty path) and otherwise removes the trailing slashes |
| GoTree.StripAsWrittenRootPanics | main.go:282 | stripping `/` as written indexes an empty string |
| GoTree.StripTrailingSlashesCorrect | main.go:281-284 | the corrected strip leaves no trailing slash, maps an all-slash path to `/`, only removes slashes, agrees with the loop wherever the loop succeeds, and is idempotent |
| GoTree.RootPathMeaning | main.go:270-284 | the path to walk is the operand, or the working directory without one; the loop panics exactly on an empty or all-slash path and otherwise drops only the trailing slashes |
| GoTree.GoMain | main.go:260-297 | a run panics exactly when the path to walk is empty or all slashes; otherwise the output starts with the path without its trailing slashes, and a run fails only on a link below it on which `Readlink` fails, which it names |
| GoTree.RunFrom | main.go:286-296 | the output starts with the root on its own line, and a run fails only on a link below the root on which `Readlink` fails, which it names |
| GoTree.MainSummaryCounts | main.go:286-296 | under `-s` the summary counts exactly the folder lines and the other lines above it |
| GoTree.MainTopLevel | main.go:286-287 | the first level of output is the root's kept entities in sorted order (reversed under `-r`) |

## Left out

- Operating-system calls become inputs. These are `opendir`, `readdir`, `stat`, `readlink`, `getcwd`, `isatty`, `ioutil.ReadDir`, `os.Readlink` and `os.Getwd`. The file system is a map. Whether standard output is a terminal is a flag. The working directory is a parameter of `Program.Tree` and `GoTree.GoMain`.
- Program.RootOf: `getcwd` fails only when the working directory does not fit its 255-byte buffer. Its other failures are not modelled, for example a working directory that was removed. `os.Getwd` never fails in `GoTree.GoMain`.
- EntryList.Truncate: counts characters, not bytes. `strndup` cuts a name after 255 bytes, which may fall inside a multi-byte UTF-8 character.
- EntryList.PushLink: `readlink` into a 255-byte buffer is modelled as keeping 255 characters, not 255 bytes.
- EntryList.CaseCompare: compares one character per step. `strncasecmp` compares bytes, so on non-ASCII names the two can differ.
- Program.Tree: `strncpy` of the operand keeps 255 characters in the model, where the C program keeps 255 bytes.
- Fatal exits after `stat`, `readlink`, `malloc`, `calloc`, `realloc`, `strndup` or `asprintf` failures are not modelled. In the model these calls succeed. Even so, `!as_rv` does not catch `asprintf`'s failure value of -1.
- Output printed before a fatal error is not modelled. A failing run is just the error.
- Traversal.Crawl: a directory that does not open for a reason other than EACCES/EPERM is the error. The C program prints the lines before it and exits with status 1.
- The `len` fields of the C structs are not kept, because nothing reads them.
- Memory freeing is not modelled; `EntryList.ListDestroy` models only the order of release.
- Traversal.CrawlCounts, GoTree.CrawlCounts: counts are unbounded naturals. The source's `int32_t` and `uint` counters can overflow, and that is not modelled.
- Dirent.NameLengthOn: the value of `NAME_MAX` is a parameter. The rest of the model uses 255, the Linux value.
- EntryList.CaseCompareIsFoldedOrder: only ASCII case folding is modelled. `strncasecmp` in other locales is not.
- Go's `fatih/color` escape codes are not modelled. `GoTree.EchoItem` is the plain form, without colour.
- GoTree.StrCompare: compares characters by code point. Go compares UTF-8 bytes. The two orders agree on valid UTF-8.
- Option parsing (`getopt`, `atoi`, `docopt`) and the usage text are not modelled. The model takes the parsed flags.
- EntryList.ListReverse requires at least one entry. On an empty list the `size_t` bound `cur - 1` wraps around. `tree.c` calls it only on a non-empty list.
- GoTree.Crawl: a `-L` value of zero or less means no limit. A negative `-L` is accepted, as `main.go` does.

## Findings

| source | as written | input that shows it | evidently intended | confidence | as-written member | corrected member |
|---|---|---|---|---|---|---|
| list.c:350 | `list_reverse` loops while `i < (cur - 1) / 2`, so for an even count it never swaps the two central entries | `tree -r` on a directory with two entries `a` and `b` prints `a` before `b`; with four entries `a b c d` it prints `d b c a` | the full reversal (bound `cur / 2`) that `-r` documents as reverse order | high (not executed) | EntryList.ListReverse | EntryList.ListReverseFixed |
| main.go:282-284 | the loop reads `config.Path[len(config.Path)-1]` before checking the length, so it panics once every character has been removed | `tree /`, `tree //`, or `tree` with no argument run in `/` | strip trailing slashes but keep `/` for the root | high (not executed) | GoTree.StripAsWritten | GoTree.StripTrailingSlashes |

=== FILE: dirent.dfy ===
/** The entry model of `list.h`: a classified directory entry and the
    platform bound on stored names. */
module Dirent {

  /** The three ways `DIRENT_NAME_LENGTH` is chosen at compile time. */
  datatype Platform =
    | Darwin64BitInode        // 64-bit-inode Darwin: 1023
    | WithNameMax(nameMax: nat) // a platform that defines NAME_MAX
    | WithoutNameMax          // the 255 fallback

  /** `DIRENT_NAME_LENGTH` on a given platform. POSIX guarantees
      NAME_MAX >= _POSIX_NAME_MAX = 14. */
  function NameLengthOn(p: Platform): (n: nat)
    requires p.WithNameMax? ==> p.nameMax >= 14
    ensures n >= 14
    ensures p.Darwin64BitInode? ==> n == 1023
    ensures p.WithNameMax? ==> n == p.nameMax
    ensures p.WithoutNameMax? ==> n == 255
  {
    match p
    case Darwin64BitInode => 1023
    case WithNameMax(m) => m
    case WithoutNameMax => 255
  }

  /** The value this model fixes: Linux, where NAME_MAX is 255. */
  const NAME_LENGTH: nat := 255

  /** `mode_t` bits as returned by `stat`. */
  type Mode = bv32

  const S_IXUSR: Mode := 0x40
  const S_IXGRP: Mode := 0x8
  const S_IXOTH: Mode := 0x1

  /** Any of the owner, group or other execute bits. */
  predicate IsExecutable(mode: Mode)
  {
    mode & (S_IXGRP | S_IXUSR | S_IXOTH) != 0
  }

  /** `struct dirent_item`: the tag selects which one payload exists. */
  datatype Entry =
    | File(path: string, mode: Mode)
    | Link(source: string, destination: string)
    | Dir(path: string)

  /** The string an entry is listed and sorted by (`item_string`). */
  function ItemString(e: Entry): string
  {
    match e
    case File(p, _) => p
    case Link(src, _) => src
    case Dir(p) => p
  }
}

=== FILE: dirent_list.dfy ===
/** The growable entry list of `list.c`: construction, appending, the
    directories-first case-insensitive comparator, insertion sort, reversal
    and destruction. */
module EntryList {
  import opened Dirent
  import opened Paths
  import Seqs
  import Sorting
  import Text

  const INITIAL_CAPACITY: nat := 64
  const GROWTH: nat := 10
  const NUL: char := '\0'

  /** `struct dirent_list`: `entities[0..cur)` as a sequence, so `cur` is
      `|entities|`; `cap` is the number of allocated slots. */
  datatype DirentList = DirentList(entities: seq<Entry>, cap: nat, fullPath: bool)

  /** There is a free slot at index `cur` for the next push. */
  predicate Valid(l: DirentList)
  {
    |l.entities| < l.cap
  }

  /** `list_init`. */
  function ListInit(showFullPath: bool): (l: DirentList)
    ensures Valid(l) && ListIsEmpty(l)
    ensures l.cap == INITIAL_CAPACITY && l.fullPath == showFullPath
  {
    DirentList([], INITIAL_CAPACITY, showFullPath)
  }

  /** `list_is_empty`. */
  function ListIsEmpty(l: DirentList): (b: bool)
    ensures b <==> |l.entities| == 0
  {
    |l.entities| == 0
  }

  /** `extend_list`: grows the capacity by a fixed increment when full. */
  function ExtendList(l: DirentList): (r: DirentList)
    requires |l.entities| <= l.cap
    ensures Valid(r)
    ensures r.entities == l.entities && r.fullPath == l.fullPath
    ensures Valid(l) ==> r.cap == l.cap
    ensures !Valid(l) ==> r.cap == l.cap + GROWTH
  {
    if |l.entities| == l.cap then l.(cap := l.cap + GROWTH) else l
  }

  /** The tail of every push: store at `cur`, bump `cur`, then extend. */
  function Append(l: DirentList, item: Entry): (r: DirentList)
    requires Valid(l)
    ensures Valid(r) && r.fullPath == l.fullPath
    ensures |r.entities| == |l.entities| + 1
    ensures r.entities[..|l.entities|] == l.entities && r.entities[|l.entities|] == item
    ensures l.cap <= r.cap <= l.cap + GROWTH
  {
    ExtendList(l.(entities := l.entities + [item]))
  }

  /** `strndup(s, n)` of a C string: at most the first `n` characters. */
  function Truncate(s: string, n: nat): (r: string)
    ensures |r| <= n && r <= s
    ensures |s| <= n ==> r == s
    ensures |s| > n ==> r == s[..n]
  {
    if |s| <= n then s else s[..n]
  }

  /** The stored path of an entry: the joined full path in full-path mode,
      otherwise the bare name cut to `DIRENT_NAME_LENGTH`. */
  function StoredName(fullPath: bool, parent: string, name: string): (r: string)
    ensures fullPath ==> r == Join(parent, name)
    ensures !fullPath ==> |r| <= NAME_LENGTH && r <= name
    ensures !fullPath && |name| <= NAME_LENGTH ==> r == name
  {
    if fullPath then Join(parent, name) else Truncate(name, NAME_LENGTH)
  }

  /** `list_push_file`; `mode` is what `stat` reported for the file. */
  function PushFile(l: DirentList, parent: string, name: string, mode: Mode): (r: DirentList)
    requires Valid(l)
    ensures Valid(r) && r.fullPath == l.fullPath
    ensures r.entities == l.entities + [File(StoredName(l.fullPath, parent, name), mode)]
  {
    Append(l, File(StoredName(l.fullPath, parent, name), mode))
  }

  /** `list_push_link`; `target` is what `readlink` would return unbounded,
      of which at most `DIRENT_NAME_LENGTH` characters are kept. */
  function PushLink(l: DirentList, parent: string, name: string, target: string): (r: DirentList)
    requires Valid(l)
    ensures Valid(r) && r.fullPath == l.fullPath
    ensures r.entities == l.entities + [Link(StoredName(l.fullPath, parent, name), Truncate(target, NAME_LENGTH))]
    ensures |r.entities[|l.entities|].destination| <= NAME_LENGTH
  {
    Append(l, Link(StoredName(l.fullPath, parent, name), Truncate(target, NAME_LENGTH)))
  }

  /** `list_push_dir`. */
  function PushDir(l: DirentList, parent: string, name: string): (r: DirentList)
    requires Valid(l)
    ensures Valid(r) && r.fullPath == l.fullPath
    ensures r.entities == l.entities + [Dir(StoredName(l.fullPath, parent, name))]
  {
    Append(l, Dir(StoredName(l.fullPath, parent, name)))
  }

  // ---------------------------------------------------------------------
  // Comparison

  /** The folded code `strncasecmp` compares at the head of `s`; the end of
      the string reads as the terminating NUL. */
  function Code(s: string): int
  {
    if |s| == 0 then 0 else Text.Lower(s[0]) as int
  }

  /** glibc `strncasecmp(x, y, n)`: the difference of the first differing
      pair of ASCII-folded characters among the first `n`, or 0 when the
      strings end together or `n` characters agree. */
  function CaseCompare(x: string, y: string, n: nat): int
    decreases n
  {
    if n == 0 then 0
    else if Code(x) != Code(y) then Code(x) - Code(y)
    else if Code(x) == 0 then 0
    else CaseCompare(x[1..], y[1..], n - 1)
  }

  /** `item_compare`: directories before everything else; files and links
      form one class; within a class, case-insensitive over the first
      `DIRENT_NAME_LENGTH` characters. */
  function ItemCompare(a: Entry, b: Entry): (r: int)
    ensures a.Dir? && !b.Dir? ==> r < 0
    ensures !a.Dir? && b.Dir? ==> r > 0
    ensures a.Dir? == b.Dir? ==> r == CaseCompare(ItemString(a), ItemString(b), NAME_LENGTH)
  {
    if a.Dir? && b.Dir? then CaseCompare(ItemString(a), ItemString(b), NAME_LENGTH)
    else if a.Dir? then -1
    else if b.Dir? then 1
    else CaseCompare(ItemString(a), ItemString(b), NAME_LENGTH)
  }

  /** The ASCII-folded first `n` characters: what case-insensitive comparison looks at. */
  function FoldedKey(s: string, n: nat): (k: string)
    ensures |k| <= n && |k| <= |s|
  {
    if n == 0 || |s| == 0 then [] else [Text.Lower(s[0])] + FoldedKey(s[1..], n - 1)
  }

  /** Strict lexicographic order, a proper prefix ranking first. */
  predicate LexLess(a: string, b: string)
  {
    if |b| == 0 then false
    else if |a| == 0 then true
    else if a[0] != b[0] then a[0] < b[0]
    else LexLess(a[1..], b[1..])
  }

  lemma LowerIsNul(c: char)
    ensures Text.Lower(c) == NUL <==> c == NUL
  {
  }

  /** On C strings, `strncasecmp` is equality and lexicographic order of the
      folded, truncated names. */
  lemma {:induction false} CaseCompareIsFoldedOrder(x: string, y: string, n: nat)
    requires Seqs.Excludes(x, NUL) && Seqs.Excludes(y, NUL)
    ensures CaseCompare(x, y, n) == 0 <==> FoldedKey(x, n) == FoldedKey(y, n)
    ensures CaseCompare(x, y, n) < 0 <==> LexLess(FoldedKey(x, n), FoldedKey(y, n))
    decreases n
  {
    var kx, ky := FoldedKey(x, n), FoldedKey(y, n);
    if n == 0 {
    } else if |x| == 0 || |y| == 0 {
      if |x| > 0 { LowerIsNul(x[0]); assert kx[0] == Text.Lower(x[0]); }
      if |y| > 0 { LowerIsNul(y[0]); assert ky[0] == Text.Lower(y[0]); }
    } else {
      LowerIsNul(x[0]);
      LowerIsNul(y[0]);
      assert kx == [Text.Lower(x[0])] + FoldedKey(x[1..], n - 1);
      assert ky == [Text.Lower(y[0])] + FoldedKey(y[1..], n - 1);
      assert kx[1..] == FoldedKey(x[1..], n - 1) && ky[1..] == FoldedKey(y[1..], n - 1);
      if Code(x) == Code(y) {
        assert Seqs.Excludes(x[1..], NUL) && Seqs.Excludes(y[1..], NUL) by {
          assert forall i :: 0 <= i < |x[1..]| ==> x[1..][i] == x[i + 1];
          assert forall i :: 0 <= i < |y[1..]| ==> y[1..][i] == y[i + 1];
        }
        CaseCompareIsFoldedOrder(x[1..], y[1..], n - 1);
      }
    }
  }

  /** Swapping the arguments of `strncasecmp` negates its result. */
  lemma {:induction false} CaseCompareAntisymmetric(x: string, y: string, n: nat)
    ensures CaseCompare(y, x, n) == -CaseCompare(x, y, n)
    decreases n
  {
    if n > 0 && Code(x) == Code(y) && Code(x) != 0 {
      CaseCompareAntisymmetric(x[1..], y[1..], n - 1);
    }
  }

  lemma {:induction false} CaseCompareTransitive(x: string, y: string, z: string, n: nat)
    requires CaseCompare(x, y, n) <= 0 && CaseCompare(y, z, n) <= 0
    ensures CaseCompare(x, z, n) <= 0
    decreases n
  {
    if n > 0 && Code(x) == Code(y) && Code(y) == Code(z) && Code(x) != 0 {
      CaseCompareTransitive(x[1..], y[1..], z[1..], n - 1);
    }
  }

  /** `item_compare` is a proper three-way comparator: swapping arguments
      flips the sign and "at most" is transitive. */
  lemma ItemCompareIsComparator()
    ensures Sorting.Comparator(ItemCompare)
  {
    forall a: Entry, b: Entry
      ensures ItemCompare(b, a) == -ItemCompare(a, b)
    {
      CaseCompareAntisymmetric(ItemString(a), ItemString(b), NAME_LENGTH);
    }
    forall a: Entry, b: Entry, c: Entry | ItemCompare(a, b) <= 0 && ItemCompare(b, c) <= 0
      ensures ItemCompare(a, c) <= 0
    {
      if a.Dir? == b.Dir? && b.Dir? == c.Dir? {
        CaseCompareTransitive(ItemString(a), ItemString(b), ItemString(c), NAME_LENGTH);
      }
    }
  }

  /** In a sorted list no directory follows a non-directory. */
  lemma SortedDirectoriesFirst(s: seq<Entry>)
    requires Sorting.Sorted(s, ItemCompare)
    ensures forall i, j :: 0 <= i < j < |s| && s[j].Dir? ==> s[i].Dir?
  {
    forall i, j | 0 <= i < j < |s| && s[j].Dir?
      ensures s[i].Dir?
    {
      assert ItemCompare(s[i], s[j]) <= 0;
    }
  }

  // ---------------------------------------------------------------------
  // Sorting, reversal, destruction

  /** `list_sort`: insertion sort of `entities[0..cur)` by `item_compare`,
      moving an element left only past elements comparing strictly greater. */
  method ListSort(l: DirentList) returns (r: DirentList)
    ensures r.cap == l.cap && r.fullPath == l.fullPath
    ensures r.entities == Sorting.Sort(l.entities, ItemCompare)
    ensures multiset(r.entities) == multiset(l.entities)
    ensures Sorting.Sorted(r.entities, ItemCompare)
  {
    var e := Sorting.InsertionSort(l.entities, ItemCompare);
    r := DirentList(e, l.cap, l.fullPath);
    Sorting.SortPermutation(l.entities, ItemCompare);
    ItemCompareIsComparator();
    Sorting.SortSorted(l.entities, ItemCompare);
  }

  /** Where position `k` of a length-`n` list is read from once the first
      and the last `m` positions have been swapped pairwise. */
  function MirrorIndex(n: nat, m: nat, k: nat): (i: nat)
    requires k < n
    ensures i < n
    ensures i == k || i + k == n - 1
  {
    if k < m || k >= n - m then n - 1 - k else k
  }

  /** `s` with the first `m` and the last `m` positions mirrored and the
      middle left in place. */
  function Mirror<T>(s: seq<T>, m: nat): (r: seq<T>)
    ensures |r| == |s|
    ensures forall k :: 0 <= k < |s| ==> r[k] == s[MirrorIndex(|s|, m, k)]
  {
    seq(|s|, k requires 0 <= k < |s| => s[MirrorIndex(|s|, m, k)])
  }

  /** Mirroring the ends keeps the same entries: the result is the reversed
      tail, the untouched middle and the reversed head. */
  lemma MirrorMultiset<T>(s: seq<T>, m: nat)
    requires 2 * m <= |s|
    ensures multiset(Mirror(s, m)) == multiset(s)
  {
    var n := |s|;
    var head, middle, tail := s[..m], s[m..n - m], s[n - m..];
    var w := Seqs.Reverse(tail) + middle + Seqs.Reverse(head);
    assert s == head + middle + tail;
    forall k | 0 <= k < n
      ensures Mirror(s, m)[k] == w[k]
    {
      if k < m {
        assert w[k] == tail[m - 1 - k];
      } else if k < n - m {
        assert w[k] == middle[k - m];
      } else {
        assert w[k] == Seqs.Reverse(head)[k - (n - m)];
      }
    }
    assert Mirror(s, m) == w;
    Seqs.ReverseMultiset(head);
    Seqs.ReverseMultiset(tail);
  }

  /** The swap loop of `list_reverse`, run for indices `0 <= i < m`. */
  method SwapEnds<T>(s: seq<T>, m: nat) returns (r: seq<T>)
    requires 2 * m <= |s|
    ensures r == Mirror(s, m)
  {
    var a := new T[|s|](k requires 0 <= k < |s| => s[k]);
    var n := a.Length;
    var i := 0;
    while i < m
      invariant 0 <= i <= m
      invariant forall k :: 0 <= k < i ==> a[k] == s[n - 1 - k]
      invariant forall k :: n - i <= k < n ==> a[k] == s[n - 1 - k]
      invariant forall k :: i <= k < n - i ==> a[k] == s[k]
    {
      assert i < n - 1 - i;
      var tmp := a[i];
      a[i] := a[n - 1 - i];
      a[n - 1 - i] := tmp;
      i := i + 1;
    }
    r := a[..];
    assert forall k :: 0 <= k < n ==> r[k] == Mirror(s, m)[k];
  }

  /** `list_reverse` as written: the loop bound `(cur - 1) / 2` (which needs
      `cur >= 1` not to wrap) mirrors the whole list only when `cur` is odd;
      for even `cur` the two central entries stay where they were. */
  method ListReverse(l: DirentList) returns (r: DirentList)
    requires |l.entities| >= 1
    ensures r.cap == l.cap && r.fullPath == l.fullPath
    ensures r.entities == Mirror(l.entities, (|l.entities| - 1) / 2)
    ensures |l.entities| % 2 == 1 ==> r.entities == Seqs.Reverse(l.entities)
    ensures |l.entities| % 2 == 0 ==>
              var c := |l.entities| / 2;
              r.entities[c - 1] == l.entities[c - 1] && r.entities[c] == l.entities[c]
  {
    var n := |l.entities|;
    var e := SwapEnds(l.entities, (n - 1) / 2);
    r := l.(entities := e);
    if n % 2 == 1 {
      MirrorHalfIsReverse(l.entities);
    }
  }

  /** The reversal `list_reverse` is meant to perform: bound `cur / 2`. */
  method ListReverseFixed(l: DirentList) returns (r: DirentList)
    ensures r.cap == l.cap && r.fullPath == l.fullPath
    ensures r.entities == Seqs.Reverse(l.entities)
  {
    var e := SwapEnds(l.entities, |l.entities| / 2);
    r := l.(entities := e);
    MirrorHalfIsReverse(l.entities);
  }

  /** Mirroring `m` positions from each end reverses the list exactly when
      the untouched middle already reads the same backwards. */
  lemma MirrorIsReverseIff<T>(s: seq<T>, m: nat)
    requires 2 * m <= |s|
    ensures Mirror(s, m) == Seqs.Reverse(s) <==> forall k :: m <= k < |s| - m ==> s[k] == s[|s| - 1 - k]
  {
    if forall k :: m <= k < |s| - m ==> s[k] == s[|s| - 1 - k] {
      MirrorIsReverse(s, m);
    } else {
      var k :| m <= k < |s| - m && s[k] != s[|s| - 1 - k];
      assert Mirror(s, m)[k] != Seqs.Reverse(s)[k];
    }
  }

  lemma MirrorIsReverse<T>(s: seq<T>, m: nat)
    requires 2 * m <= |s|
    requires forall k :: m <= k < |s| - m ==> s[k] == s[|s| - 1 - k]
    ensures Mirror(s, m) == Seqs.Reverse(s)
  {
    var w := Mirror(s, m);
    var r := Seqs.Reverse(s);
    forall k | 0 <= k < |s|
      ensures w[k] == r[k]
    {
    }
  }

  /** Mirroring half of the positions (rounded down) from each end is the full reversal. */
  lemma MirrorHalfIsReverse<T>(s: seq<T>)
    ensures Mirror(s, |s| / 2) == Seqs.Reverse(s)
    ensures |s| % 2 == 1 ==> Mirror(s, (|s| - 1) / 2) == Seqs.Reverse(s)
  {
    var n := |s|;
    var m := n / 2;
    forall k | m <= k < n - m
      ensures s[k] == s[n - 1 - k]
    {
      assert k == n - 1 - k;
    }
    MirrorIsReverse(s, m);
    if n % 2 == 1 {
      assert (n - 1) / 2 == m;
    }
  }

  /** The as-written bound reverses exactly when the length is odd or the two
      central entries are equal. */
  lemma ReverseAsWrittenIff<T>(s: seq<T>)
    requires |s| >= 1
    ensures Mirror(s, (|s| - 1) / 2) == Seqs.Reverse(s) <==> |s| % 2 == 1 || s[|s| / 2 - 1] == s[|s| / 2]
  {
    if |s| % 2 == 0 {
      ReverseAsWrittenEven(s, EvenHalf(|s|));
    } else {
      MirrorHalfIsReverse(s);
    }
  }

  /** The even case of `ReverseAsWrittenIff`, with the half length named. */
  lemma ReverseAsWrittenEven<T>(s: seq<T>, c: nat)
    requires c >= 1 && |s| == 2 * c && |s| / 2 == c && (|s| - 1) / 2 == c - 1
    ensures Mirror(s, (|s| - 1) / 2) == Seqs.Reverse(s) <==> s[|s| / 2 - 1] == s[|s| / 2]
  {
    var m, h := (|s| - 1) / 2, |s| / 2;
    assert m == c - 1 && h == c;
    CentralPair(s, c);
    assert Mirror(s, m) == Mirror(s, c - 1);
    assert s[h - 1] == s[c - 1] && s[h] == s[c];
  }

  /** Half of a positive even number, with the facts about `/` the reversal
      lemmas need. */
  function EvenHalf(n: nat): (c: nat)
    requires n >= 1 && n % 2 == 0
    ensures c >= 1 && n == 2 * c && n / 2 == c && (n - 1) / 2 == c - 1
  {
    n / 2
  }

  /** For an even length `2 * c`, leaving the central pair in place reverses
      exactly when that pair holds equal entries. */
  lemma CentralPair<T>(s: seq<T>, c: nat)
    requires c >= 1 && |s| == 2 * c
    ensures Mirror(s, c - 1) == Seqs.Reverse(s) <==> s[c - 1] == s[c]
  {
    if s[c - 1] == s[c] {
      forall k | c - 1 <= k < |s| - (c - 1)
        ensures s[k] == s[|s| - 1 - k]
      {
        assert k == c - 1 || k == c;
      }
      MirrorIsReverse(s, c - 1);
    } else {
      assert Mirror(s, c - 1)[c - 1] != Seqs.Reverse(s)[c - 1];
    }
  }

  /** A two-entry directory listed with `-r` keeps its sorted order. */
  lemma ReverseAsWrittenTwoEntries(a: Entry, b: Entry)
    requires a != b
    ensures Mirror([a, b], (2 - 1) / 2) == [a, b]
    ensures Seqs.Reverse([a, b]) == [b, a] != [a, b]
  {
    assert Mirror([a, b], 0)[0] == a;
    assert Mirror([a, b], 0)[1] == b;
  }

  /** `list_destroy`: releases the entries at indices `0..cur-1`, each once,
      in index order, and no other slot. */
  method ListDestroy(l: DirentList) returns (released: seq<nat>)
    ensures |released| == |l.entities|
    ensures forall k :: 0 <= k < |released| ==> released[k] == k
  {
    released := [];
    var i := 0;
    while i < |l.entities|
      invariant 0 <= i <= |l.entities|
      invariant |released| == i
      invariant forall k :: 0 <= k < i ==> released[k] == k
    {
      released := released + [i];
      i := i + 1;
    }
  }
}

=== FILE: go_tree.dfy ===
/** The Go rewrite of the program (`main.go`): the same walk with its own
    rules. Directories named like build or VCS caches are listed but not
    entered, entries are ordered by their joined path, unreadable directories
    are silently empty, and the counters are always kept. The file system is
    an input: a map from directory path to what `ioutil.ReadDir` returns,
    plus what `os.Readlink` returns for each link it can read. */
module GoTree {
  import opened Wrappers
  import opened Paths
  import Seqs
  import Sorting
  import Text
  import Outline

  /** `fs.FileMode`, a 32-bit word. */
  type Mode = bv32

  /** `fs.ModeDir`, `fs.ModeSymlink` and `fs.ModePerm`. */
  const MODE_DIR: Mode := 0x8000_0000
  const MODE_SYMLINK: Mode := 0x0800_0000
  const MODE_PERM: Mode := 0x1FF  // 0o777

  /** What `ReadDir` reports for one entry: its base name and its mode (of
      the entry itself, so a link to a directory is a link). */
  datatype Info = Info(name: string, mode: Mode)

  /** `FileInfo.IsDir`. */
  predicate IsDir(info: Info)
  {
    info.mode & MODE_DIR != 0
  }

  /** `treeEntity`: the joined path of an entry and its info. */
  datatype Entity = Entity(absPath: string, info: Info)

  /** Directory listings by path (a path that is not a key fails to read)
      and what `os.Readlink` returns for each link (a link that is not a key
      is one on which `Readlink` fails). `Readlink` reads the link's own
      contents without following it, so a dangling link still has an entry
      here and is printed with its target. */
  datatype GoFs = GoFs(dirs: map<string, seq<Info>>, links: map<string, string>)

  /** The names of a directory's entries are pairwise distinct. */
  predicate DistinctNames(infos: seq<Info>)
  {
    forall i, j :: 0 <= i < j < |infos| ==> infos[i].name != infos[j].name
  }

  /** `TreeConfig` without its path: `-L` (zero or negative = unlimited),
      `-d`, `-r`, `-s`, `-f` and `-D`. */
  datatype Config = Config(
    maxDepth: int,
    directoriesOnly: bool,
    reverseSort: bool,
    showSummary: bool,
    fullPath: bool,
    dumbMode: bool)

  /** `crawlResult`. */
  datatype CrawlResult = CrawlResult(numFiles: nat, numFolders: nat)

  function Plus(a: CrawlResult, b: CrawlResult): CrawlResult
  {
    CrawlResult(a.numFiles + b.numFiles, a.numFolders + b.numFolders)
  }

  /** How `echoItem` prints an entry: as a folder, as a link with its
      target, in bold as an executable, or plainly. */
  datatype Kind = Folder | Symlink(target: string) | Executable | Regular

  datatype Branch = Middle | Last

  /** One printed entry: its depth, the prefix before its connector, the
      connector, the directory it was listed in, the name or path printed
      for it, and how it is printed. */
  datatype Line = Line(level: nat, prefix: string, branch: Branch, parent: string, relPath: string, kind: Kind)

  function Depth(line: Line): nat
  {
    line.level
  }

  const INDENT_MIDDLE_ITEM: string := "├──"
  const INDENT_LAST_ITEM: string := "└──"
  const PREFIX_MIDDLE: string := "│   "
  const PREFIX_LAST: string := "   "

  function Glyph(b: Branch): string
  {
    match b
    case Middle => INDENT_MIDDLE_ITEM
    case Last => INDENT_LAST_ITEM
  }

  /** The directory names that are listed but never entered outside dumb mode. */
  const SKIPPABLE_DIRECTORIES: seq<string> := [".git", "zig-cache", "node_modules", "target", ".terraform"]

  // ---------------------------------------------------------------------
  // Paths

  /** `p` without its trailing slashes, as many as there are. */
  function TrimRight(p: string): string
  {
    if |p| > 0 && p[|p| - 1] == '/' then TrimRight(p[..|p| - 1]) else p
  }

  /** What is left is a prefix without a trailing slash, and everything
      removed is slashes. */
  lemma {:induction false} TrimRightMeaning(p: string)
    ensures var r := TrimRight(p);
            && r <= p
            && (|r| == 0 || r[|r| - 1] != '/')
            && forall k :: |r| <= k < |p| ==> p[k] == '/'
    decreases |p|
  {
    if |p| > 0 && p[|p| - 1] == '/' {
      TrimRightMeaning(p[..|p| - 1]);
    }
  }

  /** The part of `t` after its last slash. */
  function AfterLastSlash(t: string): string
  {
    if |t| == 0 || t[|t| - 1] == '/' then ""
    else AfterLastSlash(t[..|t| - 1]) + [t[|t| - 1]]
  }

  /** `filepath.Base` on a Unix system: "." for the empty path, "/" for a
      path of slashes only, otherwise the last element once trailing
      slashes are removed. */
  function Base(p: string): string
  {
    if |p| == 0 then "."
    else
      var t := TrimRight(p);
      if |t| == 0 then "/" else AfterLastSlash(t)
  }

  /** The base of a joined path is the name that was joined. */
  lemma BaseOfJoin(dir: string, name: string)
    requires |name| > 0 && '/' !in name
    ensures Base(Join(dir, name)) == name
  {
    var p := Join(dir, name);
    assert p[|p| - 1] == name[|name| - 1];
    assert TrimRight(p) == p;
    AfterSlashJoin(dir, name);
  }

  lemma {:induction false} AfterSlashJoin(dir: string, name: string)
    requires '/' !in name
    ensures AfterLastSlash(dir + "/" + name) == name
    decreases |name|
  {
    var p := dir + "/" + name;
    if |name| == 0 {
      assert p[|p| - 1] == '/';
    } else {
      var init := name[..|name| - 1];
      assert name[|name| - 1] in name;
      assert forall c :: c in init ==> c in name;
      assert p[..|p| - 1] == dir + "/" + init;
      AfterSlashJoin(dir, init);
      assert name == init + [name[|name| - 1]];
    }
  }

  /** `skippable`: the base name of the path is one of the cache and VCS
      directory names. */
  predicate Skippable(absPath: string)
  {
    Base(absPath) in SKIPPABLE_DIRECTORIES
  }

  /** An entry is skipped exactly for its own name, whatever its parent. */
  lemma SkippableJoin(dir: string, name: string)
    requires |name| > 0 && '/' !in name
    ensures Skippable(Join(dir, name)) <==> name in SKIPPABLE_DIRECTORIES
  {
    BaseOfJoin(dir, name);
  }

  // ---------------------------------------------------------------------
  // Order

  /** `cmp.Compare` on strings: lexicographic by character code, -1, 0 or 1.
      (Go compares UTF-8 bytes; on valid text that is the order of code
      points.) */
  function StrCompare(a: string, b: string): (r: int)
    ensures -1 <= r <= 1
  {
    if |a| == 0 && |b| == 0 then 0
    else if |a| == 0 then -1
    else if |b| == 0 then 1
    else if a[0] < b[0] then -1
    else if a[0] > b[0] then 1
    else StrCompare(a[1..], b[1..])
  }

  /** `a` sorts before `b`: a proper prefix, or smaller at the first
      position where they differ. */
  predicate LexBefore(a: string, b: string)
  {
    (|a| < |b| && a == b[..|a|])
    || exists k :: 0 <= k < |a| && k < |b| && a[..k] == b[..k] && a[k] < b[k]
  }

  /** `StrCompare` is negative exactly when `a` sorts before `b`, and zero
      exactly when they are equal. */
  lemma {:induction false} StrCompareMeaning(a: string, b: string)
    ensures StrCompare(a, b) == 0 <==> a == b
    ensures StrCompare(a, b) < 0 <==> LexBefore(a, b)
    decreases |a|
  {
    if |a| > 0 && |b| > 0 {
      if a[0] == b[0] {
        StrCompareMeaning(a[1..], b[1..]);
        if a == b {
          assert a[1..] == b[1..];
        } else {
          assert a == [a[0]] + a[1..] && b == [b[0]] + b[1..];
        }
        LexBeforeTail(a, b);
      } else {
        assert a != b;
        if a[0] < b[0] {
          assert a[..0] == b[..0];
        } else {
          LexBeforeFirst(a, b);
        }
      }
    } else if |a| == 0 && |b| > 0 {
      assert a == b[..0];
    } else if |a| > 0 {
      assert !LexBefore(a, b);
    }
  }

  lemma LexBeforeTail(a: string, b: string)
    requires |a| > 0 && |b| > 0 && a[0] == b[0]
    ensures LexBefore(a, b) <==> LexBefore(a[1..], b[1..])
  {
    if LexBefore(a, b) {
      LexBeforeDrop(a, b);
    }
    if LexBefore(a[1..], b[1..]) {
      LexBeforeCons(a, b);
    }
  }

  lemma LexBeforeDrop(a: string, b: string)
    requires |a| > 0 && |b| > 0 && a[0] == b[0] && LexBefore(a, b)
    ensures LexBefore(a[1..], b[1..])
  {
    if |a| < |b| && a == b[..|a|] {
      assert a[1..] == b[1..][..|a| - 1];
    } else {
      var k :| 0 <= k < |a| && k < |b| && a[..k] == b[..k] && a[k] < b[k];
      assert k > 0;
      assert a[1..][..k - 1] == a[..k][1..];
      assert b[1..][..k - 1] == b[..k][1..];
      assert a[1..][k - 1] == a[k];
    }
  }

  lemma LexBeforeCons(a: string, b: string)
    requires |a| > 0 && |b| > 0 && a[0] == b[0] && LexBefore(a[1..], b[1..])
    ensures LexBefore(a, b)
  {
    var a', b' := a[1..], b[1..];
    if |a'| < |b'| && a' == b'[..|a'|] {
      assert a == [a[0]] + a' && b[..|a|] == [b[0]] + b'[..|a'|];
    } else {
      var k :| 0 <= k < |a'| && k < |b'| && a'[..k] == b'[..k] && a'[k] < b'[k];
      assert a[..k + 1] == [a[0]] + a'[..k] && b[..k + 1] == [b[0]] + b'[..k];
      assert a[k + 1] < b[k + 1];
    }
  }

  lemma LexBeforeFirst(a: string, b: string)
    requires |a| > 0 && |b| > 0 && a[0] > b[0]
    ensures !LexBefore(a, b)
  {
    if exists k :: 0 <= k < |a| && k < |b| && a[..k] == b[..k] && a[k] < b[k] {
      var k :| 0 <= k < |a| && k < |b| && a[..k] == b[..k] && a[k] < b[k];
      if k > 0 {
        assert a[..k][0] == b[..k][0];
      }
    }
  }

  lemma {:induction false} StrCompareAntisymmetric(a: string, b: string)
    ensures StrCompare(b, a) == -StrCompare(a, b)
    decreases |a|
  {
    if |a| > 0 && |b| > 0 && a[0] == b[0] {
      StrCompareAntisymmetric(a[1..], b[1..]);
    }
  }

  lemma {:induction false} StrCompareTransitive(a: string, b: string, c: string)
    requires StrCompare(a, b) <= 0 && StrCompare(b, c) <= 0
    ensures StrCompare(a, c) <= 0
    decreases |a|
  {
    if |a| > 0 && |b| > 0 && |c| > 0 && a[0] == b[0] && b[0] == c[0] {
      StrCompareTransitive(a[1..], b[1..], c[1..]);
    }
  }

  /** Paths joined onto the same directory compare as their names do. */
  lemma {:induction false} StrCompareCommonPrefix(p: string, x: string, y: string)
    ensures StrCompare(p + x, p + y) == StrCompare(x, y)
    decreases |p|
  {
    if |p| > 0 {
      assert (p + x)[1..] == p[1..] + x && (p + y)[1..] == p[1..] + y;
      StrCompareCommonPrefix(p[1..], x, y);
    } else {
      assert p + x == x && p + y == y;
    }
  }

  lemma JoinCompare(dir: string, x: string, y: string)
    ensures StrCompare(Join(dir, x), Join(dir, y)) == StrCompare(x, y)
  {
    assert Join(dir, x) == (dir + "/") + x && Join(dir, y) == (dir + "/") + y;
    StrCompareCommonPrefix(dir + "/", x, y);
  }

  /** The comparator handed to `slices.SortFunc`: directories before
      everything else, then by joined path. */
  function GoCompare(a: Entity, b: Entity): (r: int)
    ensures IsDir(a.info) && !IsDir(b.info) ==> r < 0
    ensures !IsDir(a.info) && IsDir(b.info) ==> r > 0
  {
    if IsDir(a.info) && !IsDir(b.info) then -1
    else if !IsDir(a.info) && IsDir(b.info) then 1
    else StrCompare(a.absPath, b.absPath)
  }

  /** The comparator is a proper three-way comparator. */
  lemma GoCompareIsComparator()
    ensures Sorting.Comparator(GoCompare)
  {
    forall a: Entity, b: Entity
      ensures GoCompare(b, a) == -GoCompare(a, b)
    {
      StrCompareAntisymmetric(a.absPath, b.absPath);
    }
    forall a: Entity, b: Entity, c: Entity | GoCompare(a, b) <= 0 && GoCompare(b, c) <= 0
      ensures GoCompare(a, c) <= 0
    {
      if IsDir(a.info) == IsDir(b.info) && IsDir(b.info) == IsDir(c.info) {
        StrCompareTransitive(a.absPath, b.absPath, c.absPath);
      }
    }
  }

  /** The loop over `ReadDir`'s result: every entry, or only the
      directories under `-d`, with its joined path, in listing order. */
  function Kept(cfg: Config, path: string, infos: seq<Info>): (r: seq<Entity>)
    ensures forall e :: e in r ==>
              e.info in infos && e.absPath == Join(path, e.info.name) && (cfg.directoriesOnly ==> IsDir(e.info))
    ensures !cfg.directoriesOnly ==> |r| == |infos|
    ensures cfg.directoriesOnly ==> |r| == DirInfos(infos)
  {
    if |infos| == 0 then []
    else
      var last := infos[|infos| - 1];
      Kept(cfg, path, infos[..|infos| - 1])
        + (if !cfg.directoriesOnly || IsDir(last) then [Entity(Join(path, last.name), last)] else [])
  }

  /** How many of `infos` are directories. */
  function DirInfos(infos: seq<Info>): nat
  {
    if |infos| == 0 then 0
    else DirInfos(infos[..|infos| - 1]) + (if IsDir(infos[|infos| - 1]) then 1 else 0)
  }

  /** Every entry of the listing that `-d` lets through is kept. */
  lemma {:induction false} KeptComplete(cfg: Config, path: string, infos: seq<Info>, info: Info)
    requires info in infos && (!cfg.directoriesOnly || IsDir(info))
    ensures Entity(Join(path, info.name), info) in Kept(cfg, path, infos)
    decreases |infos|
  {
    var last := infos[|infos| - 1];
    if info != last {
      assert infos == infos[..|infos| - 1] + [last];
      KeptComplete(cfg, path, infos[..|infos| - 1], info);
    }
  }

  /** Kept entries compare equal only when they are the same entry. */
  lemma KeptDiscerning(cfg: Config, path: string, infos: seq<Info>)
    requires DistinctNames(infos)
    ensures Sorting.Discerning(Kept(cfg, path, infos), GoCompare)
  {
    var kept := Kept(cfg, path, infos);
    forall x, y | x in kept && y in kept && GoCompare(x, y) == 0
      ensures x == y
    {
      StrCompareMeaning(x.absPath, y.absPath);
      assert x.info.name == Join(path, x.info.name)[|path| + 1..];
      assert x.info.name == y.info.name;
      var i :| 0 <= i < |infos| && infos[i] == x.info;
      var j :| 0 <= j < |infos| && infos[j] == y.info;
      assert i == j;
    }
  }

  /** Sorted (by the comparator, then reversed under `-r`). */
  function GoOrdered(cfg: Config, s: seq<Entity>): (r: seq<Entity>)
    ensures multiset(r) == multiset(s)
    ensures !cfg.reverseSort ==> r == Sorting.Sort(s, GoCompare)
    ensures cfg.reverseSort ==> r == Seqs.Reverse(Sorting.Sort(s, GoCompare))
  {
    var sorted := Sorting.Sort(s, GoCompare);
    Sorting.SortPermutation(s, GoCompare);
    Seqs.ReverseMultiset(sorted);
    if cfg.reverseSort then Seqs.Reverse(sorted) else sorted
  }

  /** `slices.SortFunc` is not stable, but within one directory no two
      entries compare equal, so every sorted rearrangement of the kept
      entries is the one the model computes. */
  lemma GoSortUnique(cfg: Config, path: string, infos: seq<Info>, b: seq<Entity>)
    requires DistinctNames(infos)
    requires multiset(b) == multiset(Kept(cfg, path, infos))
    requires Sorting.Sorted(b, GoCompare)
    ensures b == Sorting.Sort(Kept(cfg, path, infos), GoCompare)
  {
    var kept := Kept(cfg, path, infos);
    var sorted := Sorting.Sort(kept, GoCompare);
    GoCompareIsComparator();
    Sorting.SortPermutation(kept, GoCompare);
    Sorting.SortSorted(kept, GoCompare);
    KeptDiscerning(cfg, path, infos);
    assert forall x :: x in sorted ==> x in kept by {
      forall x | x in sorted ensures x in kept {
        assert x in multiset(sorted);
      }
    }
    Sorting.SortedPermutationUnique(sorted, b, GoCompare);
  }

  /** In the sorted order of one directory, folders come first, and
      within each group entries ascend by name. */
  lemma SortedByName(path: string, s: seq<Entity>)
    requires Sorting.Sorted(s, GoCompare)
    requires forall e :: e in s ==> e.absPath == Join(path, e.info.name)
    ensures forall i, j :: 0 <= i < j < |s| && IsDir(s[j].info) ==> IsDir(s[i].info)
    ensures forall i, j :: 0 <= i < j < |s| && IsDir(s[i].info) == IsDir(s[j].info) ==>
              StrCompare(s[i].info.name, s[j].info.name) <= 0
  {
    forall i, j | 0 <= i < j < |s| && IsDir(s[i].info) == IsDir(s[j].info)
      ensures StrCompare(s[i].info.name, s[j].info.name) <= 0
    {
      assert s[i] in s && s[j] in s;
      assert GoCompare(s[i], s[j]) <= 0;
      JoinCompare(path, s[i].info.name, s[j].info.name);
    }
  }

  // ---------------------------------------------------------------------
  // The walk

  /** `echoItem`'s choice of presentation: a directory, else a link (shown
      with what `Readlink` returns), else an executable when any execute
      bit is set, else a plain file. A link on which `Readlink` fails is an
      error naming its path. */
  function Classify(fs: GoFs, v: Entity): (r: Result<Kind, string>)
    ensures r.Err? <==> !IsDir(v.info) && v.info.mode & MODE_SYMLINK != 0 && v.absPath !in fs.links
    ensures r.Err? ==> r.error == v.absPath
    ensures r.Ok? ==> (r.value.Folder? <==> IsDir(v.info))
    ensures r.Ok? && r.value.Symlink? ==> v.absPath in fs.links && r.value.target == fs.links[v.absPath]
    ensures r.Ok? && r.value.Executable? ==> AnyExecuteBit(v.info.mode)
    ensures r.Ok? && !IsDir(v.info) && v.info.mode & MODE_SYMLINK != 0 ==> r.value == Symlink(fs.links[v.absPath])
    ensures r.Ok? && !IsDir(v.info) && v.info.mode & MODE_SYMLINK == 0 ==>
              (r.value.Executable? <==> AnyExecuteBit(v.info.mode))
              && (r.value.Regular? <==> !AnyExecuteBit(v.info.mode))
  {
    if IsDir(v.info) then Ok(Folder)
    else if v.info.mode & MODE_SYMLINK != 0 then
      if v.absPath in fs.links then Ok(Symlink(fs.links[v.absPath])) else Err(v.absPath)
    else if v.info.mode & MODE_PERM & 0x49 != 0 then
      ExecuteBits(v.info.mode);
      Ok(Executable)
    else Ok(Regular)
  }

  /** Execute permission for owner, group or others. */
  predicate AnyExecuteBit(mode: Mode)
  {
    mode & 0x40 != 0 || mode & 0x8 != 0 || mode & 0x1 != 0
  }

  /** Masking with the permission bits first does not change the test. */
  lemma ExecuteBits(mode: Mode)
    ensures mode & MODE_PERM & 0x49 != 0 <==> AnyExecuteBit(mode)
  {
  }

  function BranchAt(i: nat, n: nat): (b: Branch)
    requires i < n
    ensures b == Last <==> i == n - 1
  {
    if i == n - 1 then Last else Middle
  }

  /** The prefix below an entry: a rail under `├──`, three blanks under
      `└──`. */
  function NextPrefix(prefix: string, b: Branch): (r: string)
    ensures prefix <= r
    ensures |prefix| + 3 <= |r| <= |prefix| + 4
    ensures b == Middle ==> r == prefix + PREFIX_MIDDLE
    ensures b == Last ==> r == prefix + PREFIX_LAST && forall k :: |prefix| <= k < |r| ==> r[k] == ' '
  {
    match b
    case Middle => prefix + PREFIX_MIDDLE
    case Last => prefix + PREFIX_LAST
  }

  /** What is printed as the entry's name: the base name, or the joined
      path under `-f`. */
  function RelPath(cfg: Config, path: string, v: Entity): string
  {
    if cfg.fullPath then Join(path, v.info.name) else v.info.name
  }

  /** What the walk requires of the entities of directory `path`. */
  predicate Joined(path: string, items: seq<Entity>)
  {
    forall k :: 0 <= k < |items| ==> items[k].absPath == Join(path, items[k].info.name)
  }

  /** `crawl(path, level, prefix, config)`: the lines printed below `path`
      and the counters, or the path of a link on which `Readlink` failed. At the
      `-L` depth nothing is read; a directory that cannot be read is
      empty. */
  function Crawl(fs: GoFs, cfg: Config, path: string, level: nat, prefix: string)
    : (r: Result<(seq<Line>, CrawlResult), string>)
    ensures r.Err? ==> r.error !in fs.links
    decreases Measure(fs.dirs, path), 1, 0, 0
  {
    if cfg.maxDepth > 0 && level == cfg.maxDepth then Ok(([], CrawlResult(0, 0)))
    else if path !in fs.dirs then Ok(([], CrawlResult(0, 0)))
    else
      var kept := Kept(cfg, path, fs.dirs[path]);
      var items := GoOrdered(cfg, kept);
      assert forall k :: 0 <= k < |items| ==> items[k] in multiset(kept);
      Items(fs, cfg, path, level, prefix, items, 0)
  }

  /** The loop over the sorted entities from index `i` on. */
  function Items(fs: GoFs, cfg: Config, path: string, level: nat, prefix: string, items: seq<Entity>, i: nat)
    : (r: Result<(seq<Line>, CrawlResult), string>)
    requires path in fs.dirs && i <= |items| && Joined(path, items)
    ensures r.Err? ==> r.error !in fs.links
    decreases Measure(fs.dirs, path), 0, |items| - i, 1
  {
    if i == |items| then Ok(([], CrawlResult(0, 0)))
    else
      var kind := Classify(fs, items[i]);
      if kind.Err? then Err(kind.error)
      else
        var sub := Below(fs, cfg, path, level, prefix, items, i);
        if sub.Err? then Err(sub.error)
        else
          var rest := Items(fs, cfg, path, level, prefix, items, i + 1);
          if rest.Err? then Err(rest.error)
          else
            var line := Line(level, prefix, BranchAt(i, |items|), path, RelPath(cfg, path, items[i]), kind.value);
            Ok(([line] + sub.value.0 + rest.value.0, Plus(sub.value.1, rest.value.1)))
  }

  /** The counters for entity `i` itself and, for a folder that is not
      skipped, the walk below it. */
  function Below(fs: GoFs, cfg: Config, path: string, level: nat, prefix: string, items: seq<Entity>, i: nat)
    : (r: Result<(seq<Line>, CrawlResult), string>)
    requires path in fs.dirs && i < |items| && Joined(path, items)
    ensures r.Err? ==> r.error !in fs.links
    decreases Measure(fs.dirs, path), 0, |items| - i, 0
  {
    var v := items[i];
    if !IsDir(v.info) then Ok(([], CrawlResult(1, 0)))
    else if !cfg.dumbMode && Skippable(v.absPath) then Ok(([], CrawlResult(0, 1)))
    else
      MeasureShrinks(fs.dirs, path, v.absPath);
      var sub := Crawl(fs, cfg, v.absPath, level + 1, NextPrefix(prefix, BranchAt(i, |items|)));
      if sub.Err? then Err(sub.error)
      else Ok((sub.value.0, CrawlResult(sub.value.1.numFiles, sub.value.1.numFolders + 1)))
  }

  lemma ItemsUnfold(fs: GoFs, cfg: Config, path: string, level: nat, prefix: string, items: seq<Entity>, i: nat)
    requires path in fs.dirs && i < |items| && Joined(path, items)
    ensures var r := Items(fs, cfg, path, level, prefix, items, i);
            var kind := Classify(fs, items[i]);
            var sub := Below(fs, cfg, path, level, prefix, items, i);
            var rest := Items(fs, cfg, path, level, prefix, items, i + 1);
            r.Ok? ==>
              && kind.Ok? && sub.Ok? && rest.Ok?
              && r.value.0 == [Line(level, prefix, BranchAt(i, |items|), path, RelPath(cfg, path, items[i]), kind.value)]
                              + sub.value.0 + rest.value.0
              && r.value.1 == Plus(sub.value.1, rest.value.1)
  {
  }

  // ---------------------------------------------------------------------
  // Counters

  function Folders(lines: seq<Line>): nat
  {
    if |lines| == 0 then 0
    else Folders(lines[..|lines| - 1]) + (if lines[|lines| - 1].kind.Folder? then 1 else 0)
  }

  function Files(lines: seq<Line>): nat
  {
    if |lines| == 0 then 0
    else Files(lines[..|lines| - 1]) + (if lines[|lines| - 1].kind.Folder? then 0 else 1)
  }

  lemma {:induction false} TallyAppend(a: seq<Line>, b: seq<Line>)
    ensures Folders(a + b) == Folders(a) + Folders(b)
    ensures Files(a + b) == Files(a) + Files(b)
    decreases |b|
  {
    if |b| == 0 {
      assert a + b == a;
    } else {
      assert (a + b)[..|a + b| - 1] == a + b[..|b| - 1];
      TallyAppend(a, b[..|b| - 1]);
    }
  }

  /** The counters are the number of printed non-folder and folder lines. */
  predicate Counted(lines: seq<Line>, c: CrawlResult)
  {
    c.numFiles == Files(lines) && c.numFolders == Folders(lines)
  }

  /** The counters a crawl returns count exactly the lines it printed:
      folders (entered or skipped) and everything else. */
  lemma {:induction false} CrawlCounts(fs: GoFs, cfg: Config, path: string, level: nat, prefix: string)
    ensures var r := Crawl(fs, cfg, path, level, prefix);
            r.Ok? ==> Counted(r.value.0, r.value.1)
    decreases Measure(fs.dirs, path), 1, 0, 1
  {
    if !(cfg.maxDepth > 0 && level == cfg.maxDepth) && path in fs.dirs {
      var kept := Kept(cfg, path, fs.dirs[path]);
      var items := GoOrdered(cfg, kept);
      assert forall k :: 0 <= k < |items| ==> items[k] in multiset(kept);
      ItemsCounts(fs, cfg, path, level, prefix, items, 0);
    } else {
      assert Counted([], CrawlResult(0, 0));
    }
  }

  lemma {:induction false} ItemsCounts(fs: GoFs, cfg: Config, path: string, level: nat, prefix: string,
                                       items: seq<Entity>, i: nat)
    requires path in fs.dirs && i <= |items| && Joined(path, items)
    ensures var r := Items(fs, cfg, path, level, prefix, items, i);
            r.Ok? ==> Counted(r.value.0, r.value.1)
    decreases Measure(fs.dirs, path), 0, |items| - i, 1
  {
    var r := Items(fs, cfg, path, level, prefix, items, i);
    if i == |items| {
      assert Counted([], CrawlResult(0, 0));
    } else if r.Ok? {
      ItemsUnfold(fs, cfg, path, level, prefix, items, i);
      var kind := Classify(fs, items[i]).value;
      var sub := Below(fs, cfg, path, level, prefix, items, i).value;
      var rest := Items(fs, cfg, path, level, prefix, items, i + 1).value;
      var line := Line(level, prefix, BranchAt(i, |items|), path, RelPath(cfg, path, items[i]), kind);
      BelowCounts(fs, cfg, path, level, prefix, items, i);
      ItemsCounts(fs, cfg, path, level, prefix, items, i + 1);
      CountStep(line, sub.0, rest.0, sub.1, rest.1);
    }
  }

  /** One line followed by the lines below it and the lines after it. */
  lemma CountStep(line: Line, sub: seq<Line>, rest: seq<Line>, subCount: CrawlResult, restCount: CrawlResult)
    requires subCount.numFiles == (if line.kind.Folder? then 0 else 1) + Files(sub)
    requires subCount.numFolders == (if line.kind.Folder? then 1 else 0) + Folders(sub)
    requires Counted(rest, restCount)
    ensures Counted([line] + sub + rest, Plus(subCount, restCount))
  {
    var all := [line] + sub + rest;
    StepTally(line, sub, rest);
    assert Plus(subCount, restCount).numFiles == Files(all);
    assert Plus(subCount, restCount).numFolders == Folders(all);
  }

  lemma StepTally(line: Line, sub: seq<Line>, rest: seq<Line>)
    ensures Files([line] + sub + rest) == (if line.kind.Folder? then 0 else 1) + Files(sub) + Files(rest)
    ensures Folders([line] + sub + rest) == (if line.kind.Folder? then 1 else 0) + Folders(sub) + Folders(rest)
  {
    TallyAppend([line] + sub, rest);
    TallyAppend([line], sub);
    TallySingle(line);
  }

  lemma TallySingle(line: Line)
    ensures Files([line]) == (if line.kind.Folder? then 0 else 1)
    ensures Folders([line]) == (if line.kind.Folder? then 1 else 0)
  {
    assert [line][..0] == [];
  }

  /** Below an entity: its own count plus the counters of its lines. */
  lemma {:induction false} BelowCounts(fs: GoFs, cfg: Config, path: string, level: nat, prefix: string,
                                       items: seq<Entity>, i: nat)
    requires path in fs.dirs && i < |items| && Joined(path, items)
    ensures var r := Below(fs, cfg, path, level, prefix, items, i);
            var folder := IsDir(items[i].info);
            r.Ok? ==>
              && r.value.1.numFiles == (if folder then 0 else 1) + Files(r.value.0)
              && r.value.1.numFolders == (if folder then 1 else 0) + Folders(r.value.0)
    decreases Measure(fs.dirs, path), 0, |items| - i, 0
  {
    var v := items[i];
    if IsDir(v.info) && (cfg.dumbMode || !Skippable(v.absPath)) {
      MeasureShrinks(fs.dirs, path, v.absPath);
      var next := NextPrefix(prefix, BranchAt(i, |items|));
      var sub := Crawl(fs, cfg, v.absPath, level + 1, next);
      CrawlCounts(fs, cfg, v.absPath, level + 1, next);
      BelowDescends(fs, cfg, path, level, prefix, items, i);
    } else {
      BelowLeaf(fs, cfg, path, level, prefix, items, i);
      assert Files([]) == 0 && Folders([]) == 0;
    }
  }

  /** Below a folder that is entered: the walk of the folder, and the
      folder itself counted. */
  lemma BelowDescends(fs: GoFs, cfg: Config, path: string, level: nat, prefix: string, items: seq<Entity>, i: nat)
    requires path in fs.dirs && i < |items| && Joined(path, items)
    requires IsDir(items[i].info) && (cfg.dumbMode || !Skippable(items[i].absPath))
    ensures var sub := Crawl(fs, cfg, items[i].absPath, level + 1, NextPrefix(prefix, BranchAt(i, |items|)));
            var r := Below(fs, cfg, path, level, prefix, items, i);
            && (r.Ok? <==> sub.Ok?)
            && (r.Ok? ==> r.value.0 == sub.value.0
                          && r.value.1 == CrawlResult(sub.value.1.numFiles, sub.value.1.numFolders + 1))
  {
  }

  /** A file, or a folder that is skipped, has nothing below it. */
  lemma BelowLeaf(fs: GoFs, cfg: Config, path: string, level: nat, prefix: string, items: seq<Entity>, i: nat)
    requires path in fs.dirs && i < |items| && Joined(path, items)
    requires !IsDir(items[i].info) || (!cfg.dumbMode && Skippable(items[i].absPath))
    ensures Below(fs, cfg, path, level, prefix, items, i)
         == Ok(([], if IsDir(items[i].info) then CrawlResult(0, 1) else CrawlResult(1, 0)))
  {
  }

  /** Under `-d` every line is a folder, so no file is counted. */
  lemma DirectoriesOnlyCountsNoFiles(fs: GoFs, cfg: Config, path: string)
    requires cfg.directoriesOnly
    ensures var r := Crawl(fs, cfg, path, 0, "");
            r.Ok? ==> r.value.1.numFiles == 0
  {
    var r := Crawl(fs, cfg, path, 0, "");
    if r.Ok? {
      CrawlCounts(fs, cfg, path, 0, "");
      CrawlShape(fs, cfg, path, 0, "");
      NoFiles(r.value.0);
    }
  }

  lemma {:induction false} NoFiles(lines: seq<Line>)
    requires forall line :: line in lines ==> line.kind.Folder?
    ensures Files(lines) == 0
    decreases |lines|
  {
    if |lines| > 0 {
      assert lines[|lines| - 1] in lines;
      assert forall line :: line in lines[..|lines| - 1] ==> line in lines;
      NoFiles(lines[..|lines| - 1]);
    }
  }

  // ---------------------------------------------------------------------
  // Shape

  /** `p` is the joined path of a listed entry that is not a directory,
      has the symlink bit, and on which `Readlink` fails. */
  predicate UnreadableLink(fs: GoFs, p: string)
  {
    && p !in fs.links
    && exists d, info :: d in fs.dirs && info in fs.dirs[d] && p == Join(d, info.name)
                         && !IsDir(info) && info.mode & MODE_SYMLINK != 0
  }

  /** A walk fails only on a link below its directory on which `Readlink`
      fails, and names
      that link's joined path. */
  lemma {:induction false} CrawlFails(fs: GoFs, cfg: Config, path: string, level: nat, prefix: string)
    ensures var r := Crawl(fs, cfg, path, level, prefix);
            r.Err? ==> path + "/" <= r.error && UnreadableLink(fs, r.error)
    decreases Measure(fs.dirs, path), 1, 0, 1
  {
    if !(cfg.maxDepth > 0 && level == cfg.maxDepth) && path in fs.dirs {
      var kept := Kept(cfg, path, fs.dirs[path]);
      var items := GoOrdered(cfg, kept);
      assert forall k :: 0 <= k < |items| ==> items[k] in multiset(kept);
      ItemsFails(fs, cfg, path, level, prefix, items, 0);
    }
  }

  lemma {:induction false} ItemsFails(fs: GoFs, cfg: Config, path: string, level: nat, prefix: string,
                                      items: seq<Entity>, i: nat)
    requires path in fs.dirs && i <= |items| && Joined(path, items)
    requires forall k :: 0 <= k < |items| ==> items[k].info in fs.dirs[path]
    ensures var r := Items(fs, cfg, path, level, prefix, items, i);
            r.Err? ==> path + "/" <= r.error && UnreadableLink(fs, r.error)
    decreases Measure(fs.dirs, path), 0, |items| - i, 1
  {
    if i < |items| {
      var v := items[i];
      if Classify(fs, v).Err? {
        assert v.info in fs.dirs[path] && v.absPath == Join(path, v.info.name);
      } else {
        BelowFails(fs, cfg, path, level, prefix, items, i);
        ItemsFails(fs, cfg, path, level, prefix, items, i + 1);
      }
    }
  }

  lemma {:induction false} BelowFails(fs: GoFs, cfg: Config, path: string, level: nat, prefix: string,
                                      items: seq<Entity>, i: nat)
    requires path in fs.dirs && i < |items| && Joined(path, items)
    ensures var r := Below(fs, cfg, path, level, prefix, items, i);
            r.Err? ==> path + "/" <= r.error && UnreadableLink(fs, r.error)
    decreases Measure(fs.dirs, path), 0, |items| - i, 0
  {
    var v := items[i];
    if IsDir(v.info) && (cfg.dumbMode || !Skippable(v.absPath)) {
      MeasureShrinks(fs.dirs, path, v.absPath);
      var next := NextPrefix(prefix, BranchAt(i, |items|));
      CrawlFails(fs, cfg, v.absPath, level + 1, next);
      var r := Crawl(fs, cfg, v.absPath, level + 1, next);
      if r.Err? {
        assert path + "/" <= v.absPath;
      }
    }
  }

/** What every line printed by a crawl of `path` started at `level`
      with `prefix` satisfies: it is at that depth or deeper and above the
      `-L` limit; its prefix extends `prefix` by three or four characters
      per level; it was listed in `path` itself when at `level`, otherwise
      in a folder below `path` that is not skippable (outside dumb mode);
      and it is a folder under `-d`. */
  predicate LineOk(cfg: Config, path: string, level: nat, prefix: string, line: Line)
  {
    && level <= line.level
    && (cfg.maxDepth > 0 ==> line.level < cfg.maxDepth)
    && prefix <= line.prefix
    && |prefix| + 3 * (line.level - level) <= |line.prefix| <= |prefix| + 4 * (line.level - level)
    && path <= line.parent
    && (line.level == level ==> line.parent == path)
    && (line.level > level ==> |line.parent| > |path| && (cfg.dumbMode || !Skippable(line.parent)))
    && (cfg.directoriesOnly ==> line.kind.Folder?)
  }

  lemma {:induction false} CrawlShape(fs: GoFs, cfg: Config, path: string, level: nat, prefix: string)
    requires cfg.maxDepth > 0 ==> level <= cfg.maxDepth
    ensures var r := Crawl(fs, cfg, path, level, prefix);
            r.Ok? ==> forall line :: line in r.value.0 ==> LineOk(cfg, path, level, prefix, line)
    decreases Measure(fs.dirs, path), 1, 0, 1
  {
    if !(cfg.maxDepth > 0 && level == cfg.maxDepth) && path in fs.dirs {
      var kept := Kept(cfg, path, fs.dirs[path]);
      var items := GoOrdered(cfg, kept);
      assert forall k :: 0 <= k < |items| ==> items[k] in multiset(kept);
      assert cfg.directoriesOnly ==> forall k :: 0 <= k < |items| ==> IsDir(items[k].info);
      ItemsShape(fs, cfg, path, level, prefix, items, 0);
    }
  }

  lemma {:induction false} ItemsShape(fs: GoFs, cfg: Config, path: string, level: nat, prefix: string,
                                      items: seq<Entity>, i: nat)
    requires path in fs.dirs && i <= |items| && Joined(path, items)
    requires cfg.directoriesOnly ==> forall k :: 0 <= k < |items| ==> IsDir(items[k].info)
    requires cfg.maxDepth > 0 ==> level < cfg.maxDepth
    ensures var r := Items(fs, cfg, path, level, prefix, items, i);
            r.Ok? ==> forall line :: line in r.value.0 ==> LineOk(cfg, path, level, prefix, line)
    decreases Measure(fs.dirs, path), 0, |items| - i, 1
  {
    var r := Items(fs, cfg, path, level, prefix, items, i);
    if i < |items| && r.Ok? {
      ItemsUnfold(fs, cfg, path, level, prefix, items, i);
      var kind := Classify(fs, items[i]).value;
      var sub := Below(fs, cfg, path, level, prefix, items, i).value.0;
      var rest := Items(fs, cfg, path, level, prefix, items, i + 1).value.0;
      var line := Line(level, prefix, BranchAt(i, |items|), path, RelPath(cfg, path, items[i]), kind);
      ItemsShape(fs, cfg, path, level, prefix, items, i + 1);
      BelowShape(fs, cfg, path, level, prefix, items, i);
      assert LineOk(cfg, path, level, prefix, line);
      Outline.AllHold([line], sub, rest, l => LineOk(cfg, path, level, prefix, l));
    }
  }

  lemma {:induction false} BelowShape(fs: GoFs, cfg: Config, path: string, level: nat, prefix: string,
                                      items: seq<Entity>, i: nat)
    requires path in fs.dirs && i < |items| && Joined(path, items)
    requires cfg.directoriesOnly ==> forall k :: 0 <= k < |items| ==> IsDir(items[k].info)
    requires cfg.maxDepth > 0 ==> level < cfg.maxDepth
    ensures var r := Below(fs, cfg, path, level, prefix, items, i);
            r.Ok? ==> forall line :: line in r.value.0 ==> LineOk(cfg, path, level, prefix, line) && line.level > level
    ensures var r := Below(fs, cfg, path, level, prefix, items, i);
            r.Ok? ==> forall line :: line in r.value.0 ==> NextPrefix(prefix, BranchAt(i, |items|)) <= line.prefix
    decreases Measure(fs.dirs, path), 0, |items| - i, 0
  {
    var v := items[i];
    if IsDir(v.info) && (cfg.dumbMode || !Skippable(v.absPath)) {
      var child := v.absPath;
      var next := NextPrefix(prefix, BranchAt(i, |items|));
      MeasureShrinks(fs.dirs, path, child);
      CrawlShape(fs, cfg, child, level + 1, next);
      var r := Crawl(fs, cfg, child, level + 1, next);
      if r.Ok? {
        assert path <= child;
        forall line | line in r.value.0
          ensures LineOk(cfg, path, level, prefix, line) && line.level > level && next <= line.prefix
        {
          assert LineOk(cfg, child, level + 1, next, line);
        }
      }
    }
  }

  // ---------------------------------------------------------------------
  // The lines at a crawl's own depth

  /** `line` is how entity `k` of `items`, listed in `path`, is printed:
      its prefix, connector, name, and the presentation `Classify` picks. */
  predicate PrintedAs(fs: GoFs, cfg: Config, path: string, prefix: string, items: seq<Entity>, k: nat, line: Line)
    requires k < |items|
  {
    && line.prefix == prefix
    && line.branch == BranchAt(k, |items|)
    && line.parent == path
    && line.relPath == RelPath(cfg, path, items[k])
    && (line.kind.Folder? <==> IsDir(items[k].info))
    && Classify(fs, items[k]) == Ok(line.kind)
  }

  /** `heads` are entities `i` onward, printed in order. */
  predicate PrintedFrom(fs: GoFs, cfg: Config, path: string, prefix: string, items: seq<Entity>, i: nat, heads: seq<Line>)
    requires i <= |items|
  {
    |heads| == |items| - i
    && forall k :: 0 <= k < |heads| ==> PrintedAs(fs, cfg, path, prefix, items, i + k, heads[k])
  }

  /** Entity `i`'s line, deeper lines, then the lines of the entities after
      it: at the loop's depth, that is entities `i` onward, printed. */
  lemma HeadsPrinted(fs: GoFs, cfg: Config, path: string, level: nat, prefix: string, items: seq<Entity>, i: nat,
                     head: Line, sub: seq<Line>, rest: seq<Line>, out: seq<Line>)
    requires i < |items| && head.level == level
    requires PrintedAs(fs, cfg, path, prefix, items, i, head)
    requires out == [head] + sub + rest
    requires forall line :: line in sub ==> line.level > level
    requires PrintedFrom(fs, cfg, path, prefix, items, i + 1, Outline.Heads(rest, Depth, level))
    ensures PrintedFrom(fs, cfg, path, prefix, items, i, Outline.Heads(out, Depth, level))
  {
    Outline.HeadsDeeper(sub, Depth, level);
    Outline.HeadsStep(head, sub, rest, Depth, level);
    PrintedStep(fs, cfg, path, prefix, items, i, head, Outline.Heads(rest, Depth, level));
  }

  lemma PrintedStep(fs: GoFs, cfg: Config, path: string, prefix: string, items: seq<Entity>, i: nat, head: Line, heads: seq<Line>)
    requires i < |items|
    requires PrintedAs(fs, cfg, path, prefix, items, i, head)
    requires PrintedFrom(fs, cfg, path, prefix, items, i + 1, heads)
    ensures PrintedFrom(fs, cfg, path, prefix, items, i, [head] + heads)
  {
    var all := [head] + heads;
    forall k | 0 <= k < |all|
      ensures PrintedAs(fs, cfg, path, prefix, items, i + k, all[k])
    {
      if k > 0 {
        assert all[k] == heads[k - 1];
        assert PrintedAs(fs, cfg, path, prefix, items, (i + 1) + (k - 1), heads[k - 1]);
      }
    }
  }

  /** The lines a crawl prints at its own depth are the kept entities of
      the directory in sorted order (reversed under `-r`), each under `├──`
      except the last under `└──`; everything else is deeper. */
  lemma CrawlHeads(fs: GoFs, cfg: Config, path: string, level: nat, prefix: string)
    requires cfg.maxDepth > 0 ==> level < cfg.maxDepth
    requires path in fs.dirs
    ensures var r := Crawl(fs, cfg, path, level, prefix);
            var items := GoOrdered(cfg, Kept(cfg, path, fs.dirs[path]));
            r.Ok? ==> PrintedFrom(fs, cfg, path, prefix, items, 0, Outline.Heads(r.value.0, Depth, level))
  {
    var kept := Kept(cfg, path, fs.dirs[path]);
    var items := GoOrdered(cfg, kept);
    assert forall k :: 0 <= k < |items| ==> items[k] in multiset(kept);
    assert cfg.directoriesOnly ==> forall k :: 0 <= k < |items| ==> IsDir(items[k].info);
    assert Crawl(fs, cfg, path, level, prefix) == Items(fs, cfg, path, level, prefix, items, 0);
    ItemsHeads(fs, cfg, path, level, prefix, items, 0);
  }

  lemma {:induction false} ItemsHeads(fs: GoFs, cfg: Config, path: string, level: nat, prefix: string,
                                      items: seq<Entity>, i: nat)
    requires path in fs.dirs && i <= |items| && Joined(path, items)
    requires cfg.directoriesOnly ==> forall k :: 0 <= k < |items| ==> IsDir(items[k].info)
    requires cfg.maxDepth > 0 ==> level < cfg.maxDepth
    ensures var r := Items(fs, cfg, path, level, prefix, items, i);
            r.Ok? ==> PrintedFrom(fs, cfg, path, prefix, items, i, Outline.Heads(r.value.0, Depth, level))
    decreases |items| - i
  {
    var r := Items(fs, cfg, path, level, prefix, items, i);
    if i < |items| && r.Ok? {
      ItemsUnfold(fs, cfg, path, level, prefix, items, i);
      var kind := Classify(fs, items[i]).value;
      var sub := Below(fs, cfg, path, level, prefix, items, i).value.0;
      var rest := Items(fs, cfg, path, level, prefix, items, i + 1).value.0;
      var head := Line(level, prefix, BranchAt(i, |items|), path, RelPath(cfg, path, items[i]), kind);
      BelowShape(fs, cfg, path, level, prefix, items, i);
      ItemsHeads(fs, cfg, path, level, prefix, items, i + 1);
      HeadsPrinted(fs, cfg, path, level, prefix, items, i, head, sub, rest, r.value.0);
    } else if i == |items| {
      assert Outline.Heads(r.value.0, Depth, level) == [];
    }
  }

  // ---------------------------------------------------------------------
  // Output

  /** `echoItem` without colour: the prefix and connector, a blank, the
      name, the link target after ` -> ` for a link, and a newline. */
  function EchoItem(line: Line): (r: string)
    ensures |r| > 0 && r[|r| - 1] == '\n'
  {
    line.prefix + Glyph(line.branch) + " " + line.relPath
      + (if line.kind.Symlink? then " -> " + line.kind.target else "") + "\n"
  }

  function RenderLines(lines: seq<Line>): string
  {
    if |lines| == 0 then "" else EchoItem(lines[0]) + RenderLines(lines[1..])
  }

  /** The number of newline characters in `s`. */
  function Newlines(s: string): nat
  {
    if |s| == 0 then 0 else Newlines(s[..|s| - 1]) + (if s[|s| - 1] == '\n' then 1 else 0)
  }

  lemma {:induction false} NewlinesAppend(a: string, b: string)
    ensures Newlines(a + b) == Newlines(a) + Newlines(b)
    decreases |b|
  {
    if |b| == 0 {
      assert a + b == a;
    } else {
      assert (a + b)[..|a + b| - 1] == a + b[..|b| - 1];
      NewlinesAppend(a, b[..|b| - 1]);
    }
  }

  lemma {:induction false} NoNewlines(s: string)
    requires '\n' !in s
    ensures Newlines(s) == 0
    decreases |s|
  {
    if |s| > 0 {
      assert forall c :: c in s[..|s| - 1] ==> c in s;
      NoNewlines(s[..|s| - 1]);
    }
  }

  /** No newline in the prefix, the name or the link target. */
  predicate OneLine(line: Line)
  {
    '\n' !in line.prefix && '\n' !in line.relPath && (line.kind.Symlink? ==> '\n' !in line.kind.target)
  }

  /** Each entry is printed as exactly one line of output. */
  lemma EchoItemOneLine(line: Line)
    requires OneLine(line)
    ensures Newlines(EchoItem(line)) == 1
  {
    var body := line.prefix + Glyph(line.branch) + " " + line.relPath
                + (if line.kind.Symlink? then " -> " + line.kind.target else "");
    assert EchoItem(line) == body + "\n";
    assert '\n' !in Glyph(line.branch);
    NoNewlines(body);
    NewlinesAppend(body, "\n");
    assert Newlines("\n") == Newlines("") + 1;
  }

  /** The output has one line per printed entry. */
  lemma {:induction false} RenderLinesCount(lines: seq<Line>)
    requires forall line :: line in lines ==> OneLine(line)
    ensures Newlines(RenderLines(lines)) == |lines|
    decreases |lines|
  {
    if |lines| > 0 {
      assert lines[0] in lines;
      assert forall line :: line in lines[1..] ==> line in lines;
      EchoItemOneLine(lines[0]);
      RenderLinesCount(lines[1..]);
      NewlinesAppend(EchoItem(lines[0]), RenderLines(lines[1..]));
    }
  }

  /** `PrintSummary`: a blank line, then the folder and the file counts,
      each with its noun in the singular exactly when the count is 1. */
  function Summary(c: CrawlResult): (r: string)
    ensures |r| > 1 && r[0] == '\n' && r[|r| - 1] == '\n'
  {
    "\n" + (Text.FormatTally(c.numFolders, "folder", "folders") + SummaryEnd(c.numFiles))
  }

  function SummaryEnd(files: nat): (r: string)
    ensures |r| > 0 && r[0] == ',' && r[|r| - 1] == '\n'
  {
    ", " + Text.FormatTally(files, "file", "files") + "\n"
  }

  /** The summary can be read back: both counts, each with the right
      number of its noun. */
  lemma SummaryRoundTrip(c: CrawlResult)
    ensures Text.ParseSummary(Summary(c))
         == Some((Text.Tally(c.numFolders, Text.Noun(c.numFolders, "folder", "folders")),
                  Some(Text.Tally(c.numFiles, Text.Noun(c.numFiles, "file", "files")))))
  {
    var folders := Text.FormatTally(c.numFolders, "folder", "folders");
    var after := SummaryEnd(c.numFiles);
    var second := Text.Tally(c.numFiles, Text.Noun(c.numFiles, "file", "files"));
    Text.ParseFormatTally(c.numFolders, "folder", "folders", after);
    FileTallyRoundTrip(c.numFiles);
    Text.ParseSummaryOf(folders + after, Text.Tally(c.numFolders, Text.Noun(c.numFolders, "folder", "folders")),
                        after, Some(second));
  }

  lemma FileTallyRoundTrip(files: nat)
    ensures Text.ParseSecondTally(SummaryEnd(files)) == Some(Some(Text.Tally(files, Text.Noun(files, "file", "files"))))
  {
    var tally := Text.FormatTally(files, "file", "files");
    assert SummaryEnd(files) == ", " + (tally + "\n");
    Text.ParseFormatTally(files, "file", "files", "\n");
    Text.ParseSecondTallyOf(tally + "\n", Text.Tally(files, Text.Noun(files, "file", "files")));
  }

  // ---------------------------------------------------------------------
  // The argument

  /** The loop of `main` that strips trailing slashes, as written: it
      indexes the last character before every test, so it fails (`None`,
      an index-out-of-range panic) once the path runs out. */
  function StripAsWritten(p: string): (r: Option<string>)
  {
    if |p| == 0 then None
    else if p[|p| - 1] == '/' then StripAsWritten(p[..|p| - 1])
    else Some(p)
  }

  /** The loop panics exactly on the paths made of slashes only (the root
      directory among them) and otherwise removes the trailing slashes. */
  lemma {:induction false} StripAsWrittenMeaning(p: string)
    ensures StripAsWritten(p).None? <==> Seqs.AllEqual(p, '/')
    ensures StripAsWritten(p).Some? ==> StripAsWritten(p).value == TrimRight(p)
    decreases |p|
  {
    if |p| > 0 {
      StripAsWrittenMeaning(p[..|p| - 1]);
      if p[|p| - 1] == '/' {
        assert Seqs.AllEqual(p, '/') <==> Seqs.AllEqual(p[..|p| - 1], '/');
      } else {
        assert p[|p| - 1] != '/';
      }
    }
  }

  /** `tree /` (and `tree` run in `/`) panics. */
  lemma StripAsWrittenRootPanics()
    ensures StripAsWritten("/") == None
  {
  }

  /** The stripping the loop evidently intends: trailing slashes removed,
      but a path of slashes only is the root directory `/`. */
  function StripTrailingSlashes(p: string): (r: string)
  {
    var t := TrimRight(p);
    if |t| == 0 && |p| > 0 then "/" else t
  }

  /** The corrected stripping names the same directory without a trailing
      slash (or is `/`), agrees with the loop wherever the loop succeeds,
      and is idempotent. */
  lemma StripTrailingSlashesCorrect(p: string)
    ensures var r := StripTrailingSlashes(p);
            && (|p| > 0 ==> |r| > 0)
            && (r == "/" || |r| == 0 || r[|r| - 1] != '/')
            && (r == "/" ==> |p| > 0 && Seqs.AllEqual(p, '/'))
            && (r != "/" ==> r <= p && forall k :: |r| <= k < |p| ==> p[k] == '/')
            && (StripAsWritten(p).Some? ==> r == StripAsWritten(p).value)
            && StripTrailingSlashes(r) == r
  {
    StripAsWrittenMeaning(p);
    var t := TrimRight(p);
    if |t| == 0 && |p| > 0 {
      assert Seqs.AllEqual(p, '/');
    }
  }

  /** The directory walked: the argument, or the working directory when
      there is none, through the trailing-slash loop as written; `None`
      where that loop panics. */
  function RootPath(cwd: string, arg: string): Option<string>
  {
    StripAsWritten(if |arg| == 0 then cwd else arg)
  }

  /** The loop panics exactly on an empty path or one of slashes only, and
      otherwise leaves the path without its trailing slashes. */
  lemma RootPathMeaning(cwd: string, arg: string)
    ensures var p := if |arg| == 0 then cwd else arg;
            && (RootPath(cwd, arg).None? <==> Seqs.AllEqual(p, '/'))
            && (RootPath(cwd, arg).Some? ==>
                  var root := RootPath(cwd, arg).value;
                  root == TrimRight(p) && |root| > 0 && root[|root| - 1] != '/')
  {
    var p := if |arg| == 0 then cwd else arg;
    StripAsWrittenMeaning(p);
    TrimRightMeaning(p);
  }

  /** How a run ends early: the slice index out of range in the
      trailing-slash loop, or the path of a link on which `Readlink` failed. */
  datatype Failure = Panic | UnreadableLinkAt(path: string)

  /** The run once the root is known: the root on a line of its own, the
      walk, and the summary under `-s`; it fails only on a link below the
      root on which `Readlink` fails, which it names. */
  function RunFrom(fs: GoFs, cfg: Config, root: string): (r: Result<string, Failure>)
    ensures r.Err? ==> r.error.UnreadableLinkAt? && root + "/" <= r.error.path && UnreadableLink(fs, r.error.path)
    ensures r.Ok? ==> root + "\n" <= r.value
  {
    var walk := Crawl(fs, cfg, root, 0, "");
    CrawlFails(fs, cfg, root, 0, "");
    if walk.Err? then Err(UnreadableLinkAt(walk.error))
    else
      var rest := RenderLines(walk.value.0) + (if cfg.showSummary then Summary(walk.value.1) else "");
      assert root + "\n" <= root + "\n" + rest;
      Ok(root + "\n" + rest)
  }

  /** A whole run: the root on a line of its own, the walk, and the summary
      under `-s`. It panics exactly when the path to walk is empty or made of
      slashes only; otherwise it fails only on a link below the root on
      which `Readlink` fails, which it names. */
  function GoMain(fs: GoFs, cfg: Config, cwd: string, arg: string): (r: Result<string, Failure>)
    ensures r.Err? && r.error.Panic? <==> Seqs.AllEqual(if |arg| == 0 then cwd else arg, '/')
    ensures r.Err? && r.error.UnreadableLinkAt? ==>
              var p := if |arg| == 0 then cwd else arg;
              TrimRight(p) + "/" <= r.error.path && UnreadableLink(fs, r.error.path)
    ensures r.Ok? ==>
              var p := if |arg| == 0 then cwd else arg;
              var root := TrimRight(p);
              |root| > 0 && root[|root| - 1] != '/' && root + "\n" <= r.value
  {
    RootPathMeaning(cwd, arg);
    match RootPath(cwd, arg)
    case None => Err(Panic)
    case Some(root) => RunFrom(fs, cfg, root)
  }

  /** Under `-s` the summary reports exactly the number of folder lines and
      of other lines printed above it. */
  lemma MainSummaryCounts(fs: GoFs, cfg: Config, cwd: string, arg: string)
    requires cfg.showSummary
    ensures var r := GoMain(fs, cfg, cwd, arg);
            r.Ok? ==>
              && RootPath(cwd, arg).Some?
              && var root := RootPath(cwd, arg).value;
                 var walk := Crawl(fs, cfg, root, 0, "");
                 && walk.Ok?
                 && r.value == root + "\n" + (RenderLines(walk.value.0)
                                              + Summary(CrawlResult(Files(walk.value.0), Folders(walk.value.0))))
  {
    if RootPath(cwd, arg).Some? {
      CrawlCounts(fs, cfg, RootPath(cwd, arg).value, 0, "");
    }
  }

  /** The first level of the output is the root's entries in sorted order
      (descending under `-r`), `└──` on the last one only. */
  lemma MainTopLevel(fs: GoFs, cfg: Config, cwd: string, arg: string)
    requires RootPath(cwd, arg).Some? && RootPath(cwd, arg).value in fs.dirs
    ensures var root := RootPath(cwd, arg).value;
            var walk := Crawl(fs, cfg, root, 0, "");
            var items := GoOrdered(cfg, Kept(cfg, root, fs.dirs[root]));
            walk.Ok? ==> PrintedFrom(fs, cfg, root, "", items, 0, Outline.Heads(walk.value.0, Depth, 0))
  {
    CrawlHeads(fs, cfg, RootPath(cwd, arg).value, 0, "");
  }
}

=== FILE: outline.dfy ===
/** Facts about printed outlines shared by both walks: a walk prints a run
    of lines, each at some depth, and the lines of one directory are those
    at the walk's own depth. */
module Outline {

  /** The lines of `lines` at depth `level`, in order. */
  function Heads<L>(lines: seq<L>, depth: L -> nat, level: nat): (r: seq<L>)
    ensures |r| <= |lines|
  {
    if |lines| == 0 then []
    else (if depth(lines[0]) == level then [lines[0]] else []) + Heads(lines[1..], depth, level)
  }

  lemma {:induction false} HeadsAppend<L>(a: seq<L>, b: seq<L>, depth: L -> nat, level: nat)
    ensures Heads(a + b, depth, level) == Heads(a, depth, level) + Heads(b, depth, level)
    decreases |a|
  {
    if |a| == 0 {
      assert a + b == b;
    } else {
      assert (a + b)[0] == a[0];
      assert (a + b)[1..] == a[1..] + b;
      HeadsAppend(a[1..], b, depth, level);
      var h := if depth(a[0]) == level then [a[0]] else [];
      assert Heads(a + b, depth, level) == h + (Heads(a[1..], depth, level) + Heads(b, depth, level));
    }
  }

  /** Lines that are all deeper than `level` have nothing at `level`. */
  lemma {:induction false} HeadsDeeper<L>(a: seq<L>, depth: L -> nat, level: nat)
    requires forall line :: line in a ==> depth(line) > level
    ensures Heads(a, depth, level) == []
    decreases |a|
  {
    if |a| > 0 {
      assert a[0] in a;
      assert forall line :: line in a[1..] ==> line in a;
      HeadsDeeper(a[1..], depth, level);
    }
  }

  /** An entry's line, then deeper lines, then the rest: at the entry's
      depth that is the entry's line followed by what the rest has there. */
  lemma HeadsStep<L>(head: L, sub: seq<L>, rest: seq<L>, depth: L -> nat, level: nat)
    requires depth(head) == level && Heads(sub, depth, level) == []
    ensures Heads([head] + sub + rest, depth, level) == [head] + Heads(rest, depth, level)
  {
    HeadsAppend([head] + sub, rest, depth, level);
    HeadsAppend([head], sub, depth, level);
    assert Heads([head], depth, level) == [head] by {
      assert [head][1..] == [];
      assert Heads([head], depth, level) == [head] + Heads([], depth, level);
    }
  }

  /** A property of every line of three runs holds of their concatenation. */
  lemma AllHold<L>(a: seq<L>, b: seq<L>, c: seq<L>, ok: L -> bool)
    requires forall line :: line in a ==> ok(line)
    requires forall line :: line in b ==> ok(line)
    requires forall line :: line in c ==> ok(line)
    ensures forall line :: line in a + b + c ==> ok(line)
  {
  }
}

=== FILE: paths.dfy ===
/** Path joining and the termination measure of a recursive walk over a
    file system that is given as a finite map from path to directory content. */
module Paths {

  /** The child path `parent/name`, as built by `asprintf("%s/%s", ...)` in
      the C program and by `path + "/" + name` in the Go program. */
  function Join(parent: string, name: string): (r: string)
    ensures |r| == |parent| + 1 + |name|
    ensures r[..|parent|] == parent && r[|parent|] == '/' && r[|parent| + 1..] == name
  {
    parent + "/" + name
  }

  /** The set of directories of `fs` whose path is at least as long as `path`. */
  function LongerPaths<V>(fs: map<string, V>, path: string): set<string>
  {
    set p | p in fs.Keys && |p| >= |path|
  }

  /** The walk only descends into strictly longer paths, so this number
      strictly decreases along every descent from a directory that exists. */
  function Measure<V>(fs: map<string, V>, path: string): nat
  {
    |LongerPaths(fs, path)|
  }

  lemma MeasureShrinks<V>(fs: map<string, V>, path: string, child: string)
    requires path in fs
    requires |child| > |path|
    ensures Measure(fs, child) < Measure(fs, path)
  {
    var small := LongerPaths(fs, child);
    var big := LongerPaths(fs, path);
    assert small <= big;
    assert path in big && path !in small;
    SubsetCardinality(small + {path}, big);
  }

  lemma SubsetCardinality<T>(a: set<T>, b: set<T>)
    requires a <= b
    ensures |a| <= |b|
  {
    if a != {} {
      var x :| x in a;
      SubsetCardinality(a - {x}, b - {x});
    }
  }
}

=== FILE: program.dfy ===
/** The program around the walk (`main` and `print_summary` of `tree.c`):
    the `-L` check, the root line, the rendered lines and the summary. */
module Program {
  import opened Wrappers
  import opened Dirent
  import Seqs
  import Text
  import EntryList
  import Render
  import opened Traversal
  import Outline

  /** `-L level`: a negative depth is refused with its value (the program
      reports it and exits with status 1); any other depth becomes the
      limit, 0 meaning none. */
  function CheckDepth(userDepth: int): (r: Result<nat, int>)
    ensures r.Ok? <==> userDepth >= 0
    ensures r.Ok? ==> r.value == userDepth
    ensures r.Err? ==> r.error == userDepth
  {
    if userDepth < 0 then Err(userDepth) else Ok(userDepth)
  }

  /** A depth that `-L` accepts bounds the walk: with a positive limit no
      line is printed at that depth or deeper. */
  lemma DepthLimitHolds(fs: FileSystem, cfg: Config, root: string, userDepth: int)
    requires CheckDepth(userDepth).Ok? && cfg.maxDepth == CheckDepth(userDepth).value
    ensures var walk := Crawl(fs, cfg, root, 0, "");
            walk.Ok? && userDepth > 0 ==> forall line :: line in walk.value.0 ==> line.level < userDepth
  {
    CrawlShape(fs, cfg, root, 0, "");
  }

  /** `print_summary`: a blank line, then the directory count and, unless
      `-d`, the file count, each followed by its noun in the singular
      exactly when the count is 1. */
  function Summary(cfg: Config, c: Counts): (r: string)
    ensures |r| > 1 && r[0] == '\n' && r[|r| - 1] == '\n'
  {
    "\n" + (Text.FormatTally(c.directories, "directory", "directories") + SummaryEnd(cfg, c.files))
  }

  /** The rest of the summary line after the directory count. */
  function SummaryEnd(cfg: Config, files: nat): (r: string)
    ensures |r| > 0 && (r[0] == '\n' || r[0] == ',') && r[|r| - 1] == '\n'
  {
    (if cfg.directoriesOnly then "" else ", " + Text.FormatTally(files, "file", "files")) + "\n"
  }

  /** The summary can be read back: it reports both counts (only the
      directories under `-d`) with the right number of the noun. */
  lemma SummaryRoundTrip(cfg: Config, c: Counts)
    ensures Text.ParseSummary(Summary(cfg, c))
         == Some((Text.Tally(c.directories, Text.Noun(c.directories, "directory", "directories")),
                  if cfg.directoriesOnly then None
                  else Some(Text.Tally(c.files, Text.Noun(c.files, "file", "files")))))
  {
    var dirs := Text.FormatTally(c.directories, "directory", "directories");
    var after := SummaryEnd(cfg, c.files);
    DirTallyRoundTrip(c.directories, after);
    FileTallyRoundTrip(cfg, c.files);
    Text.ParseSummaryOf(dirs + after, Text.Tally(c.directories, Text.Noun(c.directories, "directory", "directories")),
                  after, if cfg.directoriesOnly then None else Some(Text.Tally(c.files, Text.Noun(c.files, "file", "files"))));
  }


  lemma DirTallyRoundTrip(n: nat, after: string)
    requires |after| > 0 && (after[0] == '\n' || after[0] == ',')
    ensures Text.ParseTally(Text.FormatTally(n, "directory", "directories") + after)
         == Some((Text.Tally(n, Text.Noun(n, "directory", "directories")), after))
  {
    Text.ParseFormatTally(n, "directory", "directories", after);
  }

  lemma FileTallyRoundTrip(cfg: Config, files: nat)
    ensures Text.ParseSecondTally(SummaryEnd(cfg, files))
            == Some(if cfg.directoriesOnly then None else Some(Text.Tally(files, Text.Noun(files, "file", "files"))))
  {
    if !cfg.directoriesOnly {
      var tally := Text.FormatTally(files, "file", "files");
      assert SummaryEnd(cfg, files) == ", " + (tally + "\n");
      Text.ParseFormatTally(files, "file", "files", "\n");
      Text.ParseSecondTallyOf(tally + "\n", Text.Tally(files, Text.Noun(files, "file", "files")));
    }
  }


  /** Every line of the walk through `indent_item`, in order. */
  function RenderLines(lines: seq<Line>, isTty: bool): string
  {
    if |lines| == 0 then ""
    else RenderLine(lines[0], isTty) + RenderLines(lines[1..], isTty)
  }

  function RenderLine(line: Line, isTty: bool): (r: string)
    ensures |r| > 0 && r[|r| - 1] == '\n'
  {
    Render.IndentItem(line.indent, Glyph(line.connector), line.entry, isTty)
  }

  /** Neither the indent nor the connector nor the names of the line hold
      an escape character. */
  predicate Shown(line: Line)
  {
    Render.Visible(line.indent, Glyph(line.connector), line.entry)
  }

  /** What a terminal shows of the coloured output is the plain output:
      colour adds escape codes and nothing else. */
  lemma {:induction false} ColourShowsPlain(lines: seq<Line>)
    requires forall k :: 0 <= k < |lines| ==> Shown(lines[k])
    ensures Render.StripAnsi(RenderLines(lines, true)) == RenderLines(lines, false)
  {
    if |lines| > 0 {
      LineShowsPlain(lines[0]);
      ColourShowsPlain(lines[1..]);
      Render.StripConcat(RenderLine(lines[0], true), RenderLines(lines[1..], true));
    }
  }

  lemma LineShowsPlain(line: Line)
    requires Shown(line)
    ensures Render.StripAnsi(RenderLine(line, true)) == RenderLine(line, false)
  {
  }

  /** Without a terminal, lines whose names hold no escape character are
      written with none. */
  lemma {:induction false} PlainHasNoEscape(lines: seq<Line>)
    requires forall k :: 0 <= k < |lines| ==> Shown(lines[k])
    ensures Seqs.Excludes(RenderLines(lines, false), Render.ESC)
  {
    if |lines| > 0 {
      assert Shown(lines[0]);
      PlainHasNoEscape(lines[1..]);
      Render.ExcludesConcat(RenderLine(lines[0], false), RenderLines(lines[1..], false), Render.ESC);
    }
  }

  /** The directory a run starts from: the first operand cut to
      `DIRENT_NAME_LENGTH` characters, or without one the working directory,
      which `getcwd` into a buffer of `DIRENT_NAME_LENGTH` bytes returns
      only when it fits with its terminating NUL; `None` when it does not. */
  function RootOf(arg: Option<string>, cwd: string): (r: Option<string>)
    ensures r.None? <==> arg.None? && |cwd| >= NAME_LENGTH
    ensures r.Some? ==> |r.value| <= NAME_LENGTH
    ensures arg.Some? ==> r.value <= arg.value && (|arg.value| <= NAME_LENGTH ==> r.value == arg.value)
    ensures arg.None? && r.Some? ==> r.value == cwd
  {
    match arg
    case Some(a) => Some(EntryList.Truncate(a, NAME_LENGTH))
    case None => if |cwd| < NAME_LENGTH then Some(cwd) else None
  }

  /** How a run ends with status 1: `getcwd` refused the working directory,
      or `opendir` failed fatally on the path given. */
  datatype Failure = CwdTooLong | OpenFailed(path: string)

  /** A whole run of `tree [flags] [arg]`: the root on a line of its own,
      the walk below it, and the summary under `-s`. It fails when there is
      no operand and the working directory is too long for the buffer, and
      otherwise only where `opendir` fails fatally: on the root itself, or
      on a listed subdirectory below it. */
  function Tree(fs: FileSystem, cfg: Config, arg: Option<string>, cwd: string, isTty: bool)
    : (r: Result<string, Failure>)
    ensures r.Err? && r.error.CwdTooLong? <==> arg.None? && |cwd| >= NAME_LENGTH
    ensures r.Err? && r.error.OpenFailed? ==>
              var root := RootOf(arg, cwd).value;
              r.error.path !in fs
              && (r.error.path == root || (root + "/" <= r.error.path && FailsBelow(fs, cfg, r.error.path)))
    ensures r.Ok? ==> RootOf(arg, cwd).Some? && RootOf(arg, cwd).value + "\n" <= r.value
  {
    match RootOf(arg, cwd)
    case None => Err(CwdTooLong)
    case Some(root) =>
      var walk := Crawl(fs, cfg, root, 0, "");
      CrawlFails(fs, cfg, root, 0, "");
      if walk.Err? then Err(OpenFailed(walk.error))
      else
        Ok(root + "\n" + (RenderLines(walk.value.0, isTty)
                          + (if cfg.showSummary then Summary(cfg, walk.value.1) else "")))
  }

  /** Under `-s` the summary at the end of the output reports exactly the
      number of directory lines and of other lines printed above it. */
  lemma TreeSummaryCounts(fs: FileSystem, cfg: Config, arg: Option<string>, cwd: string, isTty: bool)
    requires cfg.showSummary
    ensures var r := Tree(fs, cfg, arg, cwd, isTty);
            r.Ok? ==>
              && RootOf(arg, cwd).Some?
              && var root := RootOf(arg, cwd).value;
                 var walk := Crawl(fs, cfg, root, 0, "");
                 && walk.Ok?
                 && var shown := EntriesOf(walk.value.0);
                    r.value == root + "\n" + (RenderLines(walk.value.0, isTty)
                                              + Summary(cfg, Counts(CountDirs(shown), CountFiles(shown))))
  {
    if RootOf(arg, cwd).Some? {
      CrawlCounts(fs, cfg, RootOf(arg, cwd).value, 0, "");
    }
  }

  /** The first level of the output is the root directory's listed entries
      in sorted order (under `-r` with `list_reverse`'s swaps), `└──` on the
      last one only. */
  lemma TreeTopLevel(fs: FileSystem, cfg: Config, arg: Option<string>, cwd: string)
    requires RootOf(arg, cwd).Some?
    requires var root := RootOf(arg, cwd).value;
             root in fs && fs[root].Entries?
    ensures var root := RootOf(arg, cwd).value;
            var walk := Crawl(fs, cfg, root, 0, "");
            var items := Ordered(cfg, ReadDir(cfg, root, fs[root].entries).0.entities);
            walk.Ok? ==> Outline.Heads(walk.value.0, Depth, 0) == Row(0, "", items, 0)
  {
    CrawlHeads(fs, cfg, RootOf(arg, cwd).value, 0, "");
  }
}

=== FILE: render.dfy ===
/** How one entry becomes one output line (`out.c`): a plain form for pipes
    and files, and a form wrapped in ANSI SGR colour codes for terminals. */
module Render {
  import opened Dirent
  import Seqs
  import Text

  const ESC: char := '\U{1b}'

  /** An SGR escape `ESC [ <code> m`. */
  function Sgr(code: string): (s: string)
    requires |code| > 0 && Text.AllDigits(code)
    ensures |s| == |code| + 3 && s[0] == ESC && s[1] == '[' && s[|s| - 1] == 'm'
  {
    [ESC] + "[" + code + "m"
  }

  const RED: string := Sgr("31")
  const GREEN: string := Sgr("32")
  const BLUE: string := Sgr("34")
  const CYAN: string := Sgr("36")
  const BOLD: string := Sgr("1")
  const RESET: string := Sgr("0")

  const DIRECTORY: string := BOLD + BLUE
  const LINK_SRC: string := BOLD + RED
  const LINK_DEST: string := CYAN
  const FILE_EXEC: string := BOLD + GREEN

  /** No escape character anywhere in the entry's names. */
  predicate NoEscape(e: Entry)
  {
    match e
    case File(p, _) => Seqs.Excludes(p, ESC)
    case Link(src, dst) => Seqs.Excludes(src, ESC) && Seqs.Excludes(dst, ESC)
    case Dir(p) => Seqs.Excludes(p, ESC)
  }

  /** Neither the indent, the connector nor the entry's names contain an
      escape character. */
  predicate Visible(prefix: string, itemPrefix: string, e: Entry)
  {
    Seqs.Excludes(prefix, ESC) && Seqs.Excludes(itemPrefix, ESC) && NoEscape(e)
  }

  /** `indent_item_nocolor`: the indent, the connector, a space, the name
      (for a link, `source -> destination`) and a newline. */
  function PlainLine(prefix: string, itemPrefix: string, e: Entry): (r: string)
    ensures |r| > |prefix| + |itemPrefix| + 1
    ensures r[..|prefix| + |itemPrefix| + 1] == prefix + itemPrefix + " "
    ensures r[|r| - 1] == '\n'
  {
    var head := prefix + itemPrefix + " ";
    match e
    case File(p, _) => head + p + "\n"
    case Link(src, dst) => head + src + " -> " + dst + "\n"
    case Dir(p) => head + p + "\n"
  }

  /** `indent_item_color`: as the plain line, with the name coloured
      (bold green for an executable file, plain for any other file, bold
      blue for a directory, bold red source and cyan arrow and target for a
      link) and every coloured run closed by a reset. */
  function ColorLine(prefix: string, itemPrefix: string, e: Entry): (r: string)
    ensures |r| > |prefix| + |itemPrefix| + 1
    ensures r[..|prefix| + |itemPrefix| + 1] == prefix + itemPrefix + " "
    ensures r[|r| - 1] == '\n'
  {
    var head := prefix + itemPrefix + " ";
    match e
    case File(p, mode) =>
      head + (if IsExecutable(mode) then FILE_EXEC else RESET) + p + RESET + "\n"
    case Link(src, dst) =>
      head + LINK_SRC + src + " " + RESET + LINK_DEST + "-> " + dst + RESET + "\n"
    case Dir(p) =>
      head + DIRECTORY + p + RESET + "\n"
  }

  /** `indent_item`: the coloured form exactly when standard output is a
      terminal. What a terminal shows of the line is the plain line, and
      the line written to a pipe carries no escape codes. */
  function IndentItem(prefix: string, itemPrefix: string, e: Entry, isTty: bool): (r: string)
    ensures Visible(prefix, itemPrefix, e) ==> StripAnsi(r) == PlainLine(prefix, itemPrefix, e)
    ensures !isTty && Visible(prefix, itemPrefix, e) ==> Seqs.Excludes(r, ESC)
    ensures isTty ==> ESC in r
    ensures |r| > 0 && r[|r| - 1] == '\n'
    ensures isTty ==> r == ColorLine(prefix, itemPrefix, e)
    ensures !isTty ==> r == PlainLine(prefix, itemPrefix, e)
  {
    if isTty then
      ColorLineHasEscape(prefix, itemPrefix, e);
      if Visible(prefix, itemPrefix, e) then
        ColorMatchesPlain(prefix, itemPrefix, e);
        ColorLine(prefix, itemPrefix, e)
      else
        ColorLine(prefix, itemPrefix, e)
    else
      if Visible(prefix, itemPrefix, e) then
        PlainHasNoEscape(prefix, itemPrefix, e);
        StripPlainText(PlainLine(prefix, itemPrefix, e));
        PlainLine(prefix, itemPrefix, e)
      else
        PlainLine(prefix, itemPrefix, e)
  }

  /** Length of the SGR escape at the front of `s`, or 0 when `s` does not
      start with one. */
  function SgrLength(s: string): (n: nat)
    ensures n <= |s|
    ensures n > 0 ==> n >= 3 && s[0] == ESC
    ensures |s| > 0 && s[0] != ESC ==> n == 0
  {
    if |s| >= 2 && s[0] == ESC && s[1] == '[' then
      var d := Text.SpanDigits(s[2..]);
      if 2 + d < |s| && s[2 + d] == 'm' then 3 + d else 0
    else 0
  }

  /** The text a terminal shows: `s` with every SGR escape removed. */
  function StripAnsi(s: string): (r: string)
    ensures |r| <= |s|
    decreases |s|
  {
    if |s| == 0 then ""
    else
      var n := SgrLength(s);
      if n > 0 then StripAnsi(s[n..]) else [s[0]] + StripAnsi(s[1..])
  }

  /** An escape found at the front of a text ending in a newline lies
      wholly inside that text. */
  lemma SgrLengthPrefix(a: string, b: string)
    requires |a| > 0 && a[|a| - 1] == '\n'
    ensures SgrLength(a + b) == SgrLength(a) < |a|
  {
    if |a| >= 2 && a[0] == ESC && a[1] == '[' {
      assert (a + b)[2..] == a[2..] + b;
      Text.SpanDigitsStop(a[2..], b);
    }
  }

  /** Stripping distributes over a cut just after a newline. */
  lemma {:induction false} StripConcat(a: string, b: string)
    requires |a| > 0 && a[|a| - 1] == '\n'
    ensures StripAnsi(a + b) == StripAnsi(a) + StripAnsi(b)
    decreases |a|
  {
    var n := SgrLength(a);
    SgrLengthPrefix(a, b);
    if n > 0 {
      assert (a + b)[n..] == a[n..] + b;
      StripConcat(a[n..], b);
    } else if |a| == 1 {
      assert (a + b)[1..] == b;
      assert StripAnsi(a) == [a[0]] + StripAnsi(a[1..]);
    } else {
      assert (a + b)[1..] == a[1..] + b;
      StripConcat(a[1..], b);
    }
  }

  /** Text without escape characters passes through unchanged, and what
      follows it is stripped on its own. */
  lemma {:induction false} StripPlainPrefix(a: string, b: string)
    requires Seqs.Excludes(a, ESC)
    ensures StripAnsi(a + b) == a + StripAnsi(b)
  {
    if |a| > 0 {
      var s := a + b;
      assert s[0] == a[0] && SgrLength(s) == 0;
      assert s[1..] == a[1..] + b;
      StripPlainPrefix(a[1..], b);
    } else {
      assert a + b == b;
    }
  }

  lemma StripPlainText(a: string)
    requires Seqs.Excludes(a, ESC)
    ensures StripAnsi(a) == a
  {
    StripPlainPrefix(a, "");
    assert a + "" == a;
  }

  /** An SGR escape shows as nothing. */
  lemma StripSgr(code: string, b: string)
    requires |code| > 0 && Text.AllDigits(code)
    ensures StripAnsi(Sgr(code) + b) == StripAnsi(b)
  {
    var s := Sgr(code) + b;
    assert s[2..] == code + ("m" + b);
    Text.SpanDigitsPrefix(code, "m" + b);
    assert SgrLength(s) == |code| + 3;
    assert s[|code| + 3..] == b;
  }

  /** The two-escape styles show as nothing as well. */
  lemma StripStyle(first: string, second: string, b: string)
    requires |first| > 0 && Text.AllDigits(first)
    requires |second| > 0 && Text.AllDigits(second)
    ensures StripAnsi(Sgr(first) + Sgr(second) + b) == StripAnsi(b)
  {
    assert Sgr(first) + Sgr(second) + b == Sgr(first) + (Sgr(second) + b);
    StripSgr(first, Sgr(second) + b);
    StripSgr(second, b);
  }

  lemma ExcludesConcat(a: string, b: string, x: char)
    requires Seqs.Excludes(a, x) && Seqs.Excludes(b, x)
    ensures Seqs.Excludes(a + b, x)
  {
    assert forall i :: 0 <= i < |a + b| ==> (a + b)[i] == if i < |a| then a[i] else b[i - |a|];
  }

  /** A terminal shows the coloured line as exactly the plain line, provided
      no name contains an escape character of its own. */
  lemma ColorMatchesPlain(prefix: string, itemPrefix: string, e: Entry)
    requires Visible(prefix, itemPrefix, e)
    ensures StripAnsi(ColorLine(prefix, itemPrefix, e)) == PlainLine(prefix, itemPrefix, e)
  {
    var head := prefix + itemPrefix + " ";
    ExcludesConcat(prefix, itemPrefix, ESC);
    ExcludesConcat(prefix + itemPrefix, " ", ESC);
    match e {
      case File(p, mode) => FileVisible(head, p, mode);
      case Link(src, dst) => LinkVisible(head, src, dst);
      case Dir(p) => DirVisible(head, p);
    }
  }

  /** A name followed by a reset and the newline shows as the name and the newline. */
  lemma NameThenReset(p: string)
    requires Seqs.Excludes(p, ESC)
    ensures StripAnsi(p + (RESET + "\n")) == p + "\n"
  {
    assert StripAnsi(RESET + "\n") == "\n" by {
      StripPlainText("\n");
      StripSgr("0", "\n");
    }
    StripPlainPrefix(p, RESET + "\n");
  }

  lemma FileVisible(head: string, p: string, mode: Mode)
    requires Seqs.Excludes(head, ESC) && Seqs.Excludes(p, ESC)
    ensures StripAnsi(head + (if IsExecutable(mode) then FILE_EXEC else RESET) + p + RESET + "\n")
         == head + p + "\n"
  {
    var tail := p + (RESET + "\n");
    var style := if IsExecutable(mode) then FILE_EXEC else RESET;
    assert StripAnsi(tail) == p + "\n" by {
      NameThenReset(p);
    }
    assert StripAnsi(style + tail) == p + "\n" by {
      if IsExecutable(mode) {
        StripStyle("1", "32", tail);
      } else {
        StripSgr("0", tail);
      }
    }
    assert StripAnsi(head + (style + tail)) == head + (p + "\n") by {
      StripPlainPrefix(head, style + tail);
    }
    Regroup5(head, style, p, RESET, "\n");
  }

  lemma DirVisible(head: string, p: string)
    requires Seqs.Excludes(head, ESC) && Seqs.Excludes(p, ESC)
    ensures StripAnsi(head + DIRECTORY + p + RESET + "\n") == head + p + "\n"
  {
    var tail := p + (RESET + "\n");
    assert StripAnsi(tail) == p + "\n" by {
      NameThenReset(p);
    }
    assert StripAnsi(DIRECTORY + tail) == p + "\n" by {
      StripStyle("1", "34", tail);
    }
    assert StripAnsi(head + (DIRECTORY + tail)) == head + (p + "\n") by {
      StripPlainPrefix(head, DIRECTORY + tail);
    }
    Regroup5(head, DIRECTORY, p, RESET, "\n");
  }

  /** `a + b + c + d + e` regrouped from the right, and `a + c + e` likewise. */
  lemma Regroup5(a: string, b: string, c: string, d: string, e: string)
    ensures a + b + c + d + e == a + (b + (c + (d + e)))
    ensures a + c + e == a + (c + e)
  {
  }

  lemma LinkVisible(head: string, src: string, dst: string)
    requires Seqs.Excludes(head, ESC) && Seqs.Excludes(src, ESC) && Seqs.Excludes(dst, ESC)
    ensures StripAnsi(head + LINK_SRC + src + " " + RESET + LINK_DEST + "-> " + dst + RESET + "\n")
         == head + src + " -> " + dst + "\n"
  {
    var arrow := "-> " + dst;
    var destTail := arrow + (RESET + "\n");
    var srcTail := (src + " ") + (RESET + (LINK_DEST + destTail));
    assert StripAnsi(destTail) == arrow + "\n" by {
      ExcludesConcat("-> ", dst, ESC);
      NameThenReset(arrow);
    }
    assert StripAnsi(RESET + (LINK_DEST + destTail)) == arrow + "\n" by {
      StripSgr("36", destTail);
      StripSgr("0", LINK_DEST + destTail);
    }
    assert StripAnsi(srcTail) == (src + " ") + (arrow + "\n") by {
      ExcludesConcat(src, " ", ESC);
      StripPlainPrefix(src + " ", RESET + (LINK_DEST + destTail));
    }
    assert StripAnsi(LINK_SRC + srcTail) == (src + " ") + (arrow + "\n") by {
      StripStyle("1", "31", srcTail);
    }
    assert StripAnsi(head + (LINK_SRC + srcTail)) == head + ((src + " ") + (arrow + "\n")) by {
      StripPlainPrefix(head, LINK_SRC + srcTail);
    }
    LinkRegroup(head, src, dst);
  }

  lemma LinkRegroup(head: string, src: string, dst: string)
    ensures head + LINK_SRC + src + " " + RESET + LINK_DEST + "-> " + dst + RESET + "\n"
         == head + (LINK_SRC + ((src + " ") + (RESET + (LINK_DEST + (("-> " + dst) + (RESET + "\n"))))))
    ensures head + src + " -> " + dst + "\n" == head + ((src + " ") + (("-> " + dst) + "\n"))
  {
  }

  lemma PlainHasNoEscape(prefix: string, itemPrefix: string, e: Entry)
    requires Visible(prefix, itemPrefix, e)
    ensures Seqs.Excludes(PlainLine(prefix, itemPrefix, e), ESC)
  {
    var head := prefix + itemPrefix + " ";
    ExcludesConcat(prefix, itemPrefix, ESC);
    ExcludesConcat(prefix + itemPrefix, " ", ESC);
    match e {
      case File(p, _) =>
        ExcludesConcat(head, p, ESC);
        ExcludesConcat(head + p, "\n", ESC);
      case Link(src, dst) =>
        ExcludesConcat(head, src, ESC);
        ExcludesConcat(head + src, " -> ", ESC);
        ExcludesConcat(head + src + " -> ", dst, ESC);
        ExcludesConcat(head + src + " -> " + dst, "\n", ESC);
      case Dir(p) =>
        ExcludesConcat(head, p, ESC);
        ExcludesConcat(head + p, "\n", ESC);
    }
  }

  lemma ColorLineHasEscape(prefix: string, itemPrefix: string, e: Entry)
    ensures ESC in ColorLine(prefix, itemPrefix, e)
  {
    var r := ColorLine(prefix, itemPrefix, e);
    var k := |prefix| + |itemPrefix| + 1;
    assert r[k] == ESC;
  }

  /** A regular file is drawn in the executable colour exactly when one of
      its three execute bits is set; otherwise its name follows a reset. */
  lemma ExecutableColour(prefix: string, itemPrefix: string, path: string, mode: Mode)
    ensures var r := ColorLine(prefix, itemPrefix, File(path, mode));
            var k := |prefix| + |itemPrefix| + 1;
            && (r[k..k + |FILE_EXEC|] == FILE_EXEC <==> IsExecutable(mode))
            && (!IsExecutable(mode) <==> r[k..k + |RESET|] == RESET)
  {
    var r := ColorLine(prefix, itemPrefix, File(path, mode));
    var k := |prefix| + |itemPrefix| + 1;
    if IsExecutable(mode) {
      assert r[k..k + |FILE_EXEC|] == FILE_EXEC;
      assert r[k + 2] == '1' != RESET[2];
    } else {
      assert r[k..k + |RESET|] == RESET;
      assert r[k + 2] == '0' != FILE_EXEC[2];
    }
  }
}

=== FILE: seqs.dfy ===
/** Generic sequence facts used by both listing orders. */
module Seqs {

  /** The mirror image of `s`: the order `slices.Reverse` produces and the
      order a full in-place reversal of an array produces. */
  function Reverse<T>(s: seq<T>): (r: seq<T>)
    ensures |r| == |s|
    ensures forall k :: 0 <= k < |s| ==> r[k] == s[|s| - 1 - k]
  {
    if |s| == 0 then [] else [s[|s| - 1]] + Reverse(s[..|s| - 1])
  }

  /** Reversing twice gives back the original order. */
  lemma ReverseInvolution<T>(s: seq<T>)
    ensures Reverse(Reverse(s)) == s
  {
    var r := Reverse(Reverse(s));
    assert |r| == |s|;
    forall k | 0 <= k < |s|
      ensures r[k] == s[k]
    {
      assert r[k] == Reverse(s)[|s| - 1 - k];
    }
  }

  /** Reversal keeps the same elements. */
  lemma ReverseMultiset<T>(s: seq<T>)
    ensures multiset(Reverse(s)) == multiset(s)
  {
    if |s| > 0 {
      ReverseMultiset(s[..|s| - 1]);
      assert s == s[..|s| - 1] + [s[|s| - 1]];
    }
  }

  /** True iff every character of `s` satisfies `c == x`. */
  predicate AllEqual(s: string, x: char)
  {
    forall i :: 0 <= i < |s| ==> s[i] == x
  }

  /** True iff the character `x` does not occur in `s`. */
  predicate Excludes(s: string, x: char)
  {
    forall i :: 0 <= i < |s| ==> s[i] != x
  }
}

=== FILE: sorting.dfy ===
/** Insertion sort by a three-way comparator, in the form `list_sort` runs
    it: element `i` is moved left past every element of the already sorted
    prefix that compares strictly greater than it. */
module Sorting {

  /** Swapping the arguments flips the sign (and keeps zero at zero). */
  ghost predicate Antisymmetric<T(!new)>(cmp: (T, T) -> int)
  {
    forall x, y :: cmp(y, x) == -cmp(x, y)
  }

  /** "Compares at most" is transitive. */
  ghost predicate Transitive<T(!new)>(cmp: (T, T) -> int)
  {
    forall x, y, z :: cmp(x, y) <= 0 && cmp(y, z) <= 0 ==> cmp(x, z) <= 0
  }

  /** A three-way comparator inducing a total preorder. */
  ghost predicate Comparator<T(!new)>(cmp: (T, T) -> int)
  {
    Antisymmetric(cmp) && Transitive(cmp)
  }

  /** Every pair, not only every adjacent pair, is in order. */
  ghost predicate Sorted<T>(s: seq<T>, cmp: (T, T) -> int)
  {
    forall i, j :: 0 <= i < j < |s| ==> cmp(s[i], s[j]) <= 0
  }

  /** The slot the inner loop of `list_sort` stops at: scanning from the
      right, it skips every element that compares greater than `x`. */
  function InsertPos<T>(s: seq<T>, x: T, cmp: (T, T) -> int): (k: nat)
    ensures k <= |s|
  {
    if |s| == 0 then 0
    else if cmp(s[|s| - 1], x) > 0 then InsertPos(s[..|s| - 1], x, cmp)
    else |s|
  }

  /** Everything right of the slot compares greater than `x`; the element
      just left of it does not. */
  lemma {:induction false} InsertPosSpec<T>(s: seq<T>, x: T, cmp: (T, T) -> int)
    ensures var k := InsertPos(s, x, cmp);
            && (forall j :: k <= j < |s| ==> cmp(s[j], x) > 0)
            && (k > 0 ==> cmp(s[k - 1], x) <= 0)
  {
    if |s| > 0 && cmp(s[|s| - 1], x) > 0 {
      InsertPosSpec(s[..|s| - 1], x, cmp);
    }
  }

  /** `s` with `x` placed at its insertion slot. */
  function Insert<T>(s: seq<T>, x: T, cmp: (T, T) -> int): seq<T>
  {
    var k := InsertPos(s, x, cmp);
    s[..k] + [x] + s[k..]
  }

  /** The order insertion sort leaves behind: each element in turn, from the
      left, is inserted into the sorted prefix before it. */
  function Sort<T>(s: seq<T>, cmp: (T, T) -> int): seq<T>
  {
    if |s| == 0 then [] else Insert(Sort(s[..|s| - 1], cmp), s[|s| - 1], cmp)
  }

  /** The slot is the unique index with everything right of it greater and
      the element left of it not greater. */
  lemma {:induction false} InsertPosUnique<T>(s: seq<T>, x: T, cmp: (T, T) -> int, m: nat)
    requires m <= |s|
    requires forall k :: m <= k < |s| ==> cmp(s[k], x) > 0
    requires m > 0 ==> cmp(s[m - 1], x) <= 0
    ensures InsertPos(s, x, cmp) == m
  {
    if |s| > m {
      var s' := s[..|s| - 1];
      assert forall k :: m <= k < |s'| ==> s'[k] == s[k];
      InsertPosUnique(s', x, cmp, m);
    }
  }

  lemma SortStep<T>(items: seq<T>, i: nat, cmp: (T, T) -> int)
    requires i < |items|
    ensures Sort(items[..i + 1], cmp) == Insert(Sort(items[..i], cmp), items[i], cmp)
  {
    assert items[..i + 1][..i] == items[..i];
  }

  /** Insertion sort on an array, as `list_sort` does it: each element in
      turn is dropped into the sorted prefix to its left, past every element
      that compares strictly greater. */
  method InsertionSort<T>(items: seq<T>, cmp: (T, T) -> int) returns (r: seq<T>)
    ensures r == Sort(items, cmp)
  {
    var a := new T[|items|](k requires 0 <= k < |items| => items[k]);
    var n := a.Length;
    var i := if n == 0 then 0 else 1;
    assert n > 0 ==> items[..1] == [items[0]];
    while i < n
      invariant 0 <= i <= n
      invariant n > 0 ==> i >= 1
      invariant a[..i] == Sort(items[..i], cmp)
      invariant a[i..] == items[i..]
    {
      InsertOne(a, items, i, cmp);
      i := i + 1;
    }
    r := a[..];
    assert items[..n] == items;
  }

  /** One pass of the outer loop: drops `a[i]` into the sorted prefix. */
  method InsertOne<T>(a: array<T>, items: seq<T>, i: nat, cmp: (T, T) -> int)
    requires 0 < i < a.Length == |items|
    requires a[..i] == Sort(items[..i], cmp) && a[i..] == items[i..]
    modifies a
    ensures a[..i + 1] == Sort(items[..i + 1], cmp) && a[i + 1..] == items[i + 1..]
  {
    var item := a[i];
    ghost var p := a[..i];
    var j := ShiftGreater(a, i, cmp);
    a[j + 1] := item;
    InsertStep(items, i, a[..], p, j, cmp);
  }

  /** The inner loop: moves every element of the prefix that compares greater
      than `a[i]` one slot right, returning the slot left of the gap. */
  method ShiftGreater<T>(a: array<T>, i: nat, cmp: (T, T) -> int) returns (j: int)
    requires 0 < i < a.Length
    modifies a
    ensures -1 <= j < i
    ensures forall k :: 0 <= k <= j ==> a[k] == old(a[k])
    ensures forall k :: j + 2 <= k <= i ==> a[k] == old(a[k - 1])
    ensures a[i + 1..] == old(a[i + 1..])
    ensures forall k :: j < k < i ==> cmp(old(a[k]), old(a[i])) > 0
    ensures j >= 0 ==> cmp(old(a[j]), old(a[i])) <= 0
  {
    var item := a[i];
    j := i - 1;
    while j >= 0 && cmp(a[j], item) > 0
      invariant -1 <= j < i
      invariant forall k :: 0 <= k <= j ==> a[k] == old(a[k])
      invariant forall k :: j + 2 <= k <= i ==> a[k] == old(a[k - 1])
      invariant a[i + 1..] == old(a[i + 1..])
      invariant forall k :: j < k < i ==> cmp(old(a[k]), item) > 0
      decreases j
    {
      a[j + 1] := a[j];
      j := j - 1;
    }
  }

  /** One pass of the outer loop: after the elements greater than `items[i]`
      have moved one slot right and `items[i]` has been dropped into the gap
      at `j + 1`, the first `i + 1` slots are the sort of the first `i + 1` items. */
  lemma InsertStep<T>(items: seq<T>, i: nat, a: seq<T>, p: seq<T>, j: int, cmp: (T, T) -> int)
    requires i < |items| == |a| && -1 <= j < i
    requires p == Sort(items[..i], cmp) && |p| == i
    requires forall k :: 0 <= k <= j ==> a[k] == p[k]
    requires a[j + 1] == items[i]
    requires forall k :: j + 2 <= k <= i ==> a[k] == p[k - 1]
    requires forall k :: j < k < i ==> cmp(p[k], items[i]) > 0
    requires j >= 0 ==> cmp(p[j], items[i]) <= 0
    ensures a[..i + 1] == Sort(items[..i + 1], cmp)
  {
    InsertPosUnique(p, items[i], cmp, j + 1);
    InsertShape(p, items[i], cmp);
    assert a[..i + 1] == Insert(p, items[i], cmp);
    SortStep(items, i, cmp);
  }

  /** The elements of `s` that compare equal to `e`, in their order in `s`. */
  function Class<T>(s: seq<T>, e: T, cmp: (T, T) -> int): seq<T>
  {
    if |s| == 0 then []
    else Class(s[..|s| - 1], e, cmp) + (if cmp(s[|s| - 1], e) == 0 then [s[|s| - 1]] else [])
  }

  /** The shape of an insertion: the prefix before the slot, `x`, the rest. */
  lemma InsertShape<T>(s: seq<T>, x: T, cmp: (T, T) -> int)
    ensures var k := InsertPos(s, x, cmp);
            var r := Insert(s, x, cmp);
            && |r| == |s| + 1
            && r[k] == x
            && (forall i :: 0 <= i < k ==> r[i] == s[i])
            && (forall i :: k < i < |r| ==> r[i] == s[i - 1])
  {
  }

  lemma InsertMultiset<T>(s: seq<T>, x: T, cmp: (T, T) -> int)
    ensures multiset(Insert(s, x, cmp)) == multiset(s) + multiset{x}
  {
    var k := InsertPos(s, x, cmp);
    assert s == s[..k] + s[k..];
  }

  /** Sorting only rearranges: the result is a permutation of the input. */
  lemma {:induction false} SortPermutation<T>(s: seq<T>, cmp: (T, T) -> int)
    ensures multiset(Sort(s, cmp)) == multiset(s)
  {
    if |s| > 0 {
      var init := s[..|s| - 1];
      SortPermutation(init, cmp);
      InsertMultiset(Sort(init, cmp), s[|s| - 1], cmp);
      assert s == init + [s[|s| - 1]];
    }
  }

  lemma SortLength<T>(s: seq<T>, cmp: (T, T) -> int)
    ensures |Sort(s, cmp)| == |s|
  {
    SortPermutation(s, cmp);
    assert |multiset(Sort(s, cmp))| == |multiset(s)|;
  }

  /** Inserting into a sorted sequence keeps it sorted. */
  lemma InsertSorted<T(!new)>(s: seq<T>, x: T, cmp: (T, T) -> int)
    requires Comparator(cmp)
    requires Sorted(s, cmp)
    ensures Sorted(Insert(s, x, cmp), cmp)
  {
    var k := InsertPos(s, x, cmp);
    var r := Insert(s, x, cmp);
    InsertShape(s, x, cmp);
    InsertPosSpec(s, x, cmp);
    forall i, j | 0 <= i < j < |r|
      ensures cmp(r[i], r[j]) <= 0
    {
      if j < k {
        assert r[i] == s[i] && r[j] == s[j];
      } else if j == k {
        assert r[i] == s[i] && r[j] == x;
        if i < k - 1 {
          assert cmp(s[i], s[k - 1]) <= 0 && cmp(s[k - 1], x) <= 0;
        }
      } else if i < k {
        assert r[i] == s[i] && r[j] == s[j - 1];
      } else if i == k {
        assert r[i] == x && r[j] == s[j - 1];
        assert cmp(s[j - 1], x) > 0;
        assert cmp(x, s[j - 1]) == -cmp(s[j - 1], x);
      } else {
        assert r[i] == s[i - 1] && r[j] == s[j - 1];
      }
    }
  }

  /** Insertion sort produces an ascending order. */
  lemma {:induction false} SortSorted<T(!new)>(s: seq<T>, cmp: (T, T) -> int)
    requires Comparator(cmp)
    ensures Sorted(Sort(s, cmp), cmp)
  {
    if |s| > 0 {
      SortSorted(s[..|s| - 1], cmp);
      InsertSorted(Sort(s[..|s| - 1], cmp), s[|s| - 1], cmp);
    }
  }

  lemma {:induction false} ClassAppend<T>(a: seq<T>, b: seq<T>, e: T, cmp: (T, T) -> int)
    ensures Class(a + b, e, cmp) == Class(a, e, cmp) + Class(b, e, cmp)
    decreases |b|
  {
    if |b| == 0 {
      assert a + b == a;
    } else {
      var b' := b[..|b| - 1];
      assert (a + b)[..|a + b| - 1] == a + b';
      ClassAppend(a, b', e, cmp);
    }
  }

  /** When no element of `s` compares equal to `e`, its class is empty. */
  lemma {:induction false} ClassEmpty<T>(s: seq<T>, e: T, cmp: (T, T) -> int)
    requires forall j :: 0 <= j < |s| ==> cmp(s[j], e) != 0
    ensures Class(s, e, cmp) == []
  {
    if |s| > 0 {
      ClassEmpty(s[..|s| - 1], e, cmp);
    }
  }

  /** The class algebra of an insertion, independent of the comparator's laws. */
  lemma InsertClassSplit<T>(s: seq<T>, x: T, e: T, cmp: (T, T) -> int)
    ensures var k := InsertPos(s, x, cmp);
            && Class(Insert(s, x, cmp), e, cmp)
               == Class(s[..k], e, cmp) + Class([x], e, cmp) + Class(s[k..], e, cmp)
            && Class(s, e, cmp) == Class(s[..k], e, cmp) + Class(s[k..], e, cmp)
  {
    var k := InsertPos(s, x, cmp);
    var left, right := s[..k], s[k..];
    assert Insert(s, x, cmp) == (left + [x]) + right;
    ClassAppend(left + [x], right, e, cmp);
    ClassAppend(left, [x], e, cmp);
    ClassAppend(left, right, e, cmp);
    assert left + right == s;
  }

  /** Everything right of the slot is strictly greater than `x`, so nothing
      there is in the class of an element that `x` compares equal to. */
  lemma RightOfSlotOutsideClass<T(!new)>(s: seq<T>, x: T, e: T, cmp: (T, T) -> int)
    requires Comparator(cmp)
    requires cmp(x, e) == 0
    ensures forall j :: InsertPos(s, x, cmp) <= j < |s| ==> cmp(s[j], e) != 0
  {
    var k := InsertPos(s, x, cmp);
    InsertPosSpec(s, x, cmp);
    forall j | k <= j < |s|
      ensures cmp(s[j], e) != 0
    {
      var y := s[j];
      assert cmp(y, x) > 0;
      assert cmp(e, x) == -cmp(x, e);
      assert cmp(y, e) <= 0 && cmp(e, x) <= 0 ==> cmp(y, x) <= 0;
    }
  }

  lemma ClassEmptySuffix<T>(s: seq<T>, k: nat, e: T, cmp: (T, T) -> int)
    requires k <= |s|
    requires forall j :: k <= j < |s| ==> cmp(s[j], e) != 0
    ensures Class(s[k..], e, cmp) == []
  {
    var right := s[k..];
    assert forall j :: 0 <= j < |right| ==> right[j] == s[k + j];
    ClassEmpty(right, e, cmp);
  }

  lemma InsertClass<T>(s: seq<T>, x: T, e: T, cmp: (T, T) -> int)
    requires cmp(x, e) == 0 ==> forall j :: InsertPos(s, x, cmp) <= j < |s| ==> cmp(s[j], e) != 0
    ensures Class(Insert(s, x, cmp), e, cmp)
         == Class(s, e, cmp) + (if cmp(x, e) == 0 then [x] else [])
  {
    var k := InsertPos(s, x, cmp);
    var left, mid, right := Class(s[..k], e, cmp), Class([x], e, cmp), Class(s[k..], e, cmp);
    var mid': seq<T> := if cmp(x, e) == 0 then [x] else [];
    assert Class(Insert(s, x, cmp), e, cmp) == left + mid + right && Class(s, e, cmp) == left + right by {
      InsertClassSplit(s, x, e, cmp);
    }
    assert mid == mid' by {
      ClassSingleton(x, e, cmp);
    }
    assert right == [] || mid == [] by {
      if cmp(x, e) == 0 {
        ClassEmptySuffix(s, k, e, cmp);
      }
    }
    Regroup(left, mid, right, mid');
  }

  lemma Regroup<T>(left: seq<T>, mid: seq<T>, right: seq<T>, mid': seq<T>)
    requires mid == mid'
    requires right == [] || mid == []
    ensures left + mid + right == (left + right) + mid'
  {
  }

  lemma ClassSingleton<T>(x: T, e: T, cmp: (T, T) -> int)
    ensures Class([x], e, cmp) == if cmp(x, e) == 0 then [x] else []
  {
    assert [x][..0] == [];
  }

  /** Stability: elements that compare equal keep their input order, because
      the inner loop only moves past elements that compare strictly greater. */
  lemma {:induction false} SortStable<T(!new)>(s: seq<T>, e: T, cmp: (T, T) -> int)
    requires Comparator(cmp)
    ensures Class(Sort(s, cmp), e, cmp) == Class(s, e, cmp)
  {
    if |s| > 0 {
      SortStable(s[..|s| - 1], e, cmp);
      if cmp(s[|s| - 1], e) == 0 {
        RightOfSlotOutsideClass(Sort(s[..|s| - 1], cmp), s[|s| - 1], e, cmp);
      }
      InsertClass(Sort(s[..|s| - 1], cmp), s[|s| - 1], e, cmp);
    }
  }

  /** The first elements of two sorted permutations compare equal. */
  lemma SortedPermutationHeads<T(!new)>(a: seq<T>, b: seq<T>, cmp: (T, T) -> int)
    requires Antisymmetric(cmp)
    requires Sorted(a, cmp) && Sorted(b, cmp)
    requires multiset(a) == multiset(b)
    requires |a| > 0
    ensures |b| > 0 && cmp(a[0], b[0]) == 0
  {
    assert a[0] in multiset(b);
    assert b[0] in multiset(a);
    var i :| 0 <= i < |a| && a[i] == b[0];
    var j :| 0 <= j < |b| && b[j] == a[0];
    assert cmp(a[0], b[0]) <= 0 by {
      if i > 0 { assert cmp(a[0], a[i]) <= 0; }
    }
    assert cmp(b[0], a[0]) <= 0 by {
      if j > 0 { assert cmp(b[0], b[j]) <= 0; }
    }
    assert cmp(b[0], a[0]) == -cmp(a[0], b[0]);
  }

  /** Dropping the head keeps a sequence sorted. */
  lemma SortedTail<T>(a: seq<T>, cmp: (T, T) -> int)
    requires Sorted(a, cmp) && |a| > 0
    ensures Sorted(a[1..], cmp)
  {
    var a' := a[1..];
    forall i, j | 0 <= i < j < |a'|
      ensures cmp(a'[i], a'[j]) <= 0
    {
      assert a'[i] == a[i + 1] && a'[j] == a[j + 1];
    }
  }

  lemma MultisetTail<T>(a: seq<T>, b: seq<T>)
    requires multiset(a) == multiset(b) && |a| > 0 && |b| > 0 && a[0] == b[0]
    ensures multiset(a[1..]) == multiset(b[1..])
  {
    assert a == [a[0]] + a[1..] && b == [b[0]] + b[1..];
    assert multiset(a[1..]) == multiset(a) - multiset{a[0]};
    assert multiset(b[1..]) == multiset(b) - multiset{b[0]};
  }

  /** Only identical elements of `a` compare equal under `cmp`. */
  ghost predicate Discerning<T>(a: seq<T>, cmp: (T, T) -> int)
  {
    forall x, y :: x in a && y in a && cmp(x, y) == 0 ==> x == y
  }

  lemma DiscerningTail<T>(a: seq<T>, cmp: (T, T) -> int)
    requires Discerning(a, cmp) && |a| > 0
    ensures Discerning(a[1..], cmp)
  {
    forall x, y | x in a[1..] && y in a[1..] && cmp(x, y) == 0
      ensures x == y
    {
      assert x in a && y in a;
    }
  }

  /** Two sorted permutations of discerning elements start alike and
      continue as sorted permutations of each other. */
  lemma SameHead<T(!new)>(a: seq<T>, b: seq<T>, cmp: (T, T) -> int)
    requires Antisymmetric(cmp) && Discerning(a, cmp)
    requires Sorted(a, cmp) && Sorted(b, cmp)
    requires multiset(a) == multiset(b) && |a| > 0
    ensures |b| > 0 && a[0] == b[0]
    ensures multiset(a[1..]) == multiset(b[1..])
  {
    SortedPermutationHeads(a, b, cmp);
    assert b[0] in multiset(a);
    MultisetTail(a, b);
  }

  /** When only identical elements compare equal, there is exactly one sorted
      permutation; so any sorting algorithm, stable or not, agrees with `Sort`. */
  lemma {:induction false} SortedPermutationUnique<T(!new)>(a: seq<T>, b: seq<T>, cmp: (T, T) -> int)
    requires Antisymmetric(cmp) && Discerning(a, cmp)
    requires Sorted(a, cmp) && Sorted(b, cmp)
    requires multiset(a) == multiset(b)
    ensures a == b
    decreases |a|
  {
    assert |a| == |multiset(a)| == |multiset(b)| == |b|;
    if |a| > 0 {
      SameHead(a, b, cmp);
      SortedTail(a, cmp);
      SortedTail(b, cmp);
      DiscerningTail(a, cmp);
      SortedPermutationUnique(a[1..], b[1..], cmp);
      assert a == [a[0]] + a[1..] && b == [b[0]] + b[1..];
    }
  }
}

=== FILE: text.dfy ===
/** Character classes, `%d` formatting and the "count word" phrases the
    summary lines are made of. */
module Text {
  import opened Wrappers

  /** ASCII case folding, as `tolower` does in the "C" locale. */
  function Lower(c: char): (r: char)
    ensures 'A' <= c <= 'Z' ==> 'a' <= r <= 'z' && r as int == c as int + 32
    ensures !('A' <= c <= 'Z') ==> r == c
  {
    if 'A' <= c <= 'Z' then (c as int + 32) as char else c
  }

  predicate IsDigit(c: char)
  {
    '0' <= c <= '9'
  }

  predicate IsLetter(c: char)
  {
    'a' <= c <= 'z'
  }

  predicate AllDigits(s: string)
  {
    forall i :: 0 <= i < |s| ==> IsDigit(s[i])
  }

  predicate AllLetters(s: string)
  {
    forall i :: 0 <= i < |s| ==> IsLetter(s[i])
  }

  function DigitChar(d: nat): (c: char)
    requires d < 10
    ensures IsDigit(c) && c as int - '0' as int == d
  {
    ('0' as int + d) as char
  }

  /** `%d` of a non-negative count: the shortest decimal numeral. */
  function Decimal(n: nat): (s: string)
    ensures |s| > 0 && AllDigits(s)
    ensures |s| > 1 ==> s[0] != '0'
    decreases n
  {
    if n < 10 then [DigitChar(n)] else Decimal(n / 10) + [DigitChar(n % 10)]
  }

  /** The value of a decimal numeral. */
  function DigitsValue(s: string): nat
    requires AllDigits(s)
  {
    if |s| == 0 then 0
    else DigitsValue(s[..|s| - 1]) * 10 + (s[|s| - 1] as int - '0' as int)
  }

  /** Reading back a formatted count gives the count. */
  lemma {:induction false} DecimalRoundTrip(n: nat)
    ensures DigitsValue(Decimal(n)) == n
    decreases n
  {
    if n >= 10 {
      DecimalRoundTrip(n / 10);
      var s := Decimal(n);
      assert s[..|s| - 1] == Decimal(n / 10);
    }
  }

  /** `"<n> <word>"`, with the singular word exactly when `n == 1`. */
  function FormatTally(n: nat, singular: string, plural: string): (s: string)
    ensures |s| > |Decimal(n)| && s[..|Decimal(n)|] == Decimal(n) && s[|Decimal(n)|] == ' '
    ensures s[|Decimal(n)| + 1..] == Noun(n, singular, plural)
  {
    Decimal(n) + (" " + Noun(n, singular, plural))
  }

  /** A count and the word that followed it. */
  datatype Tally = Tally(count: nat, word: string)

  /** Length of the longest all-digit prefix. */
  function SpanDigits(s: string): (k: nat)
    ensures k <= |s| && AllDigits(s[..k])
    ensures k < |s| ==> !IsDigit(s[k])
  {
    if |s| == 0 || !IsDigit(s[0]) then 0 else 1 + SpanDigits(s[1..])
  }

  /** Length of the longest all-letter prefix. */
  function SpanLetters(s: string): (k: nat)
    ensures k <= |s| && AllLetters(s[..k])
    ensures k < |s| ==> !IsLetter(s[k])
  {
    if |s| == 0 || !IsLetter(s[0]) then 0 else 1 + SpanLetters(s[1..])
  }

  /** Reads `"<digits> <letters>"` from the front of `s`; returns the tally
      and what follows it. */
  function ParseTally(s: string): Option<(Tally, string)>
  {
    var d := SpanDigits(s);
    if d == 0 || d >= |s| || s[d] != ' ' then None
    else
      var rest := s[d + 1..];
      var w := SpanLetters(rest);
      if w == 0 then None
      else Some((Tally(DigitsValue(s[..d]), rest[..w]), rest[w..]))
  }

  lemma {:induction false} SpanDigitsPrefix(a: string, b: string)
    requires AllDigits(a)
    requires |b| > 0 && !IsDigit(b[0])
    ensures SpanDigits(a + b) == |a|
  {
    if |a| > 0 {
      assert (a + b)[1..] == a[1..] + b;
      SpanDigitsPrefix(a[1..], b);
    } else {
      assert a + b == b;
    }
  }

  /** A digit run that meets a non-digit inside `a` ends there, whatever
      follows `a`. */
  lemma {:induction false} SpanDigitsStop(a: string, b: string)
    requires |a| > 0 && !IsDigit(a[|a| - 1])
    ensures SpanDigits(a + b) == SpanDigits(a) < |a|
  {
    if IsDigit(a[0]) {
      assert (a + b)[1..] == a[1..] + b;
      SpanDigitsStop(a[1..], b);
    }
  }

  lemma {:induction false} SpanLettersPrefix(a: string, b: string)
    requires AllLetters(a)
    requires |b| == 0 || !IsLetter(b[0])
    ensures SpanLetters(a + b) == |a|
  {
    if |a| > 0 {
      assert (a + b)[1..] == a[1..] + b;
      SpanLettersPrefix(a[1..], b);
    } else {
      assert a + b == b;
    }
  }

  /** Parsing a formatted tally recovers the count and the chosen word and
      leaves the text after it untouched. */
  lemma ParseFormatTally(n: nat, singular: string, plural: string, rest: string)
    requires |singular| > 0 && AllLetters(singular)
    requires |plural| > 0 && AllLetters(plural)
    requires |rest| == 0 || !IsLetter(rest[0])
    ensures ParseTally(FormatTally(n, singular, plural) + rest)
         == Some((Tally(n, Noun(n, singular, plural)), rest))
  {
    var digits := Decimal(n);
    var word := Noun(n, singular, plural);
    assert FormatTally(n, singular, plural) + rest == digits + (" " + (word + rest));
    ParseTallyOf(digits, word, rest);
    DecimalRoundTrip(n);
  }

  /** Parsing digits, a space and a word. */
  lemma ParseTallyOf(digits: string, word: string, rest: string)
    requires |digits| > 0 && AllDigits(digits)
    requires |word| > 0 && AllLetters(word)
    requires |rest| == 0 || !IsLetter(rest[0])
    ensures ParseTally(digits + (" " + (word + rest))) == Some((Tally(DigitsValue(digits), word), rest))
  {
    var s := digits + (" " + (word + rest));
    SpanDigitsPrefix(digits, " " + (word + rest));
    assert s[..|digits|] == digits && s[|digits|] == ' ';
    var tail := s[|digits| + 1..];
    assert tail == word + rest;
    SpanLettersPrefix(word, rest);
    assert tail[..|word|] == word && tail[|word|..] == rest;
  }

  /** The noun after a count: the singular exactly when the count is 1. */
  function Noun(n: nat, singular: string, plural: string): string
  {
    if n == 1 then singular else plural
  }

  /** Reads a summary line back: a newline, a first tally and, when
      present, a comma and a second tally, then the closing newline. */
  function ParseSummary(s: string): Option<(Tally, Option<Tally>)>
  {
    if |s| == 0 || s[0] != '\n' then None
    else
      match ParseTally(s[1..])
      case None => None
      case Some((first, rest)) =>
        match ParseSecondTally(rest)
        case None => None
        case Some(second) => Some((first, second))
  }

  /** What follows the first tally: the end of the line, or a comma and
      the second tally before it. */
  function ParseSecondTally(s: string): Option<Option<Tally>>
  {
    if s == "\n" then Some(None)
    else if |s| >= 2 && s[..2] == ", " then
      match ParseTally(s[2..])
      case None => None
      case Some((second, tail)) => if tail == "\n" then Some(Some(second)) else None
    else None
  }

  lemma ParseSummaryOf(line: string, first: Tally, after: string, second: Option<Tally>)
    requires ParseTally(line) == Some((first, after))
    requires ParseSecondTally(after) == Some(second)
    ensures ParseSummary("\n" + line) == Some((first, second))
  {
    assert ("\n" + line)[1..] == line;
  }

  lemma ParseSecondTallyOf(line: string, second: Tally)
    requires ParseTally(line) == Some((second, "\n"))
    ensures ParseSecondTally(", " + line) == Some(Some(second))
  {
    var s := ", " + line;
    assert s != "\n" && s[..2] == ", " && s[2..] == line;
  }
}

=== FILE: traversal.dfy ===
/** The walk of `tree.c`: read a directory, keep the entries to show,
    sort them, print each under its connector and descend into the
    subdirectories with a longer indent. The file system is an input: a map
    from directory path to what `opendir`/`readdir` would yield. */
module Traversal {
  import opened Wrappers
  import opened Dirent
  import opened Paths
  import Seqs
  import Sorting
  import Text
  import EntryList
  import Render
  import Outline

  /** `d_type` of a directory entry. */
  datatype DType = DtUnknown | DtFifo | DtChr | DtDir | DtBlk | DtReg | DtLnk | DtSock | DtWht

  /** One `readdir` result, with what `stat` reports as its mode and what
      `readlink` reports as its target (the latter two are only consulted
      for regular-like entries and links respectively). */
  datatype RawEntry = RawEntry(name: string, dtype: DType, mode: Mode, target: string)

  /** What `opendir` on a path gives: a permission refusal (EACCES or
      EPERM), or the directory's entries in `readdir` order. A path that is
      not in the map fails to open for any other reason. */
  datatype Listing = Denied | Entries(entries: seq<RawEntry>)

  type FileSystem = map<string, Listing>

  /** The command-line flags: `-f`, `-d`, `-r`, `-L` (0 = unlimited), `-s`. */
  datatype Config = Config(
    showFullPath: bool,
    directoriesOnly: bool,
    reverseSort: bool,
    maxDepth: nat,
    showSummary: bool)

  /** `num_directories` and `num_files`. */
  datatype Counts = Counts(directories: nat, files: nat)

  function Add(a: Counts, b: Counts): Counts
  {
    Counts(a.directories + b.directories, a.files + b.files)
  }

  datatype Connector = Middle | Last

  /** One printed entry: its depth, the indent before its connector, the
      connector and the entry. */
  datatype Line = Line(level: nat, indent: string, connector: Connector, entry: Entry)

  function Depth(line: Line): nat
  {
    line.level
  }

  const ITEM_SEP: string := "│   "
  const ITEM_BLANK: string := "    "
  const ITEM_MIDDLE: string := "├──"
  const ITEM_LAST: string := "└──"

  function Glyph(c: Connector): string
  {
    match c
    case Middle => ITEM_MIDDLE
    case Last => ITEM_LAST
  }

  /** A name whose first character is a dot. */
  predicate IsHidden(name: string)
  {
    |name| > 0 && name[0] == '.'
  }

  /** The `d_type`s listed as files. */
  predicate IsFileType(t: DType)
  {
    t.DtFifo? || t.DtChr? || t.DtBlk? || t.DtReg? || t.DtSock?
  }

  /** Whether `readdir`'s entry makes it into the list under `cfg`. */
  predicate Listed(cfg: Config, e: RawEntry)
  {
    !IsHidden(e.name)
    && (e.dtype.DtDir? || (!cfg.directoriesOnly && (IsFileType(e.dtype) || e.dtype.DtLnk?)))
  }

  /** The entries of `raw` that are listed under `cfg`, in `readdir` order. */
  function ListedOf(cfg: Config, raw: seq<RawEntry>): (r: seq<RawEntry>)
    ensures |r| <= |raw|
    ensures forall e :: e in r ==> e in raw && Listed(cfg, e)
  {
    if |raw| == 0 then []
    else
      var prev := ListedOf(cfg, raw[..|raw| - 1]);
      prev + (if Listed(cfg, raw[|raw| - 1]) then [raw[|raw| - 1]] else [])
  }

  /** The entry that a listed `readdir` result becomes, by its `d_type`: a
      directory, a file with its `stat` mode, or a link with its target cut
      to `DIRENT_NAME_LENGTH`; its name is the joined path under `-f` and
      otherwise the name cut to `DIRENT_NAME_LENGTH`. */
  function Stored(cfg: Config, dir: string, e: RawEntry): Entry
    requires Listed(cfg, e)
  {
    var name := if cfg.showFullPath then dir + "/" + e.name else EntryList.Truncate(e.name, NAME_LENGTH);
    if e.dtype.DtDir? then Dir(name)
    else if e.dtype.DtLnk? then Link(name, EntryList.Truncate(e.target, NAME_LENGTH))
    else File(name, e.mode)
  }

  /** What the `readdir` loop should store for `raw`: each listed entry's
      stored form, in `readdir` order. */
  function StoredAll(cfg: Config, dir: string, raw: seq<RawEntry>): (r: seq<Entry>)
    ensures |r| == |ListedOf(cfg, raw)|
  {
    var listed := ListedOf(cfg, raw);
    seq(|listed|, k requires 0 <= k < |listed| => Stored(cfg, dir, listed[k]))
  }

  /** Every stored entry comes from a listed entry of `raw`. */
  lemma StoredFrom(cfg: Config, dir: string, raw: seq<RawEntry>, x: Entry)
    requires x in StoredAll(cfg, dir, raw)
    ensures exists e :: e in raw && Listed(cfg, e) && Stored(cfg, dir, e) == x
  {
    var listed := ListedOf(cfg, raw);
    var k :| 0 <= k < |listed| && StoredAll(cfg, dir, raw)[k] == x;
    assert listed[k] in listed;
  }

  function CountDirs(s: seq<Entry>): nat
  {
    if |s| == 0 then 0 else CountDirs(s[..|s| - 1]) + (if s[|s| - 1].Dir? then 1 else 0)
  }

  function CountFiles(s: seq<Entry>): nat
  {
    if |s| == 0 then 0 else CountFiles(s[..|s| - 1]) + (if s[|s| - 1].Dir? then 0 else 1)
  }

  /** What every stored entry of directory `dir` satisfies: a directory when
      only directories are shown; under `-f` the joined path of a visible
      name, otherwise a visible name of at most `DIRENT_NAME_LENGTH`
      characters. */
  predicate EntryOk(cfg: Config, dir: string, e: Entry)
  {
    var s := ItemString(e);
    && (cfg.directoriesOnly ==> e.Dir?)
    && (cfg.showFullPath ==>
          |s| > |dir| && s[..|dir| + 1] == dir + "/" && !IsHidden(s[|dir| + 1..]))
    && (!cfg.showFullPath ==> |s| <= NAME_LENGTH && !IsHidden(s))
  }

  /** The counters after one more entry, when the summary is on. */
  function Bump(cfg: Config, c: Counts, isDir: bool): (r: Counts)
    ensures !cfg.showSummary ==> r == c
    ensures cfg.showSummary && isDir ==> r == Counts(c.directories + 1, c.files)
    ensures cfg.showSummary && !isDir ==> r == Counts(c.directories, c.files + 1)
  {
    if !cfg.showSummary then c
    else if isDir then c.(directories := c.directories + 1)
    else c.(files := c.files + 1)
  }

  /** One turn of the `readdir` loop: skip hidden names, push directories,
      push files and links unless `-d`, ignore unknown types. */
  function ReadOne(cfg: Config, dir: string, l: EntryList.DirentList, c: Counts, e: RawEntry)
    : (r: (EntryList.DirentList, Counts))
    requires EntryList.Valid(l) && l.fullPath == cfg.showFullPath
    ensures EntryList.Valid(r.0) && r.0.fullPath == l.fullPath
    ensures !Listed(cfg, e) ==> r == (l, c)
    ensures Listed(cfg, e) ==> r.0.entities == l.entities + [Stored(cfg, dir, e)]
    ensures Listed(cfg, e) ==> r.1 == Bump(cfg, c, e.dtype.DtDir?)
                               && EntryOk(cfg, dir, r.0.entities[|l.entities|])
  {
    if IsHidden(e.name) then (l, c)
    else
      StoredNameOk(cfg, dir, e.name);
      match e.dtype
      case DtDir => (EntryList.PushDir(l, dir, e.name), Bump(cfg, c, true))
      case DtFifo | DtChr | DtBlk | DtReg | DtSock =>
        if cfg.directoriesOnly then (l, c)
        else (EntryList.PushFile(l, dir, e.name, e.mode), Bump(cfg, c, false))
      case DtLnk =>
        if cfg.directoriesOnly then (l, c)
        else (EntryList.PushLink(l, dir, e.name, e.target), Bump(cfg, c, false))
      case DtUnknown | DtWht => (l, c)
  }

  /** The whole `readdir` loop over `raw`. Exactly the listed entries are
      stored, each in its stored form and in `readdir` order, and the
      counters (when on) count exactly the stored directories and the stored
      non-directories. */
  function ReadDir(cfg: Config, dir: string, raw: seq<RawEntry>): (r: (EntryList.DirentList, Counts))
    ensures EntryList.Valid(r.0) && r.0.fullPath == cfg.showFullPath
    ensures r.0.entities == StoredAll(cfg, dir, raw)
    ensures cfg.showSummary ==> r.1 == Counts(CountDirs(r.0.entities), CountFiles(r.0.entities))
    ensures !cfg.showSummary ==> r.1 == Counts(0, 0)
    ensures forall k :: 0 <= k < |r.0.entities| ==> EntryOk(cfg, dir, r.0.entities[k])
    decreases |raw|
  {
    if |raw| == 0 then (EntryList.ListInit(cfg.showFullPath), Counts(0, 0))
    else
      var prev := ReadDir(cfg, dir, raw[..|raw| - 1]);
      ReadStep(cfg, dir, raw, prev.0, prev.1);
      ReadOne(cfg, dir, prev.0, prev.1, raw[|raw| - 1])
  }

  /** One turn of the loop keeps what `ReadDir` promises, from all but the
      last entry of `raw` to all of it. */
  lemma ReadStep(cfg: Config, dir: string, raw: seq<RawEntry>, l: EntryList.DirentList, c: Counts)
    requires |raw| > 0
    requires EntryList.Valid(l) && l.fullPath == cfg.showFullPath
    requires l.entities == StoredAll(cfg, dir, raw[..|raw| - 1])
    requires cfg.showSummary ==> c == Counts(CountDirs(l.entities), CountFiles(l.entities))
    requires !cfg.showSummary ==> c == Counts(0, 0)
    requires forall k :: 0 <= k < |l.entities| ==> EntryOk(cfg, dir, l.entities[k])
    ensures var r := ReadOne(cfg, dir, l, c, raw[|raw| - 1]);
            && r.0.entities == StoredAll(cfg, dir, raw)
            && (cfg.showSummary ==> r.1 == Counts(CountDirs(r.0.entities), CountFiles(r.0.entities)))
            && (!cfg.showSummary ==> r.1 == Counts(0, 0))
            && forall k :: 0 <= k < |r.0.entities| ==> EntryOk(cfg, dir, r.0.entities[k])
  {
    var e := raw[|raw| - 1];
    var r := ReadOne(cfg, dir, l, c, e);
    StoredAllStep(cfg, dir, raw);
    ReadKeepsOk(cfg, dir, l, c, e);
    if Listed(cfg, e) {
      assert r.0.entities[..|r.0.entities| - 1] == l.entities;
    }
  }

  /** The stored form of `raw` is that of all but its last entry, followed
      by the last entry's stored form when it is listed. */
  lemma StoredAllStep(cfg: Config, dir: string, raw: seq<RawEntry>)
    requires |raw| > 0
    ensures var last := raw[|raw| - 1];
            StoredAll(cfg, dir, raw)
            == StoredAll(cfg, dir, raw[..|raw| - 1]) + (if Listed(cfg, last) then [Stored(cfg, dir, last)] else [])
  {
    var last := raw[|raw| - 1];
    var a := StoredAll(cfg, dir, raw);
    var b := StoredAll(cfg, dir, raw[..|raw| - 1]) + (if Listed(cfg, last) then [Stored(cfg, dir, last)] else []);
    assert |a| == |b|;
    forall k | 0 <= k < |a|
      ensures a[k] == b[k]
    {
    }
  }

  lemma ReadKeepsOk(cfg: Config, dir: string, l: EntryList.DirentList, c: Counts, e: RawEntry)
    requires EntryList.Valid(l) && l.fullPath == cfg.showFullPath
    requires forall k :: 0 <= k < |l.entities| ==> EntryOk(cfg, dir, l.entities[k])
    ensures var r := ReadOne(cfg, dir, l, c, e);
            forall k :: 0 <= k < |r.0.entities| ==> EntryOk(cfg, dir, r.0.entities[k])
  {
  }

  /** The stored name of a visible entry keeps it visible and, under `-f`,
      starts with the directory and a slash. */
  lemma StoredNameOk(cfg: Config, dir: string, name: string)
    requires !IsHidden(name)
    ensures var s := EntryList.StoredName(cfg.showFullPath, dir, name);
            && (cfg.showFullPath ==>
                  |s| > |dir| && s[..|dir| + 1] == dir + "/" && !IsHidden(s[|dir| + 1..]))
            && (!cfg.showFullPath ==> |s| <= NAME_LENGTH && !IsHidden(s))
  {
    var s := EntryList.StoredName(cfg.showFullPath, dir, name);
    if cfg.showFullPath {
      assert s[..|dir| + 1] == s[..|dir|] + [s[|dir|]];
    } else if |s| > 0 {
      assert s[0] == name[0];
    }
  }

  /** `list_sort`, then under `-r` `list_reverse` as written (see
      `EntryList.ListReverse`): the same entries in ascending order of
      `item_compare`; under `-r` the sorted list with its first and last
      `(n - 1) / 2` entries swapped pairwise, which is the descending order
      only when the count `n` is odd. The walk calls it on non-empty lists
      only; an empty list stays empty. */
  function Ordered(cfg: Config, s: seq<Entry>): (r: seq<Entry>)
    ensures multiset(r) == multiset(s)
    ensures !cfg.reverseSort ==> r == Sorting.Sort(s, EntryList.ItemCompare)
    ensures cfg.reverseSort && |s| > 0 ==>
              r == EntryList.Mirror(Sorting.Sort(s, EntryList.ItemCompare), (|s| - 1) / 2)
    ensures cfg.reverseSort && |s| % 2 == 1 ==>
              r == Seqs.Reverse(Sorting.Sort(s, EntryList.ItemCompare))
  {
    var sorted := Sorting.Sort(s, EntryList.ItemCompare);
    Sorting.SortPermutation(s, EntryList.ItemCompare);
    Sorting.SortLength(s, EntryList.ItemCompare);
    if cfg.reverseSort && |sorted| > 0 then
      EntryList.MirrorMultiset(sorted, (|sorted| - 1) / 2);
      EntryList.MirrorHalfIsReverse(sorted);
      EntryList.Mirror(sorted, (|sorted| - 1) / 2)
    else sorted
  }

  /** The directory a listed subdirectory is opened as: the stored path
      itself under `-f`, otherwise the parent joined with the stored name. */
  function ChildPath(cfg: Config, dir: string, e: Entry): (r: string)
    requires e.Dir? && EntryOk(cfg, dir, e)
    ensures |r| > |dir|
    ensures r[..|dir| + 1] == dir + "/"
  {
    if cfg.showFullPath then e.path
    else
      var r := Join(dir, e.path);
      assert r[..|dir| + 1] == r[..|dir|] + [r[|dir|]];
      r
  }

  /** `crawl_and_print(dir, level, indent)`: the lines printed below `dir`
      and the directories and files counted on the way, or the path whose
      `opendir` failed fatally. Stops at depth `-L`; an unreadable directory
      shows nothing. */
  function Crawl(fs: FileSystem, cfg: Config, dir: string, level: nat, indent: string)
    : (r: Result<(seq<Line>, Counts), string>)
    ensures r.Err? ==> r.error !in fs
    decreases Measure(fs, dir), 1, 0, 0
  {
    if cfg.maxDepth > 0 && level == cfg.maxDepth then Ok(([], Counts(0, 0)))
    else if dir !in fs then Err(dir)
    else
      match fs[dir]
      case Denied => Ok(([], Counts(0, 0)))
      case Entries(raw) =>
        var read := ReadDir(cfg, dir, raw);
        if EntryList.ListIsEmpty(read.0) then Ok(([], read.1))
        else
          var items := Ordered(cfg, read.0.entities);
          assert forall k :: 0 <= k < |items| ==> items[k] in multiset(read.0.entities);
          var rest := PrintItems(fs, cfg, dir, level, indent, items, 0);
          if rest.Err? then Err(rest.error) else Ok((rest.value.0, Add(read.1, rest.value.1)))
  }

  /** The `for` loop over the sorted entries from index `i` on: each entry's
      line, followed by everything below it when it is a directory. */
  function PrintItems(fs: FileSystem, cfg: Config, dir: string, level: nat, indent: string,
                      items: seq<Entry>, i: nat)
    : (r: Result<(seq<Line>, Counts), string>)
    requires dir in fs && i <= |items|
    requires forall k :: 0 <= k < |items| ==> EntryOk(cfg, dir, items[k])
    ensures r.Err? ==> r.error !in fs
    decreases Measure(fs, dir), 0, |items| - i, 1
  {
    if i == |items| then Ok(([], Counts(0, 0)))
    else
      var sub := Below(fs, cfg, dir, level, indent, items, i);
      if sub.Err? then Err(sub.error)
      else
        var rest := PrintItems(fs, cfg, dir, level, indent, items, i + 1);
        if rest.Err? then Err(rest.error)
        else Ok(([Line(level, indent, ConnectorAt(i, |items|), items[i])] + sub.value.0 + rest.value.0,
                 Add(sub.value.1, rest.value.1)))
  }

  /** What is printed below entry `i`: the crawl of its directory one level
      deeper, or nothing for a file or a link. */
  function Below(fs: FileSystem, cfg: Config, dir: string, level: nat, indent: string,
                 items: seq<Entry>, i: nat)
    : (r: Result<(seq<Line>, Counts), string>)
    requires dir in fs && i < |items|
    requires forall k :: 0 <= k < |items| ==> EntryOk(cfg, dir, items[k])
    ensures r.Err? ==> r.error !in fs
    decreases Measure(fs, dir), 0, |items| - i, 0
  {
    if items[i].Dir? then
      var child := ChildPath(cfg, dir, items[i]);
      MeasureShrinks(fs, dir, child);
      Crawl(fs, cfg, child, level + 1, indent + NextIndent(ConnectorAt(i, |items|)))
    else Ok(([], Counts(0, 0)))
  }

  /** `├──` for every entry but the last of a directory, `└──` for the last. */
  function ConnectorAt(i: nat, n: nat): (c: Connector)
    requires i < n
    ensures c == Last <==> i == n - 1
  {
    if i < n - 1 then Middle else Last
  }

  /** The indent added below an entry: a continuing rail under `├──`, blank
      under `└──`. */
  function NextIndent(c: Connector): (s: string)
    ensures |s| == 4
    ensures c == Middle ==> s == ITEM_SEP
    ensures c == Last ==> s == ITEM_BLANK && forall k :: 0 <= k < |s| ==> s[k] == ' '
  {
    match c
    case Middle => ITEM_SEP
    case Last => ITEM_BLANK
  }

  /** The path `opendir` is called on for `e`, a listed directory entry of
      `d`: the stored path under `-f`, otherwise `d` joined with the stored
      name. */
  function OpenedAs(cfg: Config, d: string, e: RawEntry): string
  {
    d + "/" + (if cfg.showFullPath then e.name else EntryList.Truncate(e.name, NAME_LENGTH))
  }

  /** `p` is a listed subdirectory of a readable directory, and `opendir` on
      it fails fatally. */
  predicate FailsBelow(fs: FileSystem, cfg: Config, p: string)
  {
    && p !in fs
    && exists d, e :: d in fs && fs[d].Entries? && e in fs[d].entries && p == OpenedAs(cfg, d, e)
                      && Listed(cfg, e) && e.dtype.DtDir?
  }

  /** A crawl fails only where `opendir` fails fatally: on its own
      directory, or on a listed subdirectory below it, and it names that
      path. */
  lemma {:induction false} CrawlFails(fs: FileSystem, cfg: Config, dir: string, level: nat, indent: string)
    ensures var r := Crawl(fs, cfg, dir, level, indent);
            r.Err? ==> r.error == dir || (dir + "/" <= r.error && FailsBelow(fs, cfg, r.error))
    decreases Measure(fs, dir), 1, 0, 1
  {
    if !(cfg.maxDepth > 0 && level == cfg.maxDepth) && dir in fs && fs[dir].Entries? {
      var read := ReadDir(cfg, dir, fs[dir].entries);
      if !EntryList.ListIsEmpty(read.0) {
        var items := Ordered(cfg, read.0.entities);
        assert forall k :: 0 <= k < |items| ==> items[k] in multiset(read.0.entities);
        PrintFails(fs, cfg, dir, level, indent, items, 0);
      }
    }
  }

  lemma {:induction false} PrintFails(fs: FileSystem, cfg: Config, dir: string, level: nat, indent: string,
                                      items: seq<Entry>, i: nat)
    requires dir in fs && fs[dir].Entries? && i <= |items|
    requires forall k :: 0 <= k < |items| ==> EntryOk(cfg, dir, items[k])
    requires forall k :: 0 <= k < |items| ==> items[k] in StoredAll(cfg, dir, fs[dir].entries)
    ensures var r := PrintItems(fs, cfg, dir, level, indent, items, i);
            r.Err? ==> dir + "/" <= r.error && FailsBelow(fs, cfg, r.error)
    decreases Measure(fs, dir), 0, |items| - i, 1
  {
    if i < |items| {
      BelowFails(fs, cfg, dir, level, indent, items, i);
      PrintFails(fs, cfg, dir, level, indent, items, i + 1);
    }
  }

  lemma {:induction false} BelowFails(fs: FileSystem, cfg: Config, dir: string, level: nat, indent: string,
                                      items: seq<Entry>, i: nat)
    requires dir in fs && fs[dir].Entries? && i < |items|
    requires forall k :: 0 <= k < |items| ==> EntryOk(cfg, dir, items[k])
    requires forall k :: 0 <= k < |items| ==> items[k] in StoredAll(cfg, dir, fs[dir].entries)
    ensures var r := Below(fs, cfg, dir, level, indent, items, i);
            r.Err? ==> dir + "/" <= r.error && FailsBelow(fs, cfg, r.error)
    decreases Measure(fs, dir), 0, |items| - i, 0
  {
    if items[i].Dir? {
      var deeper := indent + NextIndent(ConnectorAt(i, |items|));
      var child := ChildPath(cfg, dir, items[i]);
      MeasureShrinks(fs, dir, child);
      CrawlFails(fs, cfg, child, level + 1, deeper);
      var r := Crawl(fs, cfg, child, level + 1, deeper);
      if r.Err? {
        if r.error == child {
          ChildOpenedAs(fs, cfg, dir, items[i]);
        } else {
          PrefixBelow(dir, child, r.error);
        }
      }
    }
  }

  lemma PrefixBelow(dir: string, child: string, p: string)
    requires |child| > |dir| && child[..|dir| + 1] == dir + "/" && child + "/" <= p
    ensures dir + "/" <= p
  {
    assert p[..|dir| + 1] == child[..|dir| + 1];
  }

  /** A listed subdirectory is opened as the path of a listed directory
      entry of its parent. */
  lemma ChildOpenedAs(fs: FileSystem, cfg: Config, dir: string, x: Entry)
    requires dir in fs && fs[dir].Entries?
    requires x.Dir? && EntryOk(cfg, dir, x) && x in StoredAll(cfg, dir, fs[dir].entries)
    ensures var child := ChildPath(cfg, dir, x);
            dir + "/" <= child && (child !in fs ==> FailsBelow(fs, cfg, child))
  {
    StoredFrom(cfg, dir, fs[dir].entries, x);
    var e :| e in fs[dir].entries && Listed(cfg, e) && Stored(cfg, dir, e) == x;
    assert e.dtype.DtDir? && ChildPath(cfg, dir, x) == OpenedAs(cfg, dir, e);
  }

  /** What every line printed by a crawl started at `level` with `indent`
      satisfies: it is at that depth or deeper and above the `-L` limit; its
      indent extends `indent` by four characters per level; it is a
      directory under `-d`; and without `-f` its name is visible and at most
      `DIRENT_NAME_LENGTH` long. */
  predicate LineOk(cfg: Config, level: nat, indent: string, line: Line)
  {
    && level <= line.level
    && (cfg.maxDepth > 0 ==> line.level < cfg.maxDepth)
    && |line.indent| == |indent| + 4 * (line.level - level)
    && indent <= line.indent
    && (cfg.directoriesOnly ==> line.entry.Dir?)
    && (!cfg.showFullPath ==>
          |ItemString(line.entry)| <= NAME_LENGTH && !IsHidden(ItemString(line.entry)))
  }

  lemma {:induction false} CrawlShape(fs: FileSystem, cfg: Config, dir: string, level: nat, indent: string)
    requires cfg.maxDepth > 0 ==> level <= cfg.maxDepth
    ensures var r := Crawl(fs, cfg, dir, level, indent);
            r.Ok? ==> forall line :: line in r.value.0 ==> LineOk(cfg, level, indent, line)
    decreases Measure(fs, dir), 1, 0, 1
  {
    if !(cfg.maxDepth > 0 && level == cfg.maxDepth) && dir in fs && fs[dir].Entries? {
      var read := ReadDir(cfg, dir, fs[dir].entries);
      if !EntryList.ListIsEmpty(read.0) {
        var items := Ordered(cfg, read.0.entities);
        assert forall k :: 0 <= k < |items| ==> items[k] in multiset(read.0.entities);
        PrintShape(fs, cfg, dir, level, indent, items, 0);
      }
    }
  }

  lemma {:induction false} PrintShape(fs: FileSystem, cfg: Config, dir: string, level: nat, indent: string,
                                      items: seq<Entry>, i: nat)
    requires dir in fs && i <= |items|
    requires forall k :: 0 <= k < |items| ==> EntryOk(cfg, dir, items[k])
    requires cfg.maxDepth > 0 ==> level < cfg.maxDepth
    ensures var r := PrintItems(fs, cfg, dir, level, indent, items, i);
            r.Ok? ==> forall line :: line in r.value.0 ==> LineOk(cfg, level, indent, line)
    decreases Measure(fs, dir), 0, |items| - i, 1
  {
    var r := PrintItems(fs, cfg, dir, level, indent, items, i);
    if i < |items| && r.Ok? {
      PrintItemsUnfold(fs, cfg, dir, level, indent, items, i);
      var sub := Below(fs, cfg, dir, level, indent, items, i).value.0;
      var rest := PrintItems(fs, cfg, dir, level, indent, items, i + 1).value.0;
      var head := Line(level, indent, ConnectorAt(i, |items|), items[i]);
      PrintShape(fs, cfg, dir, level, indent, items, i + 1);
      BelowShape(fs, cfg, dir, level, indent, items, i);
      assert LineOk(cfg, level, indent, head);
      Outline.AllHold([head], sub, rest, line => LineOk(cfg, level, indent, line));
    }
  }

  lemma {:induction false} BelowShape(fs: FileSystem, cfg: Config, dir: string, level: nat, indent: string,
                                      items: seq<Entry>, i: nat)
    requires dir in fs && i < |items|
    requires forall k :: 0 <= k < |items| ==> EntryOk(cfg, dir, items[k])
    requires cfg.maxDepth > 0 ==> level < cfg.maxDepth
    ensures var r := Below(fs, cfg, dir, level, indent, items, i);
            r.Ok? ==> forall line :: line in r.value.0 ==> LineOk(cfg, level, indent, line) && line.level > level
    ensures var r := Below(fs, cfg, dir, level, indent, items, i);
            r.Ok? ==> forall line :: line in r.value.0 ==> indent + NextIndent(ConnectorAt(i, |items|)) <= line.indent
    decreases Measure(fs, dir), 0, |items| - i, 0
  {
    if items[i].Dir? {
      var deeper := indent + NextIndent(ConnectorAt(i, |items|));
      var child := ChildPath(cfg, dir, items[i]);
      MeasureShrinks(fs, dir, child);
      CrawlShape(fs, cfg, child, level + 1, deeper);
      var r := Crawl(fs, cfg, child, level + 1, deeper);
      if r.Ok? {
        forall line | line in r.value.0
          ensures LineOk(cfg, level, indent, line) && line.level > level && deeper <= line.indent
        {
          assert LineOk(cfg, level + 1, deeper, line);
          PrefixOfPrefix(indent, deeper, line.indent);
        }
      }
    }
  }

  /** One step of the loop: when it succeeds, the lines from `i` on are
      entry `i`'s line, what is below it, and the lines from `i + 1` on. */
  lemma PrintItemsUnfold(fs: FileSystem, cfg: Config, dir: string, level: nat, indent: string,
                         items: seq<Entry>, i: nat)
    requires dir in fs && i < |items|
    requires forall k :: 0 <= k < |items| ==> EntryOk(cfg, dir, items[k])
    ensures var r := PrintItems(fs, cfg, dir, level, indent, items, i);
            var sub := Below(fs, cfg, dir, level, indent, items, i);
            var rest := PrintItems(fs, cfg, dir, level, indent, items, i + 1);
            r.Ok? <==> sub.Ok? && rest.Ok?
    ensures var r := PrintItems(fs, cfg, dir, level, indent, items, i);
            var sub := Below(fs, cfg, dir, level, indent, items, i);
            var rest := PrintItems(fs, cfg, dir, level, indent, items, i + 1);
            r.Ok? ==>
              && r.value.0 == [Line(level, indent, ConnectorAt(i, |items|), items[i])] + sub.value.0 + rest.value.0
              && r.value.1 == Add(sub.value.1, rest.value.1)
  {
  }

  lemma PrefixOfPrefix(a: string, b: string, c: string)
    requires a <= b && b <= c
    ensures a <= c
  {
  }

  /** The entries of the printed lines, in order. */
  function EntriesOf(lines: seq<Line>): (r: seq<Entry>)
    ensures |r| == |lines| && forall k :: 0 <= k < |lines| ==> r[k] == lines[k].entry
  {
    seq(|lines|, k requires 0 <= k < |lines| => lines[k].entry)
  }

  lemma EntriesOfAppend(a: seq<Line>, b: seq<Line>)
    ensures EntriesOf(a + b) == EntriesOf(a) + EntriesOf(b)
  {
    assert forall k :: 0 <= k < |a + b| ==> EntriesOf(a + b)[k] == (EntriesOf(a) + EntriesOf(b))[k];
  }

  lemma {:induction false} CountAppend(a: seq<Entry>, b: seq<Entry>)
    ensures CountDirs(a + b) == CountDirs(a) + CountDirs(b)
    ensures CountFiles(a + b) == CountFiles(a) + CountFiles(b)
    decreases |b|
  {
    if |b| == 0 {
      assert a + b == a;
    } else {
      assert (a + b)[..|a + b| - 1] == a + b[..|b| - 1];
      CountAppend(a, b[..|b| - 1]);
    }
  }

  /** The counts depend only on which entries there are, not their order. */
  lemma {:induction false} CountsOfPermutation(a: seq<Entry>, b: seq<Entry>)
    requires multiset(a) == multiset(b)
    ensures CountDirs(a) == CountDirs(b) && CountFiles(a) == CountFiles(b)
    decreases |a|
  {
    if |a| == 0 {
      assert |multiset(b)| == 0;
    } else {
      var x := a[|a| - 1];
      var a' := a[..|a| - 1];
      assert a == a' + [x];
      assert x in multiset(b);
      var j :| 0 <= j < |b| && b[j] == x;
      var b' := b[..j] + b[j + 1..];
      assert b == b[..j] + [x] + b[j + 1..];
      RemoveOne(a, b, j);
      CountsOfPermutation(a', b');
      CountAppend(b[..j], [x]);
      CountAppend(b[..j] + [x], b[j + 1..]);
      CountAppend(b[..j], b[j + 1..]);
    }
  }

  lemma RemoveOne<T>(a: seq<T>, b: seq<T>, j: nat)
    requires multiset(a) == multiset(b) && |a| > 0 && j < |b| && b[j] == a[|a| - 1]
    ensures multiset(a[..|a| - 1]) == multiset(b[..j] + b[j + 1..])
  {
    var x := b[j];
    var a', b' := a[..|a| - 1], b[..j] + b[j + 1..];
    assert a == a' + [x];
    assert multiset(a) == multiset(a') + multiset{x};
    assert b == b[..j] + [x] + b[j + 1..];
    assert multiset(b) == multiset(b[..j]) + multiset{x} + multiset(b[j + 1..]);
    assert multiset(b') == multiset(b[..j]) + multiset(b[j + 1..]);
    assert multiset(a') == multiset(a) - multiset{x};
    assert multiset(b') == multiset(b) - multiset{x};
  }

  /** Counters `c` tally `lines` under `cfg`: with `-s` they are the number
      of directory lines and of other lines; without it they stay zero. */
  predicate Tallied(cfg: Config, entries: seq<Entry>, c: Counts)
  {
    && (cfg.showSummary ==> c == Counts(CountDirs(entries), CountFiles(entries)))
    && (!cfg.showSummary ==> c == Counts(0, 0))
  }

  /** `-s` counts exactly what is printed: every directory line and every
      other line, and nothing when the summary is off. */
  lemma {:induction false} CrawlCounts(fs: FileSystem, cfg: Config, dir: string, level: nat, indent: string)
    ensures var r := Crawl(fs, cfg, dir, level, indent);
            r.Ok? ==> Tallied(cfg, EntriesOf(r.value.0), r.value.1)
    decreases Measure(fs, dir), 1, 0, 1
  {
    if !(cfg.maxDepth > 0 && level == cfg.maxDepth) && dir in fs && fs[dir].Entries? {
      var read := ReadDir(cfg, dir, fs[dir].entries);
      if !EntryList.ListIsEmpty(read.0) {
        ListedCounts(fs, cfg, dir, level, indent);
      }
    }
  }

  /** A directory that opens and lists something prints its sorted entries
      and counts what it read plus what the entries' crawls counted. */
  lemma CrawlUnfold(fs: FileSystem, cfg: Config, dir: string, level: nat, indent: string)
    requires !(cfg.maxDepth > 0 && level == cfg.maxDepth) && dir in fs && fs[dir].Entries?
    requires !EntryList.ListIsEmpty(ReadDir(cfg, dir, fs[dir].entries).0)
    ensures var read := ReadDir(cfg, dir, fs[dir].entries);
            var items := Ordered(cfg, read.0.entities);
            && (forall k :: 0 <= k < |items| ==> EntryOk(cfg, dir, items[k]))
            && var p := PrintItems(fs, cfg, dir, level, indent, items, 0);
               Crawl(fs, cfg, dir, level, indent)
               == if p.Err? then Err(p.error) else Ok((p.value.0, Add(read.1, p.value.1)))
  {
    var read := ReadDir(cfg, dir, fs[dir].entries);
    var items := Ordered(cfg, read.0.entities);
    assert forall k :: 0 <= k < |items| ==> items[k] in multiset(read.0.entities);
  }

  /** The case of `CrawlCounts` where the directory opens and lists something. */
  lemma {:induction false} ListedCounts(fs: FileSystem, cfg: Config, dir: string, level: nat, indent: string)
    requires !(cfg.maxDepth > 0 && level == cfg.maxDepth) && dir in fs && fs[dir].Entries?
    requires !EntryList.ListIsEmpty(ReadDir(cfg, dir, fs[dir].entries).0)
    ensures var r := Crawl(fs, cfg, dir, level, indent);
            r.Ok? ==> Tallied(cfg, EntriesOf(r.value.0), r.value.1)
    decreases Measure(fs, dir), 1, 0, 0
  {
    var read := ReadDir(cfg, dir, fs[dir].entries);
    var items := Ordered(cfg, read.0.entities);
    CrawlUnfold(fs, cfg, dir, level, indent);
    ItemsCounts(fs, cfg, dir, level, indent, read.0.entities, read.1, items);
  }

  /** The counters of a directory's read plus those of its printed entries
      tally the printed lines. */
  lemma {:induction false} ItemsCounts(fs: FileSystem, cfg: Config, dir: string, level: nat, indent: string,
                                       read: seq<Entry>, readC: Counts, items: seq<Entry>)
    requires dir in fs
    requires forall k :: 0 <= k < |items| ==> EntryOk(cfg, dir, items[k])
    requires multiset(items) == multiset(read)
    requires Tallied(cfg, read, readC)
    ensures var p := PrintItems(fs, cfg, dir, level, indent, items, 0);
            p.Ok? ==> Tallied(cfg, EntriesOf(p.value.0), Add(readC, p.value.1))
    decreases Measure(fs, dir), 0, |items|, 2
  {
    var p := PrintItems(fs, cfg, dir, level, indent, items, 0);
    if p.Ok? {
      PrintCounts(fs, cfg, dir, level, indent, items, 0);
      assert items[0..] == items;
      if cfg.showSummary {
        CountsOfPermutation(items, read);
      }
    }
  }

  lemma {:induction false} PrintCounts(fs: FileSystem, cfg: Config, dir: string, level: nat, indent: string,
                                       items: seq<Entry>, i: nat)
    requires dir in fs && i <= |items|
    requires forall k :: 0 <= k < |items| ==> EntryOk(cfg, dir, items[k])
    ensures var r := PrintItems(fs, cfg, dir, level, indent, items, i);
            r.Ok? ==>
              && (cfg.showSummary ==>
                    && CountDirs(EntriesOf(r.value.0)) == CountDirs(items[i..]) + r.value.1.directories
                    && CountFiles(EntriesOf(r.value.0)) == CountFiles(items[i..]) + r.value.1.files)
              && (!cfg.showSummary ==> r.value.1 == Counts(0, 0))
    decreases Measure(fs, dir), 0, |items| - i, 1
  {
    var r := PrintItems(fs, cfg, dir, level, indent, items, i);
    if i < |items| && r.Ok? {
      PrintItemsUnfold(fs, cfg, dir, level, indent, items, i);
      var sub := Below(fs, cfg, dir, level, indent, items, i).value.0;
      var rest := PrintItems(fs, cfg, dir, level, indent, items, i + 1).value.0;
      var head := Line(level, indent, ConnectorAt(i, |items|), items[i]);
      var c := r.value.1;
      var subC := Below(fs, cfg, dir, level, indent, items, i).value.1;
      var restC := PrintItems(fs, cfg, dir, level, indent, items, i + 1).value.1;
      assert r.value.0 == [head] + sub + rest && c == Add(subC, restC);
      var e := EntriesOf(r.value.0);
      if cfg.showSummary {
        assert CountDirs(EntriesOf(sub)) == subC.directories && CountFiles(EntriesOf(sub)) == subC.files by {
          BelowCounts(fs, cfg, dir, level, indent, items, i);
        }
        assert && CountDirs(EntriesOf(rest)) == CountDirs(items[i + 1..]) + restC.directories
               && CountFiles(EntriesOf(rest)) == CountFiles(items[i + 1..]) + restC.files by {
          PrintCounts(fs, cfg, dir, level, indent, items, i + 1);
        }
        assert && CountDirs(e) == (if items[i].Dir? then 1 else 0) + CountDirs(EntriesOf(sub)) + CountDirs(EntriesOf(rest))
               && CountFiles(e) == (if items[i].Dir? then 0 else 1) + CountFiles(EntriesOf(sub)) + CountFiles(EntriesOf(rest)) by {
          StepCounts(head, sub, rest);
        }
        TailCounts(items, i);
      } else {
        BelowCounts(fs, cfg, dir, level, indent, items, i);
        PrintCounts(fs, cfg, dir, level, indent, items, i + 1);
      }
    }
  }

  /** The counts of one line followed by two runs of lines. */
  lemma StepCounts(head: Line, sub: seq<Line>, rest: seq<Line>)
    ensures CountDirs(EntriesOf([head] + sub + rest))
         == (if head.entry.Dir? then 1 else 0) + CountDirs(EntriesOf(sub)) + CountDirs(EntriesOf(rest))
    ensures CountFiles(EntriesOf([head] + sub + rest))
         == (if head.entry.Dir? then 0 else 1) + CountFiles(EntriesOf(sub)) + CountFiles(EntriesOf(rest))
  {
    EntriesOfAppend([head] + sub, rest);
    EntriesOfAppend([head], sub);
    CountAppend(EntriesOf([head]) + EntriesOf(sub), EntriesOf(rest));
    CountAppend(EntriesOf([head]), EntriesOf(sub));
    assert EntriesOf([head]) == [head.entry];
  }

  /** The counts of `items[i..]` split at its first entry. */
  lemma TailCounts(items: seq<Entry>, i: nat)
    requires i < |items|
    ensures CountDirs(items[i..]) == (if items[i].Dir? then 1 else 0) + CountDirs(items[i + 1..])
    ensures CountFiles(items[i..]) == (if items[i].Dir? then 0 else 1) + CountFiles(items[i + 1..])
  {
    assert items[i..] == [items[i]] + items[i + 1..];
    CountAppend([items[i]], items[i + 1..]);
  }

  lemma {:induction false} BelowCounts(fs: FileSystem, cfg: Config, dir: string, level: nat, indent: string,
                                       items: seq<Entry>, i: nat)
    requires dir in fs && i < |items|
    requires forall k :: 0 <= k < |items| ==> EntryOk(cfg, dir, items[k])
    ensures var r := Below(fs, cfg, dir, level, indent, items, i);
            r.Ok? ==> Tallied(cfg, EntriesOf(r.value.0), r.value.1)
    decreases Measure(fs, dir), 0, |items| - i, 0
  {
    if items[i].Dir? {
      var child := ChildPath(cfg, dir, items[i]);
      MeasureShrinks(fs, dir, child);
      CrawlCounts(fs, cfg, child, level + 1, indent + NextIndent(ConnectorAt(i, |items|)));
    } else {
      assert EntriesOf([]) == [];
    }
  }

  /** Entry `i` onward of a directory, as the lines the loop prints for them. */
  function Row(level: nat, indent: string, items: seq<Entry>, i: nat): (r: seq<Line>)
    requires i <= |items|
    ensures |r| == |items| - i
    ensures forall k :: 0 <= k < |r| ==>
              r[k] == Line(level, indent, ConnectorAt(i + k, |items|), items[i + k])
  {
    seq(|items| - i, k requires 0 <= k < |items| - i =>
      Line(level, indent, ConnectorAt(i + k, |items|), items[i + k]))
  }

  /** The lines a directory's loop prints at its own depth are its entries,
      in the order given, each under `├──` except the last under `└──`;
      everything else is deeper. */
  lemma {:induction false} PrintHeads(fs: FileSystem, cfg: Config, dir: string, level: nat, indent: string,
                                      items: seq<Entry>, i: nat)
    requires dir in fs && i <= |items|
    requires forall k :: 0 <= k < |items| ==> EntryOk(cfg, dir, items[k])
    requires cfg.maxDepth > 0 ==> level < cfg.maxDepth
    ensures var r := PrintItems(fs, cfg, dir, level, indent, items, i);
            r.Ok? ==> Outline.Heads(r.value.0, Depth, level) == Row(level, indent, items, i)
    decreases |items| - i
  {
    var r := PrintItems(fs, cfg, dir, level, indent, items, i);
    if i < |items| && r.Ok? {
      PrintItemsUnfold(fs, cfg, dir, level, indent, items, i);
      var sub := Below(fs, cfg, dir, level, indent, items, i).value.0;
      var rest := PrintItems(fs, cfg, dir, level, indent, items, i + 1).value.0;
      BelowShape(fs, cfg, dir, level, indent, items, i);
      PrintHeads(fs, cfg, dir, level, indent, items, i + 1);
      HeadsRow(level, indent, items, i, sub, rest, r.value.0);
    } else if i == |items| {
      assert Row(level, indent, items, i) == [];
    }
  }

  /** Entry `i`'s line, deeper lines, then the lines of the entries after
      it: at the loop's depth, that is the row from entry `i` on. */
  lemma HeadsRow(level: nat, indent: string, items: seq<Entry>, i: nat, sub: seq<Line>, rest: seq<Line>,
                 out: seq<Line>)
    requires i < |items|
    requires out == [Line(level, indent, ConnectorAt(i, |items|), items[i])] + sub + rest
    requires forall line :: line in sub ==> line.level > level
    requires Outline.Heads(rest, Depth, level) == Row(level, indent, items, i + 1)
    ensures Outline.Heads(out, Depth, level) == Row(level, indent, items, i)
  {
    Outline.HeadsDeeper(sub, Depth, level);
    Outline.HeadsStep(Line(level, indent, ConnectorAt(i, |items|), items[i]), sub, rest, Depth, level);
    RowStep(level, indent, items, i);
  }

  lemma RowStep(level: nat, indent: string, items: seq<Entry>, i: nat)
    requires i < |items|
    ensures Row(level, indent, items, i)
         == [Line(level, indent, ConnectorAt(i, |items|), items[i])] + Row(level, indent, items, i + 1)
  {
  }

  /** The lines a crawl prints at its own depth are exactly the directory's
      listed entries, sorted (with `list_reverse`'s swaps applied under
      `-r`), each under `├──`
      except the last, which is under `└──`. */
  lemma CrawlHeads(fs: FileSystem, cfg: Config, dir: string, level: nat, indent: string)
    requires cfg.maxDepth > 0 ==> level < cfg.maxDepth
    requires dir in fs && fs[dir].Entries?
    ensures var r := Crawl(fs, cfg, dir, level, indent);
            var items := Ordered(cfg, ReadDir(cfg, dir, fs[dir].entries).0.entities);
            r.Ok? ==> Outline.Heads(r.value.0, Depth, level) == Row(level, indent, items, 0)
  {
    var read := ReadDir(cfg, dir, fs[dir].entries);
    var items := Ordered(cfg, read.0.entities);
    if EntryList.ListIsEmpty(read.0) {
      assert |items| == 0;
    } else {
      CrawlUnfold(fs, cfg, dir, level, indent);
      PrintHeads(fs, cfg, dir, level, indent, items, 0);
    }
  }
}

=== FILE: wrappers.dfy ===
/** Failure-compatible wrappers shared by the C and the Go models. */
module Wrappers {

  /** An optional value. */
  datatype Option<+T> = None | Some(value: T)

  /** The outcome of an operation that can fail fatally. */
  datatype Result<+T, +E> = Ok(value: T) | Err(error: E) {
    predicate IsFailure() {
      Err?
    }

    function PropagateFailure<U>(): Result<U, E>
      requires Err?
    {
      Err(error)
    }

    function Extract(): T
      requires Ok?
    {
      value
    }
  }
}
